=== FILE: README.md ===
# id128 in Dafny

A model of the core of `id128`, a JavaScript library that generates,
compares and encodes 128-bit identifiers: ULID, monotonic ULID, UUID
versions 1, 4 and 6, and the nil UUID. It also models the factories that
bind an identifier class to a canonical and a raw text coder, and the
versioned factory that dispatches on a UUID's version nibble.

The model is pure Dafny over immutable values:

- A byte is `0..255`.
- A buffer is a `seq<byte>`.
- An identifier is `Id(kind, bytes)`, where the kind tags the class.
- Every thrown error is a `Fail` of one `Error` datatype.
- The library's module-level generator state becomes an explicit value. This is the monotonic ULID's previous time and id, and the time-based UUIDs' clock sequence, hires counter and previous time. `generate` takes the state and returns the next one.
- The outside world is passed in as parameters: the clock reading `now`, a sixteen-byte `random` buffer and the machine's `mac`.

JavaScript's bit operations on small non-negative numbers are written as
arithmetic:

- a left shift is a multiplication;
- a right shift is a division;
- an `|` of disjoint bits is an addition;
- a store into a `Uint8Array` keeps the value modulo 256.

One module per source file:

| module | source |
|---|---|
| `ByteArray`, `ByteOrder` | `src/common/byte-array.js` (the comparison, filled buffers); `ByteOrder` relates `compare` to the unsigned big-endian value |
| `UintConverter` | `src/common/uint-converter.js` |
| `EpochConverter` | `src/common/epoch-converter.js` |
| `BaseId` | `src/id/base.js` |
| `CoderBase`, `HexCoder`, `UuidCoder`, `Crockford32Coder` | `src/coder/base.js`, `hex.js`, `uuid.js`, `crockford32.js` |
| `Uuid`, `Uuid4`, `UuidNil`, `Uuid1`, `Uuid6`, `UuidClock` | `src/id/uuid.js`, `uuid-4.js`, `uuid-nil.js`, `uuid-1.js`, `uuid-6.js`; `UuidClock` holds the counter logic that `uuid-1.js` and `uuid-6.js` share |
| `Ulid`, `UlidMonotonic` | `src/id/ulid.js`, `src/id/ulid-monotonic.js` |
| `IdFactory`, `UlidFactory`, `VersionedIdFactory` | `src/factory/id.js`, `ulid.js`, `versioned-id.js` |
| `Errors` | the error kinds and the `Result`/`Option` wrappers |

The main properties proved:

- Both text coders are lossless in both directions. Decoding an encoding gives the bytes back. Encoding a decoding gives back the canonical text. Each decoder accepts exactly the texts its pattern describes, in either case.
- `compare` on identifiers is the unsigned big-endian order of their bytes. It is antisymmetric and transitive.
- ULIDs sort by time.
- A monotonic ULID is strictly greater than the one before it, whatever time it is given, once `generate` compares the coerced milliseconds. The code as written compares the raw argument, which breaks this for an absent or `null` time (see Findings).
- Successive version-6 UUIDs increase unless the hires counter wraps.
- The UUID variant and version setters are read back by their getters. Each setter touches only its own bits.
- Every generated identifier lies between its class's `MIN` and `MAX`.
- The versioned factory's table files every class under its `MIN`'s version. A later class with the same version overrides an earlier one.

## Model

| member | source | states |
|---|---|---|
| ByteArray.ZeroFilled | src/common/byte-array.js:27-29 | `generateZeroFilled` gives sixteen bytes, every one 0 |
| ByteArray.OneFilled | src/common/byte-array.js:15-17 | `generateOneFilled` gives sixteen bytes, every one 0xFF |
| ByteArray.Compare | src/common/byte-array.js:4-9 | `compare` is 0 exactly when `lhs` equals the same-length prefix of `rhs`; otherwise it is the sign of the difference at the first mismatching index |
| ByteArray.PointwiseLeCompare | src/common/byte-array.js:4-9 | a buffer that is bytewise no greater than another never compares above it |
| ByteArray.FilledBuffersBound | src/common/byte-array.js:4-29 | every sixteen-byte buffer compares between the all-zero and the all-one buffer |
| UintConverter.AssignUint | src/common/uint-converter.js:4-17 | `assignUint` writes only indices `[begin, end)` and leaves every other byte as it was |
| UintConverter.ExtractUint | src/common/uint-converter.js:19-25 | `extractUint` of `n` bytes is below `256^n` |
| UintConverter.ExtractUintFrame | src/common/uint-converter.js:19-25 | `extractUint` depends only on the bytes in `[begin, end)` |
| UintConverter.ExtractUintSplit | src/common/uint-converter.js:19-25 | the big-endian value of a range is the value of its head shifted over the tail plus the value of the tail |
| UintConverter.AssignExtract | src/common/uint-converter.js:4-25 | reading back what `assignUint` wrote gives the value modulo `256^(end-begin)`, so the base-256 walk stores the low-order bytes |
| UintConverter.AssignExtractFits | src/common/uint-converter.js:4-25 | a value that fits in the range survives `assignUint` then `extractUint` unchanged |
| ByteOrder.ValueHead | src/common/uint-converter.js:19-25 | the leading byte of a big-endian value weighs `256^(n-1)` |
| ByteOrder.CompareIsUnsignedOrder | src/common/byte-array.js:4-9 | for equal lengths `compare` is the sign of the difference of the big-endian unsigned values |
| ByteOrder.CompareAntisymmetric | src/common/byte-array.js:4-9 | swapping the operands negates `compare` |
| ByteOrder.CompareTransitive | src/common/byte-array.js:4-9 | `compare` is a transitive preorder |
| ByteOrder.CompareStrictTransitive | src/common/byte-array.js:4-9 | strictly lower then not higher is strictly lower |
| ByteOrder.CompareSplit | src/common/byte-array.js:4-9 | a differing leading segment decides `compare`; an equal one defers it to the rest |
| ByteOrder.PrefixValueDecides | src/common/byte-array.js:4-9 | buffers whose first `k` bytes spell a smaller number compare lower, whatever follows |
| EpochConverter.ToEpoch | src/common/epoch-converter.js:11-29 | `toEpoch` takes null to the clock, an integer as is and a Date by its time; any other value throws; for an integer or a valid Date it answers `coerced - origin` exactly when that lies in `[0, 2^48)` and throws InvalidEpoch otherwise (an Invalid Date is under Left out) |
| EpochConverter.FromEpoch | src/common/epoch-converter.js:7-9 | `toEpoch` accepts the instant `fromEpoch` returns exactly when the offset lies in the 48-bit window, and then gives back the offset, for the instant as an integer or as a Date |
| EpochConverter.EpochRoundTrip | src/common/epoch-converter.js:7-29 | `toEpoch` of `fromEpoch(origin, e)` gives back every in-range `e`, as an integer or as a Date |
| EpochConverter.InstantRoundTrip | src/common/epoch-converter.js:7-29 | `fromEpoch` of an accepted `toEpoch` gives back the instant that was coerced |
| BaseId.Clone | src/id/base.js:14-16 | `clone` keeps the class and copies the bytes |
| BaseId.Compare | src/id/base.js:30-32 | id comparison is byte comparison: 0 iff the bytes are equal, else the sign of the difference of the big-endian values |
| BaseId.Equal | src/id/base.js:34-36 | `equal` is `compare(rhs) === 0`, which for equal lengths is byte equality |
| BaseId.CompareAntisymmetric | src/id/base.js:30-36 | id comparison is antisymmetric and equality symmetric |
| BaseId.CloneIsEqual | src/id/base.js:14-36 | a clone is equal to its original |
| CoderBase.IsValidBytes | src/coder/base.js:39-43 | `isValidBytes` accepts exactly the sixteen-byte Uint8Arrays, and each one it accepts sorts between the all-zero and the all-one buffer |
| CoderBase.UpperChar | src/coder/hex.js:15-21 | the ASCII case map, which is all the source applies `toUpperCase` to (hex and Crockford alphabet characters): a lower-case ASCII letter becomes its capital, every other character stays |
| CoderBase.LowerChar | src/coder/hex.js:15-21 | the ASCII case map, which is all the source applies `toLowerCase` to (hex and Crockford alphabet characters): a capital ASCII letter becomes its small form, every other character stays |
| CoderBase.Upper | src/coder/hex.js:15-21 | upper-casing keeps the length and leaves no lower-case letter. Only lower-case letters change, so a text without one is returned unchanged |
| CoderBase.Lower | src/coder/hex.js:15-21 | lower-casing keeps the length and leaves no capital. Only capitals change, so a text without one is returned unchanged |
| CoderBase.CaseFolding | src/coder/hex.js:15-21 | the case maps forget the case a letter had: upper- or lower-casing after either map gives the same text as from the original, and each map is idempotent |
| HexCoder.NibbleTable | src/coder/hex.js:5-26 | `HEX_TO_BYTE` maps each alphabet digit, in either case, to its index, and is defined exactly on the characters the pattern admits |
| HexCoder.NibbleIgnoresCase | src/coder/hex.js:15-21 | the nibble table reads either case alike |
| HexCoder.DecodeTrusted | src/coder/hex.js:30-52 | `decodeTrusted` always yields a fresh sixteen-byte buffer |
| HexCoder.EncodeTrusted | src/coder/hex.js:54-60 | `encodeTrusted` writes two uppercase hex digits per byte |
| HexCoder.IsValidEncoding | src/coder/base.js:45-49 | the pattern `/^[0-9A-Fa-f]{32}$/` accepts exactly the 32-character strings whose every character is in `HEX_TO_BYTE` |
| HexCoder.Decode | src/coder/base.js:20-49 | `decode` succeeds exactly on a string of 32 hex digits, giving `decodeTrusted`; anything else throws InvalidDecodingError |
| HexCoder.Encode | src/coder/base.js:29-43 | `encode` succeeds exactly on a sixteen-byte Uint8Array, giving 32 digits; anything else throws InvalidEncodingError |
| HexCoder.DecodeAsWritten | src/coder/base.js:20-27 | `decode` as written never returns: a valid text reaches the undefined `this._decode` and throws TypeError, any other value throws InvalidDecodingError |
| HexCoder.EncodeAsWritten | src/coder/base.js:29-37 | `encode` as written never returns: sixteen bytes reach the undefined `this._encode` and throw TypeError, any other value throws InvalidEncodingError |
| HexCoder.CodecCorrectsAsWritten | src/coder/base.js:20-37 | the corrected `decode` and `encode` succeed exactly where the code as written throws TypeError; everywhere else the two throw the same error |
| HexCoder.ValidInputThrowsAsWritten | src/coder/base.js:20-37 | for every sixteen-byte buffer, the code as written throws on the buffer and on its encoding, which the corrected coder decodes back to the buffer |
| HexCoder.BytesRoundTrip | src/coder/hex.js:30-60 | decoding the encoding of any sixteen bytes gives them back |
| HexCoder.TextRoundTrip | src/coder/hex.js:30-60 | encoding the decoding of any 32 uppercase digits gives them back |
| HexCoder.DecodeTrustedIgnoresCase | src/coder/hex.js:15-52 | upper- or lower-casing the text does not change the decoded bytes |
| HexCoder.FilledEncodings | src/coder/hex.js:54-60 | the all-zero buffer encodes to 32 `0`, the all-one buffer to 32 `F` |
| HexCoder.EncodeThenDecode | src/coder/base.js:20-43 | through the validating entry points, every sixteen-byte buffer survives encode then decode |
| HexCoder.DecodeThenEncode | src/coder/base.js:20-43 | every canonical (uppercase) encoding survives decode then encode |
| HexCoder.DecodeIgnoresCase | src/coder/base.js:20-27 | `decode` accepts, rejects and decodes either case alike |
| UuidCoder.RemoveHyphens | src/coder/uuid.js:9 | `replace(/-/g, '')` leaves no hyphen and never lengthens |
| UuidCoder.RemoveHyphensAppend | src/coder/uuid.js:9 | stripping hyphens distributes over concatenation |
| UuidCoder.RemoveHyphensNone | src/coder/uuid.js:9 | a text without hyphens is unchanged |
| UuidCoder.RemoveHyphensCase | src/coder/uuid.js:9 | stripping hyphens commutes with changing case |
| UuidCoder.DecodeAsWritten | src/coder/uuid.js:7-15 | `decode` as written: a non-string throws, a valid text decodes, and an invalid text returns undefined |
| UuidCoder.InvalidTextIsSwallowed | src/coder/uuid.js:11 | the text `zz` gives undefined instead of an error |
| UuidCoder.Decode | src/coder/uuid.js:7-15 | `decode` as intended: succeeds exactly when the text with hyphens removed is 32 hex digits, and otherwise throws InvalidDecodingError |
| UuidCoder.DecodeOverHexAsWritten | src/coder/uuid.js:7-15 | `decode` as written, over the hex coder as written, never decodes: a text valid after hyphen removal throws InvalidDecodingError (the caught TypeError) and an invalid one returns undefined |
| UuidCoder.EncodeOverHexAsWritten | src/coder/uuid.js:17-18 | `encode` as written, over the hex coder as written, throws TypeError on every sixteen-byte buffer and InvalidEncodingError otherwise |
| UuidCoder.UuidTextRefusedOverHexAsWritten | src/coder/uuid.js:7-27 | for every sixteen-byte buffer, the code as written refuses to encode it and throws on its hyphenated encoding, which the corrected coder decodes back |
| UuidCoder.DecodeCorrectsAsWritten | src/coder/uuid.js:7-15 | the corrected decode agrees with the code as written wherever that returns bytes or throws |
| UuidCoder.Group | src/coder/uuid.js:20-26 | the 8-4-4-4-12 grouping gives 36 characters with hyphens at 8, 13, 18 and 23 |
| UuidCoder.Encode | src/coder/uuid.js:17-27 | `encode` succeeds exactly on a sixteen-byte Uint8Array and gives the hyphenated form |
| UuidCoder.UngroupGroup | src/coder/uuid.js:9-26 | stripping the hyphens of the grouped form gives the 32 digits back |
| UuidCoder.EncodeThenDecode | src/coder/uuid.js:7-27 | every sixteen-byte buffer survives encode then decode, both as written and as corrected |
| UuidCoder.DecodeThenEncode | src/coder/uuid.js:7-27 | every canonical hyphenated text survives decode then encode |
| UuidCoder.DecodeIgnoresHyphen | src/coder/uuid.js:9 | inserting a hyphen anywhere does not change the decoding |
| UuidCoder.DecodeIgnoresCase | src/coder/uuid.js:9 | `decode` reads either case alike |
| UuidCoder.ZeroEncoding | src/coder/uuid.js:17-27 | the all-zero buffer encodes to the nil UUID text |
| UuidCoder.OneEncoding | src/coder/uuid.js:17-27 | the all-one buffer encodes to the all-F UUID text |
| Crockford32Coder.QuintetTable | src/coder/crockford32.js:3-19 | `CHAR_TO_QUINTET` maps each alphabet character, in either case, to its index |
| Crockford32Coder.LookAlikes | src/coder/crockford32.js:9-18 | `I`, `L` read as 1, `O` as 0 and `U` as V (27), in either case |
| Crockford32Coder.IsValidEncoding | src/coder/crockford32.js:117-121 | the pattern `/^[0-7][^\W_]{25}$/` accepts exactly the 26-character strings that start with a digit 0-7 and whose every character is in `CHAR_TO_QUINTET`; the first character carries at most three bits |
| Crockford32Coder.TableCoversPattern | src/coder/crockford32.js:5-19 | every character the pattern admits has a quintet, and every quintet is below 32 |
| Crockford32Coder.QuintetIgnoresCase | src/coder/crockford32.js:7-19 | the quintet table reads either case alike |
| Crockford32Coder.QuintetOfChar | src/coder/crockford32.js:20-28 | `_charToQuintet` of `_quintetToChar(q)` is `q & 31` |
| Crockford32Coder.Decode | src/coder/crockford32.js:31-61 | `decode` succeeds exactly on the pattern `[0-7]` then 25 letters or digits, giving sixteen bytes; anything else throws InvalidDecodingError |
| Crockford32Coder.Encode | src/coder/crockford32.js:63-109 | `encode` succeeds exactly on a sixteen-byte Uint8Array, giving 26 alphabet characters whose first is `0`-`7` |
| Crockford32Coder.EncodedAlphabet | src/coder/crockford32.js:63-109 | every encoded character is from the alphabet, the first from `0`-`7` |
| Crockford32Coder.GroupBytesRoundTrip | src/coder/crockford32.js:42-80 | rebuilding five bytes from their eight masked quintets gives the bytes back |
| Crockford32Coder.GroupQuintetsRoundTrip | src/coder/crockford32.js:42-80 | splitting the five bytes rebuilt from eight quintets gives the quintets back |
| Crockford32Coder.ReadBackQuintets | src/coder/crockford32.js:26-106 | looking up the encoded characters gives the masked quintets they were written from |
| Crockford32Coder.MaskedQuintetsRebuild | src/coder/crockford32.js:40-99 | the bytes rebuilt from the masked quintets of sixteen bytes are those bytes |
| Crockford32Coder.BytesRoundTrip | src/coder/crockford32.js:31-109 | decoding the encoding of sixteen bytes gives them back |
| Crockford32Coder.QuintetsRebuild | src/coder/crockford32.js:40-99 | re-splitting the bytes built from 26 quintets, the first below 8, gives the quintets back |
| Crockford32Coder.TextRoundTrip | src/coder/crockford32.js:31-109 | encoding the decoding of a canonical text gives it back |
| Crockford32Coder.EncodeThenDecode | src/coder/crockford32.js:31-121 | through the validating entry points, every sixteen-byte buffer survives encode then decode |
| Crockford32Coder.DecodeThenEncode | src/coder/crockford32.js:31-121 | every canonical (uppercase) encoding survives decode then encode |
| Crockford32Coder.ValidityIgnoresCase | src/coder/crockford32.js:117-121 | the validity pattern accepts either case alike |
| Crockford32Coder.DecodeCharsIgnoresCase | src/coder/crockford32.js:7-58 | the decoded bytes do not depend on case |
| Crockford32Coder.DecodeIgnoresCase | src/coder/crockford32.js:31-61 | `decode` accepts, rejects and decodes either case alike |
| Crockford32Coder.FilledEncodings | src/coder/crockford32.js:63-109 | the all-zero buffer encodes to 26 `0`; the all-one buffer to `7` then 25 `Z` |
| Uuid.SetVariant | src/id/uuid.js:8-11 | `setVariant(v)` changes only byte 8, keeps its low `7 - v` bits, and writes the top-bit pattern `0`, `10`, `110` or `1110` |
| Uuid.SetVersion | src/id/uuid.js:13-16 | `setVersion(v)` changes only byte 6, keeps its low nibble and puts `v` in the high nibble |
| Uuid.Variant | src/id/uuid.js:19-28 | the variant getter reads 0, 1, 2 or 3 exactly on the byte-8 ranges below 0x80, 0x80-0xBF, 0xC0-0xDF and from 0xE0 |
| Uuid.Version | src/id/uuid.js:30-32 | the version getter is the high nibble of byte 6 |
| Uuid.VariantAfterSet | src/id/uuid.js:8-28 | the getter reads back the variant the setter wrote |
| Uuid.VersionAfterSet | src/id/uuid.js:13-32 | the getter reads back the version the setter wrote |
| Uuid.SetIdempotent | src/id/uuid.js:8-16 | setting the variant or the version twice is setting it once |
| Uuid.FieldsIndependent | src/id/uuid.js:8-32 | setting one field keeps the other, and the two setters commute |
| Uuid4.Stamp | src/id/uuid-4.js:14-15 | variant 1 and version 4, with every byte but 6 and 8 unchanged and their low bits kept |
| Uuid4.Generate | src/id/uuid-4.js:11-18 | `generate` stamps the random buffer: variant 1, version 4, 122 random bits kept |
| Uuid4.Min | src/id/uuid-4.js:20-27 | `MIN` is zeros with 0x40 at byte 6 and 0x80 at byte 8 |
| Uuid4.Max | src/id/uuid-4.js:29-36 | `MAX` is ones with 0x4F at byte 6 and 0xBF at byte 8 |
| Uuid4.BoundsAreStamped | src/id/uuid-4.js:20-36 | both bounds read variant 1 and version 4 |
| Uuid4.GenerateWithinBounds | src/id/uuid-4.js:11-36 | every generated id lies between `MIN` and `MAX` |
| UuidNil.Stamp | src/id/uuid-nil.js:14-15 | variant 0 and version 0, which leave the zero buffer as it is |
| UuidNil.Generate | src/id/uuid-nil.js:11-18 | `generate` gives the all-zero id |
| UuidNil.Min | src/id/uuid-nil.js:20-27 | `MIN` is the all-zero id |
| UuidNil.Max | src/id/uuid-nil.js:29-36 | `MAX` is the all-zero id |
| UuidNil.NilIdsAgree | src/id/uuid-nil.js:11-36 | `generate`, `MIN` and `MAX` are equal ids with variant 0 and version 0 |
| UuidClock.Reset | src/id/uuid-1.js:83-87 | `reset` clears the clock sequence and sets both counters to -1 |
| UuidClock.Increment | src/id/uuid-1.js:30-32 | `incrementClockSequence` adds one modulo 2^14, wrapping 16383 to 0 |
| UuidClock.Seed | src/id/uuid-1.js:36-40 | the seed read from random bytes 8-9 is a 14-bit number: its low byte is byte 9 and its high six bits are the low six bits of byte 8 |
| UuidClock.Advance | src/id/uuid-1.js:34-104 | one `generate` seeds the clock sequence if needed, keeps the state valid and never moves the previous time backwards |
| UuidClock.AdvanceRules | src/id/uuid-1.js:42-62 | a later time restarts hires at 0; the same time bumps hires, and on wrap-around the clock sequence; an earlier time bumps hires and the clock sequence, and when that hires bump wraps, the clock sequence is bumped a second time |
| UuidClock.AdvanceFromReset | src/id/uuid-1.js:36-87 | the first `generate` after `reset` seeds the clock and starts hires at 0 |
| UuidClock.RepeatedTimeMovesCounters | src/id/uuid-1.js:57-62 | a repeated time always changes the (hires, clock sequence) pair |
| Uuid1.EpochMs | src/id/uuid-1.js:123-138 | the time getter's milliseconds lie below 2^48, the millisecond part of the 60-bit time field |
| Uuid1.Time | src/id/uuid-1.js:123-138 | the `time` getter lies in the 48-bit window after 1582-10-15, and `toEpoch` of it as a Date gives back the stored milliseconds |
| Uuid1.Hires | src/id/uuid-1.js:115-117 | the `hires_time` getter is below 2^12 |
| Uuid1.ClockSequence | src/id/uuid-1.js:111-113 | the `clock_sequence` getter is below 2^14 |
| Uuid1.Node | src/id/uuid-1.js:119-121 | the `node` getter is bytes 10-15 |
| Uuid1.SetTime | src/id/uuid-1.js:57-77 | `setTime` writes bytes 0-7 only, leaves the version nibble clear, and the time and hires getters read back the time and hires it wrote |
| Uuid1.SetClockSequence | src/id/uuid-1.js:46-48 | the store writes bytes 8-9 only and the getter reads the sequence back |
| Uuid1.NodeBytes | src/id/uuid-1.js:51-55 | the six node bytes are the node's own, with zero past the end of a short node |
| Uuid1.SetNode | src/id/uuid-1.js:51-55 | `setNode` writes bytes 10-15 only and the getter reads the node back |
| Uuid1.Stamp | src/id/uuid-1.js:99-100 | variant 1 and version 1, touching only the high bits of bytes 6 and 8 |
| Uuid1.Layout | src/id/uuid-1.js:94-100 | an id built from zeros carries variant 1, version 1 and reads back its time, hires, clock sequence and node |
| Uuid1.FieldsFrame | src/id/uuid-1.js:111-138 | each getter reads only its own bytes |
| Uuid1.Generate | src/id/uuid-1.js:91-107 | `generate` fails with InvalidEpoch exactly when `toEpoch` does; otherwise the id reads back the time given, the new hires and clock sequence, and the node (the MAC when none is given) |
| Uuid1.MinAsWritten | src/id/uuid-1.js:79-139 | `Uuid1.MIN` is not defined, so calling it is a TypeError |
| Uuid1.MaxAsWritten | src/id/uuid-1.js:79-139 | `Uuid1.MAX` is not defined, so calling it is a TypeError |
| Uuid1.Min | src/id/uuid-4.js:20-27 | intended `MIN`: zeros with 0x10 at byte 6 and 0x80 at byte 8 |
| Uuid1.Max | src/id/uuid-4.js:29-36 | intended `MAX`: ones with 0x1F at byte 6 and 0xBF at byte 8 |
| Uuid1.BoundsEncloseGenerated | src/id/uuid-1.js:79-139 | the intended bounds carry variant 1 and version 1 and enclose every generated id |
| Uuid6.EpochMs | src/id/uuid-6.js:128-141 | the time getter's milliseconds lie below 2^48, the millisecond part of the 60-bit time field |
| Uuid6.Time | src/id/uuid-6.js:128-141 | the `time` getter lies in the 48-bit window after 1582-10-15, and `toEpoch` of it as a Date gives back the stored milliseconds |
| Uuid6.EpochMsIsPrefix | src/id/uuid-6.js:128-141 | the time field is the big-endian value of bytes 0-5 |
| Uuid6.Hires | src/id/uuid-6.js:116-122 | the `hires_time` getter is below 2^12 |
| Uuid6.SetTime | src/id/uuid-6.js:55-74 | `setTime` writes bytes 0-7 only, leaves the version nibble clear, and the getters read back the time and hires it wrote |
| Uuid6.Stamp | src/id/uuid-6.js:96-97 | variant 1 and version 6, touching only the high bits of bytes 6 and 8 |
| Uuid6.FieldsFrame | src/id/uuid-6.js:108-141 | the time getter reads bytes 0-5 only and the hires getter bytes 6-7 below the version |
| Uuid6.Layout | src/id/uuid-6.js:91-97 | an id built from zeros carries variant 1, version 6, reads back its fields, and has `0x6000 + hires` in bytes 6-7 |
| Uuid6.LayoutOrder | src/id/uuid-6.js:55-74 | ids order by time, then by hires, whatever the clock sequence and node |
| Uuid6.Generate | src/id/uuid-6.js:88-104 | `generate` fails with InvalidEpoch exactly when `toEpoch` does; otherwise the id reads back the time given, the new hires and clock sequence, and the node |
| Uuid6.SuccessiveIdsIncrease | src/id/uuid-6.js:55-104 | an id generated after another sorts after it when its time is later, or the same without the hires counter wrapping |
| Uuid6.MinAsWritten | src/id/uuid-6.js:76-142 | `Uuid6.MIN` is not defined, so calling it is a TypeError |
| Uuid6.MaxAsWritten | src/id/uuid-6.js:76-142 | `Uuid6.MAX` is not defined, so calling it is a TypeError |
| Uuid6.Min | src/id/uuid-4.js:20-27 | intended `MIN`: zeros with 0x60 at byte 6 and 0x80 at byte 8 |
| Uuid6.Max | src/id/uuid-4.js:29-36 | intended `MAX`: ones with 0x6F at byte 6 and 0xBF at byte 8 |
| Uuid6.BoundsEncloseGenerated | src/id/uuid-6.js:76-142 | the intended bounds carry variant 1 and version 6 and enclose every generated id |
| Ulid.NewDate | src/id/ulid.js:35-37 | `new Date(n)` is invalid exactly when `|n|` exceeds 8.64e15 ms, and otherwise holds `n` |
| Ulid.ToDate | src/id/ulid.js:19-41 | `generate`'s coercion: anything but an integer, null or a Date is a TypeError; only an out-of-range integer gives an Invalid Date |
| Ulid.SetTime | src/id/ulid.js:10-16 | `_setTime` writes bytes 0-5 only, and the `time` getter reads back any time below 2^48 |
| Ulid.SetTimeNaN | src/id/ulid.js:10-16 | `_setTime` of NaN zeroes bytes 0-5 and keeps the rest |
| Ulid.Time | src/id/ulid.js:61-67 | the `time` getter is below 2^48 |
| Ulid.GenerateFromDate | src/id/ulid.js:18-48 | for a Date, `generate` succeeds exactly on a valid time in `[0, 2^48)`, else RangeError; the id carries the time and the random tail |
| Ulid.GenerateBytes | src/id/ulid.js:34-49 | `generate` succeeds exactly when the coerced time lies in `[0, 2^48)`; a non-time is a TypeError, an out-of-range time a RangeError; the id carries the time and ten random bytes |
| Ulid.Generate | src/id/ulid.js:34-49 | the generated bytes are wrapped as a Ulid, and the errors are passed through |
| Ulid.GenerateBytesAsWritten | src/id/ulid.js:18-49 | `generate` as written: a non-time is a TypeError and an out-of-range valid Date a RangeError, but an Invalid Date passes with zero time bytes; otherwise it agrees with the intended range and time, and keeps the random tail |
| Ulid.InvalidDateSlipsThrough | src/id/ulid.js:25-37 | for the integer 10^16 the code as written returns an id with time 0 where a RangeError is intended |
| Ulid.GenerateCorrectsAsWritten | src/id/ulid.js:18-49 | the corrected `generate` agrees with the code as written on everything but an Invalid Date |
| Ulid.Min | src/id/ulid.js:51-53 | `MIN` is the all-zero id |
| Ulid.Max | src/id/ulid.js:55-57 | `MAX` is the all-one id |
| Ulid.Bounds | src/id/ulid.js:51-67 | `MIN` carries time 0, `MAX` time 2^48 - 1, and every id lies between them |
| Ulid.EarlierTimeSortsFirst | src/id/ulid.js:10-67 | an earlier time makes a smaller id whatever the random bytes |
| Ulid.GenerateIsTimeOrdered | src/id/ulid.js:34-49 | an id generated for an earlier time sorts before one for a later time |
| UlidMonotonic.Reset | src/id/ulid-monotonic.js:49-52 | `resetClockSequence` sets the previous time to -1 and the previous id to `MIN` |
| UlidMonotonic.Increment | src/id/ulid-monotonic.js:7-20 | `_incrementClockSequence` adds one to the 24-bit counter in bytes 6-8, throws exactly when it is all ones, and touches nothing else |
| UlidMonotonic.Reserve | src/id/ulid-monotonic.js:22-24 | `_reserveClockSequence` clears only the top bit of byte 6, leaving the counter below 2^23 |
| UlidMonotonic.Restore | src/id/ulid-monotonic.js:26-28 | `_restoreClockSequence` copies bytes 0-10 of the previous id and keeps bytes 11-15 |
| UlidMonotonic.Generate | src/id/ulid-monotonic.js:34-47 | ULID errors pass through and the only other failure is counter overflow; a success yields a valid state whose previous id is the returned Ulid-monotonic id, and the previous time never goes backwards |
| UlidMonotonic.GenerateSpec | src/id/ulid-monotonic.js:34-47 | ULID errors pass through; overflow happens exactly on a not-later time with an all-ones counter; otherwise the new state is valid and the id carries the later of the two times |
| UlidMonotonic.GenerateIncreases | src/id/ulid-monotonic.js:34-47 | once anything has been generated, every further id sorts strictly after the previous one |
| UlidMonotonic.GenerateAfterReset | src/id/ulid-monotonic.js:34-52 | the first id after a reset is the plain ULID with the counter's top bit cleared |
| UlidMonotonic.Min | src/id/ulid.js:51-53 | the inherited `MIN` is the all-zero id |
| UlidMonotonic.Max | src/id/ulid.js:55-57 | the inherited `MAX` is the all-one id |
| UlidMonotonic.ToTimeArg | src/id/ulid.js:18-25 | `Ulid.generate` reads both `null` and an absent argument as now, and any non-time as a type error |
| UlidMonotonic.LooseNumber | src/id/ulid-monotonic.js:37 | the loose `<=` reads `undefined` and a non-number as NaN, `null` as 0 |
| UlidMonotonic.ResetAsWritten | src/id/ulid-monotonic.js:49-52 | `resetClockSequence` stores the number -1 and `MIN` |
| UlidMonotonic.GenerateAsWritten | src/id/ulid-monotonic.js:34-47 | `generate` as written: ULID errors pass through; when the raw argument is `<=` the stored one the previous id's time is kept and its counter goes up by one, overflowing only at all ones; otherwise the raw argument is stored and the id carries the coerced time with a counter below 2^23 |
| UlidMonotonic.GenerateCorrectsAsWritten | src/id/ulid-monotonic.js:34-47 | for an integer or Date argument and stored time, the code as written and the corrected `generate` give the same outcome, id and stored milliseconds |
| UlidMonotonic.AbsentTimeIsFresh | src/id/ulid-monotonic.js:34-47 | without an argument `generate` as written never fails and always takes the fresh branch: it stores `undefined` and returns the clock's ULID with the counter's top bit cleared |
| UlidMonotonic.AbsentTimeBreaksOrder | src/id/ulid-monotonic.js:34-47 | two `generate()` calls in one millisecond both take the fresh branch, and the second id can sort below the first |
| UlidMonotonic.NullTimeReadsAsZero | src/id/ulid-monotonic.js:34-47 | after `generate(5000)`, `generate(null)` at clock 10000 returns an id for 5000 as written, and for 10000 once corrected |
| IdFactory.Decode | src/factory/id.js:36-42 | each coder's `decode` gives sixteen bytes or throws InvalidDecodingError |
| IdFactory.Encode | src/factory/id.js:44-50 | each coder's `encode` succeeds exactly on a sixteen-byte Uint8Array |
| IdFactory.CoderRoundTrip | src/factory/id.js:36-50 | every coder reads back what it writes |
| IdFactory.ClassGenerate | src/factory/id.js:22-24 | a class's `generate` gives an id of that class, keeps the generator states valid and changes only its own; the abstract classes have none |
| IdFactory.ClassMin | src/factory/id.js:26-28 | a class's `MIN` is defined exactly on the concrete classes |
| IdFactory.ClassMax | src/factory/id.js:30-32 | a class's `MAX` is defined exactly on the concrete classes |
| IdFactory.ClassBoundsOrdered | src/factory/id.js:26-32 | `MIN` is below `MAX` for every concrete class but the nil UUID, whose bounds are equal |
| IdFactory.New | src/factory/id.js:10-18 | the constructor binds the class and coders with empty caches |
| IdFactory.Generate | src/factory/id.js:22-24 | `generate` forwards its arguments to the class's own `generate` |
| IdFactory.Min | src/factory/id.js:26-28 | `MIN()` answers the cached bound, or the class's and caches it; an error caches nothing |
| IdFactory.Max | src/factory/id.js:30-32 | `MAX()` answers the cached bound, or the class's and caches it |
| IdFactory.BoundsAreCached | src/factory/id.js:26-32 | a second call answers the same id, and filling one cache does not disturb the other |
| IdFactory.FromCanonical | src/factory/id.js:36-38 | `fromCanonical` succeeds exactly when the canonical coder does, giving an id of the factory's class |
| IdFactory.FromRaw | src/factory/id.js:40-42 | `fromRaw` succeeds exactly when the raw coder does |
| IdFactory.ToCanonical | src/factory/id.js:44-46 | `toCanonical` succeeds exactly on sixteen bytes |
| IdFactory.ToRaw | src/factory/id.js:48-50 | `toRaw` succeeds exactly on sixteen bytes |
| IdFactory.TextRoundTrips | src/factory/id.js:36-50 | through either coder an id comes back with its bytes as an id of the factory's class |
| IdFactory.Compare | src/factory/id.js:54-56 | `compare` is the unsigned big-endian order of the bytes |
| IdFactory.Equal | src/factory/id.js:58-60 | `equal` is byte equality |
| UlidFactory.New | src/factory/ulid.js:59 | the exported instance starts with empty caches |
| UlidFactory.ToDate | src/factory/ulid.js:11-20 | the factory's coercion: only a non-time fails, and a valid Date holds the coerced milliseconds |
| UlidFactory.Generate | src/factory/ulid.js:11-20 | `generate` succeeds exactly when the coerced time lies in `[0, 2^48)`; the id is a Ulid carrying that time and the random tail |
| UlidFactory.GenerateIsClassGenerate | src/factory/ulid.js:11-20 | coercing in the factory and again in the class is coercing once: the factory generates what `Ulid.generate` does |
| UlidFactory.Min | src/factory/ulid.js:22-24 | `MIN()` answers the cached bound or `Ulid.MIN()` and caches it |
| UlidFactory.Max | src/factory/ulid.js:26-28 | `MAX()` answers the cached bound or `Ulid.MAX()` and caches it |
| UlidFactory.BoundsAreCached | src/factory/ulid.js:22-28 | from a fresh factory the bounds are the class's, the same id every time |
| UlidFactory.GenerateWithinBounds | src/factory/ulid.js:11-28 | `MIN() < MAX()`, every generated id lies between them, strictly unless its time is an extreme |
| UlidFactory.FromCanonical | src/factory/ulid.js:32-34 | `fromCanonical` succeeds exactly on a valid Crockford text |
| UlidFactory.FromRaw | src/factory/ulid.js:36-38 | `fromRaw` succeeds exactly on a valid hex text |
| UlidFactory.ToCanonical | src/factory/ulid.js:40-42 | `toCanonical` gives 26 characters exactly for sixteen bytes |
| UlidFactory.ToRaw | src/factory/ulid.js:44-46 | `toRaw` gives 32 characters exactly for sixteen bytes |
| UlidFactory.TextRoundTrips | src/factory/ulid.js:32-46 | through either coder a Ulid comes back with its bytes |
| UlidFactory.Compare | src/factory/ulid.js:50-52 | `compare` is the unsigned big-endian order of the bytes |
| UlidFactory.Equal | src/factory/ulid.js:54-56 | `equal` is byte equality |
| VersionedIdFactory.VersionKey | src/factory/versioned-id.js:29-30 | the table key of an id is its version nibble, or undefined for a class without a version |
| VersionedIdFactory.ClassKeys | src/factory/versioned-id.js:29-30 | the ULIDs register under undefined, the UUIDs under 0, 1, 4 and 6 |
| VersionedIdFactory.BuildTable | src/factory/versioned-id.js:28-37 | the `reduce` succeeds exactly when every class has a `MIN` |
| VersionedIdFactory.BuildTableStep | src/factory/versioned-id.js:28-37 | each step of the `reduce` files one more factory under its class's key |
| VersionedIdFactory.BuildTableKeys | src/factory/versioned-id.js:28-37 | the table's keys are exactly the classes' keys |
| VersionedIdFactory.BuildTableOverrides | src/factory/versioned-id.js:28-37 | a key holds the factory of the last class registered under it |
| VersionedIdFactory.New | src/factory/versioned-id.js:16-38 | the constructor builds the table, and every entry is filed under its own class's key |
| VersionedIdFactory.LastIndexWithKey | src/factory/versioned-id.js:28-37 | every class has a last class sharing its key |
| VersionedIdFactory.Detect | src/factory/versioned-id.js:8-13 | `detect` answers the registered factory exactly when the version is a key, and otherwise throws UnsupportedVersion |
| VersionedIdFactory.Generate | src/factory/versioned-id.js:59-61 | `generate` is the registered factory's, or UnsupportedVersion |
| VersionedIdFactory.Min | src/factory/versioned-id.js:63-65 | `MIN` is the registered factory's cached `MIN`, or UnsupportedVersion; the table stays well keyed |
| VersionedIdFactory.Max | src/factory/versioned-id.js:67-69 | `MAX` is the registered factory's cached `MAX`, or UnsupportedVersion |
| VersionedIdFactory.Construct | src/factory/versioned-id.js:46-57 | `construct` keeps the bytes and takes the class registered for their version, or keeps the abstract class when none is |
| VersionedIdFactory.ConstructMatchesVersion | src/factory/versioned-id.js:46-57 | a constructed id of a registered class has the version its bytes carry |
| VersionedIdFactory.VersionedIds | src/factory/versioned-id.js:40-42 | `versioned_ids` lists exactly the registered factories |
| VersionedIdFactory.WellKeyedInRange | src/factory/versioned-id.js:28-42 | every well-keyed table has keys 0-15 or undefined |
| VersionedIdFactory.ConstructAsWritten | src/factory/versioned-id.js:46-47 | `construct` as written calls a `super.construct` that is not defined, so it throws a TypeError |
| VersionedIdFactory.ConstructCorrectsAsWritten | src/factory/versioned-id.js:46-57 | where the code as written throws, the intended `construct` gives an id over the same bytes of the class registered for their version |

## Left out

- Random bytes, the clock and the MAC address are parameters. This covers `generateRandomFilled`, `new Date()` and `Machine.mac_address`. `src/common/random-bytes.js`, `machine.js` and `fake-machine.js` are not part of this model.
- Error classes and messages: `src/common/error.js`, `exception.js` and `src/coder/error.js` are reduced to the tags of `Errors.Error`. `src/common/error.js` and `src/coder/error.js` each define their own InvalidDecodingError and InvalidEncodingError. `src/coder/base.js` throws the first pair and `src/coder/uuid.js` the second; each tag stands for both classes of its name, so `instanceof` between the two pairs is not modelled.
- UintConverter.ExtractUint: works in exact integers. The source folds in double-precision numbers, so a window of seven or more bytes whose value reaches 2^53 is rounded: eight 0xFF bytes read as 2^64, which breaks the bound `< 256^n`. The model applies it to six bytes (the ULID time) and three (the ULID counter), where doubles are exact; the eight-byte value in Uuid6.EpochMsIsPrefix is a statement about exact integers, not a call the library makes.
- UintConverter.AssignUint: takes a non-negative integer and computes exactly. A negative value is not modelled: the source's `%` keeps the sign (`-1 % 256` is -1, which a Uint8Array stores as 255). Neither is a value at or above 2^53, whose double has lost its low bits. The library's own writes (`_setTime` of a time below 2^48) meet neither case.
- VersionedIdFactory.Detect, VersionedIdFactory.Generate, VersionedIdFactory.Min, VersionedIdFactory.Max: an unregistered version fails with the tag UnsupportedVersion. As written, `src/factory/versioned-id.js:4` imports `UnsupportedVersion` from `src/common/exception.js`, whose exports (lines 10-16) do not include it. The name is therefore `undefined`: `new UnsupportedVersion(...)` throws a TypeError instead, and the `instanceof` test in `construct` throws a TypeError too. The model keeps the intended error.
- Module wiring: `src/id/uuid.js:3` and `src/id/ulid.js:2` bind `BaseId` to the whole export object `{ BaseId }` of `src/id/base.js`, so as written `extends BaseId` fails when the module loads. `src/id/ulid-monotonic.js:2` takes `{ Ulid }` from a module that exports the class itself. The model assumes the intended imports throughout.
- Callers over corrected members: the model builds every caller on the corrected member of each finding below. These callers are UlidFactory.Generate and UlidMonotonic.Generate (over Ulid.GenerateBytes), IdFactory.ClassGenerate and IdFactory.Generate for `Ulid` and `UlidMonotonic` (over Ulid.GenerateBytes and UlidMonotonic.Generate; the exported monotonic factory forwards `generate()` without an argument, which as written always takes the fresh branch), IdFactory.Decode and IdFactory.Encode for the hex and UUID coders, with every factory's raw and UUID text conversions built on them (over HexCoder.Decode, HexCoder.Encode and UuidCoder.Decode), and IdFactory.ClassMin, IdFactory.ClassMax and VersionedIdFactory.BuildTable for `Uuid1` and `Uuid6` (over Uuid1.Min, Uuid1.Max, Uuid6.Min and Uuid6.Max). As written, each of these throws or misbehaves where its finding says.
- `index.js` and the `id128/` wrappers are not part of this model; they only instantiate the factories.
- The factory argument objects (`{ node, time }`, `{ version }`) are modelled as their fields; a non-object argument is not modelled.
- A `Date` is modelled by its integer milliseconds. Fractional or non-finite time values, other than the Invalid Date of `new Date(n)`, are not modelled.
- CoderBase.UpperChar, CoderBase.LowerChar: model the ASCII case map only. JavaScript's `toUpperCase` and `toLowerCase` also map non-ASCII letters (`'é'` to `'É'`, `'ß'` to `"SS"`); the source applies them only to text it then checks against the hex or Crockford alphabet, where no such letter is accepted either way.
- EpochConverter.ToEpoch: a Date is modelled as a valid Date. For an Invalid Date `getTime()` is NaN, both range tests at `src/common/epoch-converter.js:22` are false, and `toEpoch` returns NaN without throwing. So `generate` of `Uuid1` or `Uuid6` given an Invalid Date (`src/id/uuid-1.js:92`, `src/id/uuid-6.js:89`) goes on with a NaN time; that path is not modelled.
- ByteArray.Compare: requires `lhs` to be no longer than `rhs`. A longer `lhs` would read `undefined` past the end of `rhs`, which no caller does.
- Uuid.SetVariant: takes variants 0-3 only, and Uuid.SetVersion versions below 16 only. These are all the library passes.
- BaseId.Clone: states equality of the copy only. A copy made in an immutable model cannot alias its original, so the copy's independence has nothing to state.
- Uuid1.NodeBytes: a node holds bytes. A node with non-byte or non-numeric entries, which `Uint8Array` would coerce, is not modelled. An absent node falls back to the MAC; an empty but present node is taken as given.
- UuidClock.Advance: `generate` of `Uuid1` and `Uuid6` requires a `Valid` state, meaning one that `reset` and `generate` can produce. Other values of the module-level variables are unreachable.
- UlidMonotonic.GenerateAsWritten: builds its ULID on the corrected `Ulid.generate`, so only the raw comparison differs from UlidMonotonic.Generate.
- UlidMonotonic: the counter is bytes 6-8 of the id, as `_incrementClockSequence` and `_reserveClockSequence` have it. The library's own description speaks of the whole ten-byte random tail as the counter; the model follows the code.
- UlidMonotonic: `ulid-monotonic.js` imports `{ Ulid }` from a module that exports the class itself. The model assumes the evidently intended import of `Ulid`.
- Uuid1.SetTime, Uuid6.SetTime: the 60-bit field holds milliseconds times 4096 plus the hires counter, as the code writes it, not 100-nanosecond ticks.
- VersionedIdFactory.VersionedIds: states that the list holds exactly the registered factories. It does not state their order (ascending integer keys, then `undefined`) or that each appears once.
- IdFactory.Generate: an argument the class does not read is not modelled, since the variadic `...arguments` forwarding of `generate` passes only the fields each class destructures.

## Findings

| source | as written | input that shows it | evidently intended | confidence | as-written member | corrected member |
|---|---|---|---|---|---|---|
| src/coder/uuid.js:7-15 | the `catch` test parses as `(error instanceof TypeError) \| InvalidDecodingError`, and the class converts to 0. The hex decoder's InvalidDecodingError therefore makes the test 0. The error is dropped and `decode` returns `undefined` | `decode('zz')` | rethrow InvalidDecodingError for a malformed text | not executed | UuidCoder.DecodeAsWritten (UuidCoder.InvalidTextIsSwallowed) | UuidCoder.Decode (UuidCoder.DecodeCorrectsAsWritten) |
| src/coder/base.js:20-37 | `decode` and `encode` call `this._decode` and `this._encode`, but `HexCoder` defines only `decodeTrusted` and `encodeTrusted` (`src/coder/hex.js:30-60`). Every valid input throws a TypeError, and through `src/coder/uuid.js` a valid UUID text throws InvalidDecodingError | `HexCoder.decode('0'.repeat(32))` | `decode` returns `decodeTrusted(encoding)` and `encode` returns `encodeTrusted(bytes)` | not executed | HexCoder.DecodeAsWritten (HexCoder.ValidInputThrowsAsWritten, UuidCoder.UuidTextRefusedOverHexAsWritten) | HexCoder.Decode (HexCoder.CodecCorrectsAsWritten) |
| src/id/ulid.js:18-49 | an integer beyond 8.64e15 becomes an Invalid Date; `getTime()` is NaN, both range comparisons are false, and `_setTime` stores zeros | `Ulid.generate(10 ** 16)` | a RangeError, as for any time past 2^48 - 1 | not executed | Ulid.GenerateBytesAsWritten (Ulid.InvalidDateSlipsThrough) | Ulid.GenerateBytes (Ulid.GenerateCorrectsAsWritten) |
| src/id/uuid-1.js:79-139 | `Uuid1` defines no `MIN` or `MAX`, and neither do its ancestors | `Uuid1.MIN()` | bounds with variant 1 and version 1, like those of `Uuid4` | not executed | Uuid1.MinAsWritten | Uuid1.Min (Uuid1.BoundsEncloseGenerated) |
| src/id/uuid-6.js:76-142 | `Uuid6` defines no `MIN` or `MAX` | `Uuid6.MIN()` | bounds with variant 1 and version 6 | not executed | Uuid6.MinAsWritten | Uuid6.Min (Uuid6.BoundsEncloseGenerated) |
| src/factory/versioned-id.js:46-57 | `construct` calls `super.construct` on line 47, which `IdFactory` does not define; `detect(...).construct(bytes)` on line 51 is undefined for the same reason | `construct(bytes)` for any bytes | wrap the bytes in the class registered for their version, or keep the abstract id; the corrected member takes `construct` on a factory to mean wrapping the bytes in its class | not executed | VersionedIdFactory.ConstructAsWritten | VersionedIdFactory.Construct (VersionedIdFactory.ConstructCorrectsAsWritten) |
| src/id/ulid-monotonic.js:34-47 | `time <= _previous_time` compares the raw argument and `_previous_time = time` stores it; `undefined` is never `<=` anything and `null` compares as 0 | `generate()` twice in one millisecond (the second id can sort below the first); `generate(5000)` then `generate(null)` at clock 10000 (the id carries 5000) | compare and store the coerced milliseconds | not executed | UlidMonotonic.GenerateAsWritten (UlidMonotonic.AbsentTimeBreaksOrder, UlidMonotonic.NullTimeReadsAsZero) | UlidMonotonic.Generate (UlidMonotonic.GenerateIncreases, UlidMonotonic.GenerateCorrectsAsWritten) |

=== FILE: base_id.dfy ===
/** `BaseId`: an identifier is its byte buffer, tagged with the class that
    made it. Comparison looks at the bytes only. */
module BaseId {
  import opened ByteArray
  import ByteOrder

  /** The identifier classes: the abstract base, the two ULID classes, the
      abstract UUID and the four concrete UUID versions. */
  datatype Kind = AnyId | UlidId | UlidMonotonicId | AnyUuid | Uuid1Id | Uuid4Id | Uuid6Id | UuidNilId

  /** An identifier of some class; `bytes` is the buffer handed to the
      constructor, unchanged. */
  datatype Id = Id(kind: Kind, bytes: seq<byte>)

  /** `clone`: a new identifier of the same class over a copy of the
      buffer. With immutable sequences a copy is the same value, so later
      changes to one cannot reach the other. */
  function Clone(x: Id): (c: Id)
    ensures c.kind == x.kind && c.bytes == x.bytes
  {
    Id(x.kind, x.bytes[..])
  }

  /** `compare`: lexicographic byte order of the two buffers, whatever
      the classes. */
  function Compare(x: Id, y: Id): (r: int)
    requires |x.bytes| <= |y.bytes|
    ensures -1 <= r <= 1
    ensures |x.bytes| == |y.bytes| ==> (r == 0 <==> x.bytes == y.bytes)
    ensures |x.bytes| == |y.bytes| ==> r == Sign(ByteOrder.Value(x.bytes) - ByteOrder.Value(y.bytes))
  {
    var r := ByteArray.Compare(x.bytes, y.bytes);
    assert |x.bytes| == |y.bytes| ==> r == Sign(ByteOrder.Value(x.bytes) - ByteOrder.Value(y.bytes)) by {
      if |x.bytes| == |y.bytes| {
        ByteOrder.CompareIsUnsignedOrder(x.bytes, y.bytes);
      }
    }
    r
  }

  /** `equal`: `compare` is 0. */
  function Equal(x: Id, y: Id): (b: bool)
    requires |x.bytes| <= |y.bytes|
    ensures b <==> Compare(x, y) == 0
    ensures |x.bytes| == |y.bytes| ==> (b <==> x.bytes == y.bytes)
  {
    Compare(x, y) == 0
  }

  /** Comparison is antisymmetric, so `equal` is symmetric. */
  lemma CompareAntisymmetric(x: Id, y: Id)
    requires |x.bytes| == |y.bytes|
    ensures Compare(x, y) == -Compare(y, x)
    ensures Equal(x, y) == Equal(y, x)
  {
    ByteOrder.CompareAntisymmetric(x.bytes, y.bytes);
  }

  /** An identifier compares 0 to, and equals, its clone. */
  lemma CloneIsEqual(x: Id)
    ensures Compare(x, Clone(x)) == 0 && Equal(x, Clone(x))
  {
  }
}

=== FILE: byte_array.dfy ===
/** Fixed 16-byte buffers and their lexicographic comparison. */
module ByteArray {

  /** One element of a Uint8Array. */
  type byte = b: int | 0 <= b < 256

  /** Every identifier is backed by a buffer of this many bytes. */
  const IdLength: nat := 16

  /** A fresh all-zero buffer (`generateZeroFilled`). */
  function ZeroFilled(): (r: seq<byte>)
    ensures |r| == IdLength
    ensures forall i :: 0 <= i < |r| ==> r[i] == 0
  {
    seq(IdLength, _ => 0)
  }

  /** A fresh all-one buffer (`generateOneFilled`). */
  function OneFilled(): (r: seq<byte>)
    ensures |r| == IdLength
    ensures forall i :: 0 <= i < |r| ==> r[i] == 0xFF
  {
    seq(IdLength, _ => 0xFF)
  }

  /** `Math.sign` on integers. */
  function Sign(x: int): int
  {
    if x < 0 then -1 else if x > 0 then 1 else 0
  }

  /** True when `lhs` and `rhs` agree before index `i` and differ at `i`. */
  ghost predicate FirstMismatch(lhs: seq<byte>, rhs: seq<byte>, i: int)
    requires |lhs| <= |rhs|
  {
    0 <= i < |lhs| && lhs[..i] == rhs[..i] && lhs[i] != rhs[i]
  }

  /** `compare`: scan `lhs` for the first index where `rhs` differs and
      return the sign of the difference there, or 0 when there is none.
      The scan runs over `lhs` only, so a shorter `lhs` that is a prefix of
      `rhs` compares 0; a longer `lhs` would compare NaN and is excluded. */
  function Compare(lhs: seq<byte>, rhs: seq<byte>): (r: int)
    requires |lhs| <= |rhs|
    ensures -1 <= r <= 1
    ensures r == 0 <==> lhs == rhs[..|lhs|]
    ensures forall i :: FirstMismatch(lhs, rhs, i) ==> r == Sign(lhs[i] as int - rhs[i] as int)
  {
    if |lhs| == 0 then 0
    else if lhs[0] != rhs[0] then
      assert forall i :: 0 < i <= |lhs| ==> lhs[..i][0] == lhs[0] && rhs[..i][0] == rhs[0];
      Sign(lhs[0] as int - rhs[0] as int)
    else
      var r := Compare(lhs[1..], rhs[1..]);
      assert lhs == rhs[..|lhs|] <==> lhs[1..] == rhs[1..][..|lhs| - 1] by {
        if lhs[1..] == rhs[1..][..|lhs| - 1] {
          assert forall k :: 0 <= k < |lhs| ==> lhs[k] == rhs[..|lhs|][k] by {
            forall k | 0 <= k < |lhs| ensures lhs[k] == rhs[..|lhs|][k] {
              if k > 0 { assert lhs[k] == lhs[1..][k - 1]; }
            }
          }
        }
      }
      assert forall i :: FirstMismatch(lhs, rhs, i) ==> FirstMismatch(lhs[1..], rhs[1..], i - 1) by {
        forall i | FirstMismatch(lhs, rhs, i) ensures FirstMismatch(lhs[1..], rhs[1..], i - 1) {
          assert i != 0;
          assert lhs[1..][..i - 1] == lhs[..i][1..];
          assert rhs[1..][..i - 1] == rhs[..i][1..];
        }
      }
      r
  }

  /** Two buffers are byte-wise ordered at every index. */
  ghost predicate PointwiseLe(lhs: seq<byte>, rhs: seq<byte>)
  {
    |lhs| == |rhs| && forall i :: 0 <= i < |lhs| ==> lhs[i] <= rhs[i]
  }

  /** A buffer that is byte-wise no greater than another compares no greater. */
  lemma {:induction false} PointwiseLeCompare(lhs: seq<byte>, rhs: seq<byte>)
    requires PointwiseLe(lhs, rhs)
    ensures Compare(lhs, rhs) <= 0
    decreases |lhs|
  {
    if |lhs| > 0 && lhs[0] == rhs[0] {
      assert PointwiseLe(lhs[1..], rhs[1..]) by {
        forall i | 0 <= i < |lhs| - 1 ensures lhs[1..][i] <= rhs[1..][i] {
          assert lhs[1..][i] == lhs[i + 1];
        }
      }
      PointwiseLeCompare(lhs[1..], rhs[1..]);
    }
  }

  /** Every 16-byte buffer lies between the zero-filled and one-filled ones. */
  lemma FilledBuffersBound(b: seq<byte>)
    requires |b| == IdLength
    ensures Compare(ZeroFilled(), b) <= 0
    ensures Compare(b, OneFilled()) <= 0
  {
    var zero, one := ZeroFilled(), OneFilled();
    assert PointwiseLe(zero, b) by {
      forall i | 0 <= i < |b| ensures zero[i] <= b[i] { }
    }
    assert PointwiseLe(b, one) by {
      forall i | 0 <= i < |b| ensures b[i] <= one[i] { }
    }
    PointwiseLeCompare(zero, b);
    PointwiseLeCompare(b, one);
  }
}

=== FILE: byte_order.dfy ===
/** `compare` seen as an order on unsigned big-endian integers. */
module ByteOrder {
  import opened ByteArray
  import opened UintConverter

  /** The unsigned big-endian integer a buffer spells. */
  function Value(s: seq<byte>): nat
  {
    ExtractUint(0, |s|, s)
  }

  /** Extracting from an offset is extracting from the shifted buffer. */
  lemma {:induction false} ExtractUintShift(begin: nat, end: nat, bytes: seq<byte>, k: nat)
    requires k <= begin <= end <= |bytes|
    ensures ExtractUint(begin, end, bytes) == ExtractUint(begin - k, end - k, bytes[k..])
    decreases end
  {
    if end > begin {
      ExtractUintShift(begin, end - 1, bytes, k);
      assert bytes[k..][end - 1 - k] == bytes[end - 1];
    }
  }

  /** The leading byte weighs `256^(n-1)`; the rest is the tail's value. */
  lemma ValueHead(s: seq<byte>)
    requires |s| > 0
    ensures Value(s) == s[0] * Pow256(|s| - 1) + Value(s[1..])
  {
    ExtractUintSplit(0, 1, |s|, s);
    ExtractUintShift(1, |s|, s, 1);
  }

  lemma LeadingByteDominates(x: int, y: int, p: int, rx: int, ry: int)
    requires 0 <= x < y && p > 0 && 0 <= rx < p && 0 <= ry
    ensures x * p + rx < y * p + ry
  {
    MulLeMono(x + 1, y, p);
  }

  /** `compare` is the sign of the difference of the big-endian values. */
  lemma {:induction false} CompareIsUnsignedOrder(a: seq<byte>, b: seq<byte>)
    requires |a| == |b|
    ensures Compare(a, b) == Sign(Value(a) - Value(b))
    decreases |a|
  {
    if |a| > 0 {
      ValueHead(a);
      ValueHead(b);
      var p := Pow256(|a| - 1);
      if a[0] < b[0] {
        LeadingByteDominates(a[0], b[0], p, Value(a[1..]), Value(b[1..]));
      } else if a[0] > b[0] {
        LeadingByteDominates(b[0], a[0], p, Value(b[1..]), Value(a[1..]));
      } else {
        CompareIsUnsignedOrder(a[1..], b[1..]);
      }
    }
  }

  /** `compare` is antisymmetric. */
  lemma CompareAntisymmetric(a: seq<byte>, b: seq<byte>)
    requires |a| == |b|
    ensures Compare(a, b) == -Compare(b, a)
  {
    CompareIsUnsignedOrder(a, b);
    CompareIsUnsignedOrder(b, a);
  }

  /** `compare` is transitive. */
  lemma CompareTransitive(a: seq<byte>, b: seq<byte>, c: seq<byte>)
    requires |a| == |b| == |c|
    requires Compare(a, b) <= 0 && Compare(b, c) <= 0
    ensures Compare(a, c) <= 0
  {
    CompareIsUnsignedOrder(a, b);
    CompareIsUnsignedOrder(b, c);
    CompareIsUnsignedOrder(a, c);
  }

  /** `compare` is strictly transitive. */
  lemma CompareStrictTransitive(a: seq<byte>, b: seq<byte>, c: seq<byte>)
    requires |a| == |b| == |c|
    requires Compare(a, b) < 0 && Compare(b, c) <= 0
    ensures Compare(a, c) < 0
  {
    CompareIsUnsignedOrder(a, b);
    CompareIsUnsignedOrder(b, c);
    CompareIsUnsignedOrder(a, c);
  }

  /** A leading segment that differs decides the comparison; an equal one
      defers it to the remainder. */
  lemma {:induction false} CompareSplit(a: seq<byte>, b: seq<byte>, k: nat)
    requires |a| == |b| && k <= |a|
    ensures Compare(a[..k], b[..k]) != 0 ==> Compare(a, b) == Compare(a[..k], b[..k])
    ensures Compare(a[..k], b[..k]) == 0 ==> Compare(a, b) == Compare(a[k..], b[k..])
    decreases k
  {
    if k == 0 {
      assert a[0..] == a && b[0..] == b;
    } else {
      TailSlices(a, k);
      TailSlices(b, k);
      if a[0] == b[0] {
        CompareSplit(a[1..], b[1..], k - 1);
      }
    }
  }

  /** Dropping the head commutes with taking or dropping a prefix. */
  lemma TailSlices(a: seq<byte>, k: nat)
    requires 0 < k <= |a|
    ensures a[..k][0] == a[0]
    ensures a[1..][..k - 1] == a[..k][1..]
    ensures a[1..][k - 1..] == a[k..]
  {
  }

  /** Buffers whose leading `k` bytes spell a smaller integer compare lower. */
  lemma PrefixValueDecides(a: seq<byte>, b: seq<byte>, k: nat)
    requires |a| == |b| && k <= |a|
    requires ExtractUint(0, k, a) < ExtractUint(0, k, b)
    ensures Compare(a, b) == -1
  {
    ExtractUintFrame(0, k, a, a[..k]);
    ExtractUintFrame(0, k, b, b[..k]);
    CompareIsUnsignedOrder(a[..k], b[..k]);
    CompareSplit(a, b, k);
  }
}

=== FILE: coder_base.dfy ===
/** What the text codecs share: the shape of their inputs and the byte
    validity check of `BaseCoder`. */
module CoderBase {
  import opened ByteArray

  /** A JavaScript value handed to a codec. Strings and String objects are
      `Text`; typed byte arrays are `Uint8Array`; anything else (numbers,
      null, plain arrays, objects) is `OtherValue`. */
  datatype JsValue = Text(s: string) | Uint8Array(bytes: seq<byte>) | OtherValue

  /** `isValidBytes`: a Uint8Array of exactly 16 bytes, which therefore
      sorts between the all-zero and the all-one buffer. */
  function IsValidBytes(v: JsValue): (ok: bool)
    ensures ok <==> && v.Uint8Array? && |v.bytes| == IdLength
                    && Compare(ZeroFilled(), v.bytes) <= 0 && Compare(v.bytes, OneFilled()) <= 0
  {
    if v.Uint8Array? && |v.bytes| == IdLength then
      FilledBuffersBound(v.bytes);
      true
    else false
  }

  /** Whether `c` is an ASCII lower-case letter. */
  predicate IsLowerLetter(c: char)
  {
    'a' <= c <= 'z'
  }

  /** Whether `c` is an ASCII upper-case letter. */
  predicate IsUpperLetter(c: char)
  {
    'A' <= c <= 'Z'
  }

  /** `toUpperCase` restricted to ASCII letters: a lower-case letter becomes
      the upper-case letter 32 code points below it; nothing else moves. */
  function UpperChar(c: char): (u: char)
    ensures !IsLowerLetter(u)
    ensures IsLowerLetter(c) ==> IsUpperLetter(u) && u as int == c as int - 32
    ensures !IsLowerLetter(c) ==> u == c
  {
    if 'a' <= c <= 'z' then (c as int - 32) as char else c
  }

  /** `toLowerCase` restricted to ASCII letters. */
  function LowerChar(c: char): (l: char)
    ensures !IsUpperLetter(l)
    ensures IsUpperLetter(c) ==> IsLowerLetter(l) && l as int == c as int + 32
    ensures !IsUpperLetter(c) ==> l == c
  {
    if 'A' <= c <= 'Z' then (c as int + 32) as char else c
  }

  /** Upper-casing a text: same length, no lower-case letter left, and only
      the lower-case letters changed. */
  function Upper(s: string): (r: string)
    ensures |r| == |s| && forall i :: 0 <= i < |s| ==> r[i] == UpperChar(s[i])
    ensures forall i :: 0 <= i < |r| ==> !IsLowerLetter(r[i])
    ensures forall i :: 0 <= i < |s| && !IsLowerLetter(s[i]) ==> r[i] == s[i]
    ensures (forall i :: 0 <= i < |s| ==> !IsLowerLetter(s[i])) ==> r == s
  {
    seq(|s|, i requires 0 <= i < |s| => UpperChar(s[i]))
  }

  /** Lower-casing a text: same length, no upper-case letter left, and only
      the upper-case letters changed. */
  function Lower(s: string): (r: string)
    ensures |r| == |s| && forall i :: 0 <= i < |s| ==> r[i] == LowerChar(s[i])
    ensures forall i :: 0 <= i < |r| ==> !IsUpperLetter(r[i])
    ensures forall i :: 0 <= i < |s| && !IsUpperLetter(s[i]) ==> r[i] == s[i]
    ensures (forall i :: 0 <= i < |s| ==> !IsUpperLetter(s[i])) ==> r == s
  {
    seq(|s|, i requires 0 <= i < |s| => LowerChar(s[i]))
  }

  /** The two case maps forget which case a letter was in: after either,
      upper- or lower-casing gives the same as from the original. */
  lemma CaseFolding(s: string)
    ensures Upper(Lower(s)) == Upper(s) && Lower(Upper(s)) == Lower(s)
    ensures Upper(Upper(s)) == Upper(s) && Lower(Lower(s)) == Lower(s)
  {
    forall i | 0 <= i < |s|
      ensures UpperChar(LowerChar(s[i])) == UpperChar(s[i])
      ensures LowerChar(UpperChar(s[i])) == LowerChar(s[i])
    {
    }
  }
}

=== FILE: crockford32.dfy ===
/** Crockford's Base32 text for 16-byte buffers (`Crockford32Coder`):
    26 characters, five bits each, the first carrying only three. */
module Crockford32Coder {
  import opened Errors
  import opened ByteArray
  import opened CoderBase
  import UintConverter

  const Alphabet: string := "0123456789ABCDEFGHJKMNPQRSTVWXYZ"

  /** `MAX_QUINTET`: the mask applied before looking a quintet up. */
  const MaxQuintet: nat := 0x1F

  /** A valid encoding has exactly this many characters. */
  const EncodingLength: nat := 26

  /** `CHAR_TO_QUINTET`: each alphabet character in either case maps to its
      index, and the look-alikes `I`, `L` read as `1`, `O` as `0` and `U`
      as `V`, again in either case. A helper of `decode` and of the
      validity test; QuintetTable and LookAlikes state what it maps. */
  function CharToQuintet(c: char): Option<int>
  {
    var u := UpperChar(c);
    if u == 'I' || u == 'L' then Some(1)
    else if u == 'O' then Some(0)
    else if u == 'U' then Some(27)
    else if '0' <= u <= '9' then Some(u as int - '0' as int)
    else if 'A' <= u <= 'H' then Some(u as int - 'A' as int + 10)
    else if 'J' <= u <= 'K' then Some(u as int - 'J' as int + 18)
    else if 'M' <= u <= 'N' then Some(u as int - 'M' as int + 20)
    else if 'P' <= u <= 'T' then Some(u as int - 'P' as int + 22)
    else if 'V' <= u <= 'Z' then Some(u as int - 'V' as int + 27)
    else None
  }

  /** The quintet a decoder reads for a character; a character outside the
      table reads `undefined`, which JavaScript's shifts treat as 0. */
  function QuintetOf(c: char): (q: int)
    ensures 0 <= q < 32
  {
    match CharToQuintet(c)
    case Some(q) => q
    case None => 0
  }

  /** `_quintetToChar`: mask to five bits, then index the alphabet. A
      helper of `encode`; QuintetOfChar states its inverse. */
  function QuintetToChar(q: nat): char
  {
    Alphabet[q % 32]
  }

  /** The character class `[^\W_]`: an ASCII letter or digit. */
  predicate IsAlphanumeric(c: char)
  {
    ('0' <= c <= '9') || ('A' <= c <= 'Z') || ('a' <= c <= 'z')
  }

  /** `isValidEncoding`: a string matching `/^[0-7][^\W_]{25}$/`. These
      are exactly the 26-character strings that start with a digit 0-7 and
      whose every character is in the table `CHAR_TO_QUINTET`; the first
      character carries at most three bits. */
  function IsValidEncoding(v: JsValue): (ok: bool)
    ensures ok <==> && v.Text? && |v.s| == EncodingLength && '0' <= v.s[0] <= '7'
                    && forall i :: 0 <= i < |v.s| ==> CharToQuintet(v.s[i]).Some?
    ensures ok ==> v.Text? && |v.s| > 0 && QuintetOf(v.s[0]) < 8
  {
    && v.Text?
    && |v.s| == EncodingLength
    && '0' <= v.s[0] <= '7'
    && forall i :: 1 <= i < |v.s| ==> IsAlphanumeric(v.s[i])
  }

  /** The table inverts the alphabet in both cases. */
  lemma QuintetTable()
    ensures forall n :: 0 <= n < 32 ==> CharToQuintet(Alphabet[n]) == Some(n)
    ensures forall n :: 0 <= n < 32 ==> CharToQuintet(LowerChar(Alphabet[n])) == Some(n)
  {
    forall n | 0 <= n < 32 ensures CharToQuintet(Alphabet[n]) == Some(n) {
      AlphabetQuintet(n);
    }
    forall n | 0 <= n < 32 ensures CharToQuintet(LowerChar(Alphabet[n])) == Some(n) {
      AlphabetQuintet(n);
      QuintetIgnoresCase(Alphabet[n]);
    }
  }

  /** The look-alikes `I`, `L`, `O` and `U` read as `1`, `1`, `0` and `V`. */
  lemma LookAlikes()
    ensures CharToQuintet('I') == CharToQuintet('i') == CharToQuintet('L') == CharToQuintet('l') == Some(1)
    ensures CharToQuintet('O') == CharToQuintet('o') == Some(0)
    ensures CharToQuintet('U') == CharToQuintet('u') == CharToQuintet('V') == Some(27)
  {
  }

  /** Every character the pattern admits has a quintet, and nothing maps
      outside five bits. */
  lemma TableCoversPattern(c: char)
    ensures IsAlphanumeric(c) ==> CharToQuintet(c).Some?
    ensures CharToQuintet(c).Some? ==> 0 <= CharToQuintet(c).value < 32
  {
  }

  lemma AlphabetQuintet(n: int)
    requires 0 <= n < 32
    ensures CharToQuintet(Alphabet[n]) == Some(n)
  {
  }

  /** Decoding ignores case. */
  lemma QuintetIgnoresCase(c: char)
    ensures CharToQuintet(UpperChar(c)) == CharToQuintet(c)
    ensures CharToQuintet(LowerChar(c)) == CharToQuintet(c)
  {
  }

  lemma QuintetOfChar(q: nat)
    ensures QuintetOf(QuintetToChar(q)) == q % 32
  {
    AlphabetQuintet(q % 32);
  }


  /* Both directions work on the same grouping the unrolled JavaScript
     uses: byte 0 against quintets 0-1, then three groups of five bytes
     against eight quintets (bytes 1-5, 6-10, 11-15 against quintets 2-9,
     10-17, 18-25). In the arithmetic below `x << k` is `x * 2^k`, `x >> k`
     is `x / 2^k`, a `|` joins operands with disjoint bits and so is `+`,
     and a store into the Uint8Array keeps the value `% 256`. */

  /** Eight unmasked quintets of one five-byte group. */
  function GroupQuintets(x: seq<byte>): (q: seq<nat>)
    requires |x| == 5
    ensures |q| == 8
  {
    var x0, x1, x2, x3, x4 := x[0] as int, x[1] as int, x[2] as int, x[3] as int, x[4] as int;
    [ x0 / 8,
      x0 * 4 + x1 / 64,
      x1 / 2,
      x1 * 16 + x2 / 16,
      x2 * 2 + x3 / 128,
      x3 / 4,
      x3 * 8 + x4 / 32,
      x4 ]
  }

  /** Five bytes rebuilt from eight quintets. */
  function GroupBytes(q: seq<int>): (x: seq<byte>)
    requires |q| == 8 && forall j :: 0 <= j < 8 ==> 0 <= q[j] < 32
    ensures |x| == 5
  {
    [ (q[0] * 8 + q[1] / 4) % 256,
      (q[1] * 64 + q[2] * 2 + q[3] / 16) % 256,
      (q[3] * 16 + q[4] / 2) % 256,
      (q[4] * 128 + q[5] * 4 + q[6] / 8) % 256,
      (q[6] * 32 + q[7]) % 256 ]
  }

  /** `encode`'s `quintets` array: 26 unmasked quintets of 16 bytes. */
  function Quintets(b: seq<byte>): (q: seq<nat>)
    requires |b| == IdLength
    ensures |q| == EncodingLength
  {
    [b[0] / 32, b[0]] + GroupQuintets(b[1..6]) + GroupQuintets(b[6..11]) + GroupQuintets(b[11..16])
  }

  /** The body of `decode` after validation: 26 quintets to 16 bytes. */
  function QuintetBytes(q: seq<int>): (b: seq<byte>)
    requires |q| == EncodingLength && forall j :: 0 <= j < |q| ==> 0 <= q[j] < 32
    ensures |b| == IdLength
  {
    [(q[0] * 32 + q[1]) % 256] + GroupBytes(q[2..10]) + GroupBytes(q[10..18]) + GroupBytes(q[18..26])
  }

  /** The body of `encode` after validation; internal to Encode, whose
      round trips are BytesRoundTrip and TextRoundTrip. */
  function EncodeBytes(b: seq<byte>): (s: string)
    requires |b| == IdLength
    ensures |s| == EncodingLength
  {
    var q := Quintets(b);
    seq(EncodingLength, j requires 0 <= j < EncodingLength => QuintetToChar(q[j]))
  }

  /** The quintet of every character of an encoding. */
  function CharQuintets(s: string): (q: seq<int>)
    requires |s| == EncodingLength
    ensures |q| == EncodingLength
    ensures forall j :: 0 <= j < EncodingLength ==> q[j] == QuintetOf(s[j]) && 0 <= q[j] < 32
  {
    seq(EncodingLength, j requires 0 <= j < EncodingLength => QuintetOf(s[j]))
  }

  /** The body of `decode` after validation, from characters; internal to
      Decode, whose round trips are BytesRoundTrip and TextRoundTrip. */
  function DecodeChars(s: string): (b: seq<byte>)
    requires |s| == EncodingLength
    ensures |b| == IdLength
  {
    QuintetBytes(CharQuintets(s))
  }

  /** `decode`: reject anything but the pattern, then decode. */
  function Decode(v: JsValue): (r: Result<seq<byte>>)
    ensures r.Ok? <==> IsValidEncoding(v)
    ensures r.Ok? ==> |r.value| == IdLength
    ensures r.Fail? ==> r.error == InvalidDecoding
  {
    if !IsValidEncoding(v) then Fail(InvalidDecoding) else Ok(DecodeChars(v.s))
  }

  /** `encode`: reject anything but a 16-byte Uint8Array, then encode. The
      output has 26 alphabet characters, the first one in `0-7`. */
  function Encode(v: JsValue): (r: Result<string>)
    ensures r.Ok? <==> IsValidBytes(v)
    ensures r.Ok? ==> |r.value| == EncodingLength
    ensures r.Ok? ==> forall i :: 0 <= i < EncodingLength ==> r.value[i] in Alphabet
    ensures r.Ok? ==> '0' <= r.value[0] <= '7'
    ensures r.Fail? ==> r.error == InvalidEncoding
  {
    if !IsValidBytes(v) then Fail(InvalidEncoding)
    else
      EncodedAlphabet(v.bytes);
      Ok(EncodeBytes(v.bytes))
  }

  /** The first eight alphabet characters are the digits `0`-`7`. */
  lemma LeadingChar(n: int)
    requires 0 <= n < 8
    ensures '0' <= Alphabet[n] <= '7'
  {
  }

  /** An encoding is drawn from the alphabet and starts with a digit
      `0`-`7`, the top three bits of the first byte. */
  lemma EncodedAlphabet(b: seq<byte>)
    requires |b| == IdLength
    ensures forall j :: 0 <= j < EncodingLength ==> EncodeBytes(b)[j] in Alphabet
    ensures '0' <= EncodeBytes(b)[0] <= '7'
  {
    var s, q := EncodeBytes(b), Quintets(b);
    forall j | 0 <= j < EncodingLength ensures s[j] in Alphabet {
      assert s[j] == Alphabet[q[j] % 32];
    }
    assert q[0] == b[0] / 32;
    UintConverter.DivModUnique(q[0], 32, 0, q[0]);
    assert s[0] == Alphabet[b[0] / 32];
    LeadingChar(b[0] / 32);
  }

  /** Quintets as `_quintetToChar` sees them, masked to five bits. */
  function Mask(q: seq<nat>): (m: seq<int>)
    ensures |m| == |q| && forall j :: 0 <= j < |q| ==> 0 <= m[j] < 32
  {
    seq(|q|, j requires 0 <= j < |q| => q[j] % 32)
  }

  /* Bit arithmetic of one group, one identity per lemma: `x0`..`x4` are
     the group's bytes, `q0`..`q7` its quintets. */

  lemma MaskQuintet1(x0: int, x1: int)
    requires 0 <= x0 < 256 && 0 <= x1 < 256
    ensures (x0 * 4 + x1 / 64) % 32 == (x0 % 8) * 4 + x1 / 64
  {
    UintConverter.DivModUnique(x0 * 4 + x1 / 64, 32, x0 / 8, (x0 % 8) * 4 + x1 / 64);
  }


  lemma MaskQuintet3(x1: int, x2: int)
    requires 0 <= x1 < 256 && 0 <= x2 < 256
    ensures (x1 * 16 + x2 / 16) % 32 == (x1 % 2) * 16 + x2 / 16
  {
    UintConverter.DivModUnique(x1 * 16 + x2 / 16, 32, x1 / 2, (x1 % 2) * 16 + x2 / 16);
  }


  lemma MaskQuintet4(x2: int, x3: int)
    requires 0 <= x2 < 256 && 0 <= x3 < 256
    ensures (x2 * 2 + x3 / 128) % 32 == (x2 % 16) * 2 + x3 / 128
  {
    UintConverter.DivModUnique(x2 * 2 + x3 / 128, 32, x2 / 16, (x2 % 16) * 2 + x3 / 128);
  }


  lemma MaskQuintet6(x3: int, x4: int)
    requires 0 <= x3 < 256 && 0 <= x4 < 256
    ensures (x3 * 8 + x4 / 32) % 32 == (x3 % 4) * 8 + x4 / 32
  {
    UintConverter.DivModUnique(x3 * 8 + x4 / 32, 32, x3 / 4, (x3 % 4) * 8 + x4 / 32);
  }


  lemma RebuildByte0(x0: int, x1: int)
    requires 0 <= x0 < 256 && 0 <= x1 < 256
    ensures ((x0 / 8) * 8 + ((x0 % 8) * 4 + x1 / 64) / 4) % 256 == x0
  {
    UintConverter.DivModUnique((x0 % 8) * 4 + x1 / 64, 4, x0 % 8, x1 / 64);
    UintConverter.DivModUnique(x0, 256, 0, x0);
  }


  lemma RebuildByte1(x0: int, x1: int, x2: int)
    requires 0 <= x0 < 256 && 0 <= x1 < 256 && 0 <= x2 < 256
    ensures (((x0 % 8) * 4 + x1 / 64) * 64 + ((x1 / 2) % 32) * 2 + ((x1 % 2) * 16 + x2 / 16) / 16) % 256 == x1
  {
    var a, m, c := x1 / 64, (x1 / 2) % 32, x1 % 2;
    UintConverter.DivModUnique((x1 % 2) * 16 + x2 / 16, 16, c, x2 / 16);
    assert x1 == 64 * ((x1 / 2) / 32) + (2 * m + c);
    UintConverter.DivModUnique(x1, 64, (x1 / 2) / 32, 2 * m + c);
    UintConverter.DivModUnique(((x0 % 8) * 4 + a) * 64 + m * 2 + c, 256, x0 % 8, x1);
  }


  lemma RebuildByte2(x1: int, x2: int, x3: int)
    requires 0 <= x1 < 256 && 0 <= x2 < 256 && 0 <= x3 < 256
    ensures (((x1 % 2) * 16 + x2 / 16) * 16 + ((x2 % 16) * 2 + x3 / 128) / 2) % 256 == x2
  {
    UintConverter.DivModUnique((x2 % 16) * 2 + x3 / 128, 2, x2 % 16, x3 / 128);
    UintConverter.DivModUnique(((x1 % 2) * 16 + x2 / 16) * 16 + x2 % 16, 256, x1 % 2, x2);
  }


  lemma RebuildByte3(x2: int, x3: int, x4: int)
    requires 0 <= x2 < 256 && 0 <= x3 < 256 && 0 <= x4 < 256
    ensures (((x2 % 16) * 2 + x3 / 128) * 128 + ((x3 / 4) % 32) * 4 + ((x3 % 4) * 8 + x4 / 32) / 8) % 256 == x3
  {
    var a, m, c := x3 / 128, (x3 / 4) % 32, x3 % 4;
    UintConverter.DivModUnique((x3 % 4) * 8 + x4 / 32, 8, c, x4 / 32);
    assert x3 == 128 * ((x3 / 4) / 32) + (4 * m + c);
    UintConverter.DivModUnique(x3, 128, (x3 / 4) / 32, 4 * m + c);
    UintConverter.DivModUnique(((x2 % 16) * 2 + a) * 128 + m * 4 + c, 256, x2 % 16, x3);
  }


  lemma RebuildByte4(x3: int, x4: int)
    requires 0 <= x3 < 256 && 0 <= x4 < 256
    ensures (((x3 % 4) * 8 + x4 / 32) * 32 + x4 % 32) % 256 == x4
  {
    UintConverter.DivModUnique(((x3 % 4) * 8 + x4 / 32) * 32 + x4 % 32, 256, x3 % 4, x4);
  }


  /** The masked quintets of one five-byte group. */
  lemma MaskedGroup(x: seq<byte>)
    requires |x| == 5
    ensures var m, x0, x1, x2, x3, x4 := Mask(GroupQuintets(x)), x[0] as int, x[1] as int, x[2] as int, x[3] as int, x[4] as int;
      && m[0] == x0 / 8 && m[1] == (x0 % 8) * 4 + x1 / 64 && m[2] == (x1 / 2) % 32
      && m[3] == (x1 % 2) * 16 + x2 / 16 && m[4] == (x2 % 16) * 2 + x3 / 128
      && m[5] == (x3 / 4) % 32 && m[6] == (x3 % 4) * 8 + x4 / 32 && m[7] == x4 % 32
  {
    var x0, x1, x2, x3, x4 := x[0] as int, x[1] as int, x[2] as int, x[3] as int, x[4] as int;
    var g := GroupQuintets(x);
    var m := Mask(g);
    assert m[0] == x0 / 8 by { UintConverter.DivModUnique(x0 / 8, 32, 0, x0 / 8); }
    assert m[1] == (x0 % 8) * 4 + x1 / 64 by { MaskQuintet1(x0, x1); }
    assert m[3] == (x1 % 2) * 16 + x2 / 16 by { MaskQuintet3(x1, x2); }
    assert m[4] == (x2 % 16) * 2 + x3 / 128 by { MaskQuintet4(x2, x3); }
    assert m[6] == (x3 % 4) * 8 + x4 / 32 by { MaskQuintet6(x3, x4); }
  }

  /** One five-byte group survives masking its quintets and rebuilding. */
  lemma GroupBytesRoundTrip(x: seq<byte>)
    requires |x| == 5
    ensures GroupBytes(Mask(GroupQuintets(x))) == x
  {
    var x0, x1, x2, x3, x4 := x[0] as int, x[1] as int, x[2] as int, x[3] as int, x[4] as int;
    MaskedGroup(x);
    var y := GroupBytes(Mask(GroupQuintets(x)));
    assert y[0] == x[0] by { RebuildByte0(x0, x1); }
    assert y[1] == x[1] by { RebuildByte1(x0, x1, x2); }
    assert y[2] == x[2] by { RebuildByte2(x1, x2, x3); }
    assert y[3] == x[3] by { RebuildByte3(x2, x3, x4); }
    assert y[4] == x[4] by { RebuildByte4(x3, x4); }
  }

  lemma StoreByte0(q0: int, q1: int)
    requires 0 <= q0 < 32 && 0 <= q1 < 32
    ensures (q0 * 8 + q1 / 4) % 256 == q0 * 8 + q1 / 4
  {
    UintConverter.DivModUnique(q0 * 8 + q1 / 4, 256, 0, q0 * 8 + q1 / 4);
  }


  lemma StoreByte2(q3: int, q4: int)
    requires 0 <= q3 < 32 && 0 <= q4 < 32
    ensures (q3 * 16 + q4 / 2) % 256 == (q3 % 16) * 16 + q4 / 2
  {
    UintConverter.DivModUnique(q3 * 16 + q4 / 2, 256, q3 / 16, (q3 % 16) * 16 + q4 / 2);
  }


  lemma StoreByte4(q6: int, q7: int)
    requires 0 <= q6 < 32 && 0 <= q7 < 32
    ensures (q6 * 32 + q7) % 256 == (q6 % 8) * 32 + q7
  {
    UintConverter.DivModUnique(q6 * 32 + q7, 256, q6 / 8, (q6 % 8) * 32 + q7);
  }


  lemma StoreByte1(q1: int, q2: int, q3: int)
    requires 0 <= q1 < 32 && 0 <= q2 < 32 && 0 <= q3 < 32
    ensures (q1 * 64 + q2 * 2 + q3 / 16) % 256 == (q1 % 4) * 64 + q2 * 2 + q3 / 16
  {
    UintConverter.DivModUnique(q1 * 64 + q2 * 2 + q3 / 16, 256, q1 / 4, (q1 % 4) * 64 + q2 * 2 + q3 / 16);
  }


  lemma StoreByte3(q4: int, q5: int, q6: int)
    requires 0 <= q4 < 32 && 0 <= q5 < 32 && 0 <= q6 < 32
    ensures (q4 * 128 + q5 * 4 + q6 / 8) % 256 == (q4 % 2) * 128 + q5 * 4 + q6 / 8
  {
    UintConverter.DivModUnique(q4 * 128 + q5 * 4 + q6 / 8, 256, q4 / 2, (q4 % 2) * 128 + q5 * 4 + q6 / 8);
  }


  lemma ReadQuintet0(q0: int, q1: int)
    requires 0 <= q0 < 32 && 0 <= q1 < 32
    ensures ((q0 * 8 + q1 / 4) / 8) % 32 == q0
  {
    UintConverter.DivModUnique(q0 * 8 + q1 / 4, 8, q0, q1 / 4);
    UintConverter.DivModUnique(q0, 32, 0, q0);
  }


  lemma ReadQuintet2(q1: int, q2: int, q3: int)
    requires 0 <= q1 < 32 && 0 <= q2 < 32 && 0 <= q3 < 32
    ensures (((q1 % 4) * 64 + q2 * 2 + q3 / 16) / 2) % 32 == q2
  {
    UintConverter.DivModUnique((q1 % 4) * 64 + q2 * 2 + q3 / 16, 2, (q1 % 4) * 32 + q2, q3 / 16);
    UintConverter.DivModUnique((q1 % 4) * 32 + q2, 32, q1 % 4, q2);
  }


  lemma ReadQuintet5(q4: int, q5: int, q6: int)
    requires 0 <= q4 < 32 && 0 <= q5 < 32 && 0 <= q6 < 32
    ensures (((q4 % 2) * 128 + q5 * 4 + q6 / 8) / 4) % 32 == q5
  {
    UintConverter.DivModUnique((q4 % 2) * 128 + q5 * 4 + q6 / 8, 4, (q4 % 2) * 32 + q5, q6 / 8);
    UintConverter.DivModUnique((q4 % 2) * 32 + q5, 32, q4 % 2, q5);
  }


  lemma ReadQuintet7(q6: int, q7: int)
    requires 0 <= q6 < 32 && 0 <= q7 < 32
    ensures ((q6 % 8) * 32 + q7) % 32 == q7
  {
    UintConverter.DivModUnique((q6 % 8) * 32 + q7, 32, q6 % 8, q7);
  }


  lemma ReadQuintet1(q0: int, q1: int, q2: int, q3: int)
    requires 0 <= q0 < 32 && 0 <= q1 < 32 && 0 <= q2 < 32 && 0 <= q3 < 32
    ensures ((q0 * 8 + q1 / 4) * 4 + ((q1 % 4) * 64 + q2 * 2 + q3 / 16) / 64) % 32 == q1
  {
    UintConverter.DivModUnique((q1 % 4) * 64 + q2 * 2 + q3 / 16, 64, q1 % 4, q2 * 2 + q3 / 16);
    UintConverter.DivModUnique((q0 * 8 + q1 / 4) * 4 + q1 % 4, 32, q0, q1);
  }


  lemma ReadQuintet3(q1: int, q2: int, q3: int, q4: int)
    requires 0 <= q1 < 32 && 0 <= q2 < 32 && 0 <= q3 < 32 && 0 <= q4 < 32
    ensures (((q1 % 4) * 64 + q2 * 2 + q3 / 16) * 16 + ((q3 % 16) * 16 + q4 / 2) / 16) % 32 == q3
  {
    UintConverter.DivModUnique((q3 % 16) * 16 + q4 / 2, 16, q3 % 16, q4 / 2);
    UintConverter.DivModUnique(((q1 % 4) * 64 + q2 * 2 + q3 / 16) * 16 + q3 % 16, 32, (q1 % 4) * 32 + q2, q3);
  }


  lemma ReadQuintet4(q3: int, q4: int, q5: int, q6: int)
    requires 0 <= q3 < 32 && 0 <= q4 < 32 && 0 <= q5 < 32 && 0 <= q6 < 32
    ensures (((q3 % 16) * 16 + q4 / 2) * 2 + ((q4 % 2) * 128 + q5 * 4 + q6 / 8) / 128) % 32 == q4
  {
    UintConverter.DivModUnique((q4 % 2) * 128 + q5 * 4 + q6 / 8, 128, q4 % 2, q5 * 4 + q6 / 8);
    UintConverter.DivModUnique(((q3 % 16) * 16 + q4 / 2) * 2 + q4 % 2, 32, q3 % 16, q4);
  }


  lemma ReadQuintet6(q4: int, q5: int, q6: int, q7: int)
    requires 0 <= q4 < 32 && 0 <= q5 < 32 && 0 <= q6 < 32 && 0 <= q7 < 32
    ensures (((q4 % 2) * 128 + q5 * 4 + q6 / 8) * 8 + ((q6 % 8) * 32 + q7) / 32) % 32 == q6
  {
    UintConverter.DivModUnique((q6 % 8) * 32 + q7, 32, q6 % 8, q7);
    UintConverter.DivModUnique(((q4 % 2) * 128 + q5 * 4 + q6 / 8) * 8 + q6 % 8, 32, (q4 % 2) * 32 + q5, q6);
  }


  /** The bytes rebuilt from eight quintets, with the stores' `% 256`
      worked out. */
  lemma StoredGroup(q: seq<int>)
    requires |q| == 8 && forall j :: 0 <= j < 8 ==> 0 <= q[j] < 32
    ensures var x := GroupBytes(q);
      && x[0] as int == q[0] * 8 + q[1] / 4
      && x[1] as int == (q[1] % 4) * 64 + q[2] * 2 + q[3] / 16
      && x[2] as int == (q[3] % 16) * 16 + q[4] / 2
      && x[3] as int == (q[4] % 2) * 128 + q[5] * 4 + q[6] / 8
      && x[4] as int == (q[6] % 8) * 32 + q[7]
  {
    StoreByte0(q[0], q[1]);
    StoreByte1(q[1], q[2], q[3]);
    StoreByte2(q[3], q[4]);
    StoreByte3(q[4], q[5], q[6]);
    StoreByte4(q[6], q[7]);
  }

  /** Splitting bytes stored from quintets gives the quintets back. */
  lemma ReadGroup(x: seq<byte>, q: seq<int>)
    requires |x| == 5 && |q| == 8 && forall j :: 0 <= j < 8 ==> 0 <= q[j] < 32
    requires x[0] as int == q[0] * 8 + q[1] / 4
    requires x[1] as int == (q[1] % 4) * 64 + q[2] * 2 + q[3] / 16
    requires x[2] as int == (q[3] % 16) * 16 + q[4] / 2
    requires x[3] as int == (q[4] % 2) * 128 + q[5] * 4 + q[6] / 8
    requires x[4] as int == (q[6] % 8) * 32 + q[7]
    ensures Mask(GroupQuintets(x)) == q
  {
    var q0, q1, q2, q3, q4, q5, q6, q7 := q[0], q[1], q[2], q[3], q[4], q[5], q[6], q[7];
    var x0, x1, x2, x3, x4 := x[0] as int, x[1] as int, x[2] as int, x[3] as int, x[4] as int;
    var g := GroupQuintets(x);
    assert g == [x0 / 8, x0 * 4 + x1 / 64, x1 / 2, x1 * 16 + x2 / 16, x2 * 2 + x3 / 128, x3 / 4, x3 * 8 + x4 / 32, x4];
    var m := Mask(g);
    assert m[0] == q0 by { assert m[0] == g[0] % 32; ReadQuintet0(q0, q1); }
    assert m[1] == q1 by { assert m[1] == g[1] % 32; ReadQuintet1(q0, q1, q2, q3); }
    assert m[2] == q2 by { assert m[2] == g[2] % 32; ReadQuintet2(q1, q2, q3); }
    assert m[3] == q3 by { assert m[3] == g[3] % 32; ReadQuintet3(q1, q2, q3, q4); }
    assert m[4] == q4 by { assert m[4] == g[4] % 32; ReadQuintet4(q3, q4, q5, q6); }
    assert m[5] == q5 by { assert m[5] == g[5] % 32; ReadQuintet5(q4, q5, q6); }
    assert m[6] == q6 by { assert m[6] == g[6] % 32; ReadQuintet6(q4, q5, q6, q7); }
    assert m[7] == q7 by { assert m[7] == g[7] % 32; ReadQuintet7(q6, q7); }
  }

  /** Eight quintets survive rebuilding their bytes and re-splitting. */
  lemma GroupQuintetsRoundTrip(q: seq<int>)
    requires |q| == 8 && forall j :: 0 <= j < 8 ==> 0 <= q[j] < 32
    ensures Mask(GroupQuintets(GroupBytes(q))) == q
  {
    StoredGroup(q);
    ReadGroup(GroupBytes(q), q);
  }

  /** Looking the characters of an encoding up again yields the masked
      quintets it was written from. */
  lemma ReadBackQuintets(b: seq<byte>)
    requires |b| == IdLength
    ensures CharQuintets(EncodeBytes(b))
         == Mask(Quintets(b))
  {
    var s := EncodeBytes(b);
    forall j | 0 <= j < EncodingLength ensures QuintetOf(s[j]) == Mask(Quintets(b))[j] {
      QuintetOfChar(Quintets(b)[j]);
    }
  }

  lemma FirstByteRoundTrip(b0: int)
    requires 0 <= b0 < 256
    ensures (((b0 / 32) % 32) * 32 + b0 % 32) % 256 == b0
  {
    UintConverter.DivModUnique(b0 / 32, 32, 0, b0 / 32);
    UintConverter.DivModUnique((b0 / 32) * 32 + b0 % 32, 256, 0, b0);
  }


  /** The masked quintets of `b`: the first two from byte 0, then the
      masked quintets of each five-byte group. */
  lemma MaskedQuintetsParts(b: seq<byte>)
    requires |b| == IdLength
    ensures var m := Mask(Quintets(b));
      && m[0] == (b[0] / 32) % 32 && m[1] == b[0] % 32
      && m[2..10] == Mask(GroupQuintets(b[1..6]))
      && m[10..18] == Mask(GroupQuintets(b[6..11]))
      && m[18..26] == Mask(GroupQuintets(b[11..16]))
  {
    var f: seq<nat> := [b[0] / 32, b[0]];
    var g1, g2, g3 := GroupQuintets(b[1..6]), GroupQuintets(b[6..11]), GroupQuintets(b[11..16]);
    assert Quintets(b) == f + g1 + g2 + g3;
    MaskConcat4(f, g1, g2, g3);
    var m := Mask(Quintets(b));
    SlicesOfConcat4(Mask(f), Mask(g1), Mask(g2), Mask(g3));
    assert m[..2] == Mask(f);
    assert m[0] == m[..2][0] && m[1] == m[..2][1];
  }

  /** Rebuilding bytes from the masked quintets of `b` gives `b` back. */
  lemma MaskedQuintetsRebuild(b: seq<byte>)
    requires |b| == IdLength
    ensures QuintetBytes(Mask(Quintets(b))) == b
  {
    var m := Mask(Quintets(b));
    MaskedQuintetsParts(b);
    GroupBytesRoundTrip(b[1..6]);
    GroupBytesRoundTrip(b[6..11]);
    GroupBytesRoundTrip(b[11..16]);
    var first := (m[0] * 32 + m[1]) % 256;
    assert first == b[0] by { FirstByteRoundTrip(b[0] as int); }
    assert QuintetBytes(m) == [first] + b[1..6] + b[6..11] + b[11..16];
    SplitInFour(b, 1, 6, 11);
    assert b[..1] == [b[0]];
  }

  /** Every 16-byte buffer survives encoding then decoding. */
  lemma BytesRoundTrip(b: seq<byte>)
    requires |b| == IdLength
    ensures DecodeChars(EncodeBytes(b)) == b
  {
    ReadBackQuintets(b);
    MaskedQuintetsRebuild(b);
  }

  /** A canonical encoding: the first character in `0-7`, the rest from the
      alphabet, all uppercase. */
  predicate IsCanonical(s: string)
  {
    |s| == EncodingLength && '0' <= s[0] <= '7' && forall i :: 0 <= i < |s| ==> s[i] in Alphabet
  }

  lemma FirstQuintetsRoundTrip(q0: int, q1: int)
    requires 0 <= q0 < 8 && 0 <= q1 < 32
    ensures ((((q0 * 32 + q1) % 256) / 32) % 32) == q0
    ensures ((q0 * 32 + q1) % 256) % 32 == q1
  {
    UintConverter.DivModUnique(q0 * 32 + q1, 256, 0, q0 * 32 + q1);
    UintConverter.DivModUnique(q0 * 32 + q1, 32, q0, q1);
    UintConverter.DivModUnique(q0, 32, 0, q0);
  }


  /** Quintets whose first one fits three bits survive rebuilding their
      bytes and splitting them again. */
  lemma QuintetsRebuild(q: seq<int>)
    requires |q| == EncodingLength && forall j :: 0 <= j < |q| ==> 0 <= q[j] < 32
    requires q[0] < 8
    ensures Mask(Quintets(QuintetBytes(q))) == q
  {
    var b := QuintetBytes(q);
    var g1, g2, g3 := GroupBytes(q[2..10]), GroupBytes(q[10..18]), GroupBytes(q[18..26]);
    SlicesOfConcat4([b[0]], g1, g2, g3);
    GroupQuintetsRoundTrip(q[2..10]);
    GroupQuintetsRoundTrip(q[10..18]);
    GroupQuintetsRoundTrip(q[18..26]);
    var f := [b[0] / 32, b[0] as nat];
    MaskConcat4(f, GroupQuintets(g1), GroupQuintets(g2), GroupQuintets(g3));
    assert Mask(f) == q[..2] by { FirstQuintetsRoundTrip(q[0], q[1]); }
    SplitInFour(q, 2, 10, 18);
  }

  /** A sequence is the concatenation of its pieces between three cuts. */
  lemma SplitInFour<T>(s: seq<T>, i: nat, j: nat, k: nat)
    requires i <= j <= k <= |s|
    ensures s == s[..i] + s[i..j] + s[j..k] + s[k..]
  {
  }

  /** The pieces of a four-part concatenation, sliced back out. */
  lemma SlicesOfConcat4<T>(a: seq<T>, b: seq<T>, c: seq<T>, d: seq<T>)
    ensures var s, i, j, k := a + b + c + d, |a|, |a| + |b|, |a| + |b| + |c|;
      s[..i] == a && s[i..j] == b && s[j..k] == c && s[k..k + |d|] == d && s[k..] == d
  {
    var s := a + b + c + d;
    assert s[..|a|] == a;
    assert s[|a|..|a| + |b|] == b;
    assert s[|a| + |b|..|a| + |b| + |c|] == c;
    assert s[|a| + |b| + |c|..] == d;
  }

  /** Masking works piece by piece. */
  lemma MaskConcat4(a: seq<nat>, b: seq<nat>, c: seq<nat>, d: seq<nat>)
    ensures Mask(a + b + c + d) == Mask(a) + Mask(b) + Mask(c) + Mask(d)
  {
    var s := a + b + c + d;
    var r := Mask(a) + Mask(b) + Mask(c) + Mask(d);
    forall j | 0 <= j < |s| ensures Mask(s)[j] == r[j] {
      if j < |a| {
      } else if j < |a| + |b| {
        assert s[j] == b[j - |a|];
      } else if j < |a| + |b| + |c| {
        assert s[j] == c[j - |a| - |b|];
      } else {
        assert s[j] == d[j - |a| - |b| - |c|];
      }
    }
  }

  /** An alphabet character is the alphabet entry at its own quintet. */
  lemma AlphabetIndex(c: char)
    requires c in Alphabet
    ensures Alphabet[QuintetOf(c)] == c
  {
    var n :| 0 <= n < 32 && Alphabet[n] == c;
    AlphabetQuintet(n);
  }

  /** A digit `0`-`7` reads as a quintet below 8. */
  lemma LeadingQuintet(c: char)
    requires '0' <= c <= '7'
    ensures QuintetOf(c) == c as int - '0' as int
  {
  }

  /** Every canonical encoding survives decoding then encoding. */
  lemma TextRoundTrip(s: string)
    requires IsCanonical(s)
    ensures EncodeBytes(DecodeChars(s)) == s
  {
    var q := CharQuintets(s);
    LeadingQuintet(s[0]);
    QuintetsRebuild(q);
    EncodesCanonical(s, QuintetBytes(q));
  }

  /** A buffer whose masked quintets are those of a canonical text encodes
      to that text. */
  lemma EncodesCanonical(s: string, b: seq<byte>)
    requires IsCanonical(s) && |b| == IdLength
    requires Mask(Quintets(b)) == CharQuintets(s)
    ensures EncodeBytes(b) == s
  {
    var e := EncodeBytes(b);
    forall j | 0 <= j < EncodingLength ensures e[j] == s[j] {
      AlphabetIndex(s[j]);
      EncodedChar(b, j);
    }
  }

  /** Character `j` of an encoding is the alphabet entry of masked
      quintet `j`. */
  lemma EncodedChar(b: seq<byte>, j: nat)
    requires |b| == IdLength && j < EncodingLength
    ensures EncodeBytes(b)[j] == Alphabet[Mask(Quintets(b))[j]]
  {
  }

  /** Every alphabet character is one the pattern admits. */
  lemma AlphabetIsAlphanumeric(c: char)
    requires c in Alphabet
    ensures IsAlphanumeric(c)
  {
  }

  /** `encode` then `decode` gives every 16-byte buffer back. */
  lemma EncodeThenDecode(b: seq<byte>)
    requires |b| == IdLength
    ensures Encode(Uint8Array(b)).Ok?
    ensures Decode(Text(Encode(Uint8Array(b)).value)) == Ok(b)
  {
    var s := Encode(Uint8Array(b)).value;
    forall i | 1 <= i < |s| ensures IsAlphanumeric(s[i]) {
      AlphabetIsAlphanumeric(s[i]);
    }
    BytesRoundTrip(b);
  }

  /** `decode` then `encode` gives every canonical encoding back. */
  lemma DecodeThenEncode(s: string)
    requires IsCanonical(s)
    ensures Decode(Text(s)).Ok?
    ensures Encode(Uint8Array(Decode(Text(s)).value)) == Ok(s)
  {
    assert IsValidEncoding(Text(s)) by {
      forall i | 1 <= i < |s| ensures IsAlphanumeric(s[i]) {
        AlphabetIsAlphanumeric(s[i]);
      }
    }
    var b := DecodeChars(s);
    assert Decode(Text(s)) == Ok(b);
    TextRoundTrip(s);
    assert Encode(Uint8Array(b)) == Ok(EncodeBytes(b));
  }

  lemma AlphanumericIgnoresCase(c: char)
    ensures IsAlphanumeric(LowerChar(c)) == IsAlphanumeric(c)
    ensures IsAlphanumeric(UpperChar(c)) == IsAlphanumeric(c)
  {
  }

  /** The pattern accepts a string exactly when it accepts it in either
      case. */
  lemma ValidityIgnoresCase(s: string)
    ensures IsValidEncoding(Text(Lower(s))) == IsValidEncoding(Text(s))
    ensures IsValidEncoding(Text(Upper(s))) == IsValidEncoding(Text(s))
  {
    forall i | 0 <= i < |s|
      ensures IsAlphanumeric(Lower(s)[i]) == IsAlphanumeric(s[i])
      ensures IsAlphanumeric(Upper(s)[i]) == IsAlphanumeric(s[i])
    {
      AlphanumericIgnoresCase(s[i]);
    }
  }

  /** Decoding after validation reads either case alike. */
  lemma DecodeCharsIgnoresCase(s: string)
    requires |s| == EncodingLength
    ensures DecodeChars(Lower(s)) == DecodeChars(s)
    ensures DecodeChars(Upper(s)) == DecodeChars(s)
  {
    var q := CharQuintets(s);
    var ql := CharQuintets(Lower(s));
    var qu := CharQuintets(Upper(s));
    forall j | 0 <= j < EncodingLength ensures ql[j] == q[j] && qu[j] == q[j] {
      QuintetIgnoresCase(s[j]);
    }
    assert ql == q && qu == q;
  }

  /** `decode` accepts and reads a string in either case alike. */
  lemma DecodeIgnoresCase(s: string)
    ensures Decode(Text(Lower(s))) == Decode(Text(s))
    ensures Decode(Text(Upper(s))) == Decode(Text(s))
  {
    ValidityIgnoresCase(s);
    if IsValidEncoding(Text(s)) {
      DecodeCharsIgnoresCase(s);
    }
  }

  /** Every quintet of the all-zero buffer is 0. */
  lemma ZeroQuintets()
    ensures forall j :: 0 <= j < EncodingLength ==> Quintets(ZeroFilled())[j] == 0
  {
    var z := ZeroFilled();
    var g := GroupQuintets([0, 0, 0, 0, 0]);
    assert g == [0, 0, 0, 0, 0, 0, 0, 0];
    assert z[1..6] == z[6..11] == z[11..16] == [0, 0, 0, 0, 0];
    assert Quintets(z) == [0, 0] + g + g + g;
  }

  /** Every quintet of the all-one buffer past the first masks to 31, and
      the first is 7. */
  lemma OneQuintets()
    ensures Quintets(OneFilled())[0] == 7
    ensures forall j :: 1 <= j < EncodingLength ==> Quintets(OneFilled())[j] % 32 == 31
  {
    var o := OneFilled();
    var g := GroupQuintets([255, 255, 255, 255, 255]);
    assert g == [31, 1023, 127, 4095, 511, 63, 2047, 255];
    assert forall j :: 0 <= j < 8 ==> g[j] % 32 == 31;
    assert o[1..6] == o[6..11] == o[11..16] == [255, 255, 255, 255, 255];
    assert Quintets(o) == [7, 255] + g + g + g;
  }

  /** The all-zero buffer encodes to 26 `0`; the all-one buffer to `7`
      followed by 25 `Z`. */
  lemma FilledEncodings()
    ensures Encode(Uint8Array(ZeroFilled())) == Ok(seq(26, _ => '0'))
    ensures Encode(Uint8Array(OneFilled())) == Ok(['7'] + seq(25, _ => 'Z'))
  {
    ZeroQuintets();
    OneQuintets();
    var zero, one := EncodeBytes(ZeroFilled()), EncodeBytes(OneFilled());
    assert zero == seq(26, _ => '0') by {
      forall i | 0 <= i < 26 ensures zero[i] == '0' { }
    }
    assert one == ['7'] + seq(25, _ => 'Z') by {
      forall i | 0 <= i < 26 ensures one[i] == (['7'] + seq(25, _ => 'Z'))[i] { }
    }
  }
}

=== FILE: epoch_converter.dfy ===
/** Conversion between wall-clock milliseconds and a 48-bit offset from an
    origin instant. */
module EpochConverter {
  import opened Errors

  /** A JavaScript time argument, as the generators receive it. */
  datatype TimeArg =
    | NullTime             // null, or the argument left out (undefined)
    | IntegerTime(n: int)  // a Number for which Number.isInteger holds
    | DateTime(ms: int)    // a valid Date, by its getTime()
    | OtherTime            // any other non-Date: false, '', a date string, a fraction, a duck-typed object
                           // (an Invalid Date is not modelled here)

  /** Offsets must lie in `[0, 2^48)` (`MIN_MS`, `MAX_MS`). */
  const MinMs: int := 0
  const MaxMs: int := 0x1_0000_0000_0000

  /** The millisecond count a time argument stands for; `now` is the
      reading of the wall clock, used for a null or absent time. Internal
      to ToEpoch and the ULID generators, whose contracts state it. */
  function CoercedMs(time: TimeArg, now: int): Option<int>
  {
    match time
    case NullTime => Some(now)
    case IntegerTime(n) => Some(n)
    case DateTime(ms) => Some(ms)
    case OtherTime => None
  }

  /** `toEpoch(origin_ms, time)`: coerce, subtract the origin, and insist on
      the 48-bit window. */
  function ToEpoch(originMs: int, time: TimeArg, now: int): (r: Result<int>)
    ensures time.OtherTime? ==> r == Fail(InvalidEpoch)
    ensures r.Fail? ==> r.error == InvalidEpoch
    ensures time.NullTime? ==> (r.Ok? <==> MinMs <= now - originMs < MaxMs)
    ensures time.IntegerTime? ==> (r.Ok? <==> MinMs <= time.n - originMs < MaxMs)
    ensures time.DateTime? ==> (r.Ok? <==> MinMs <= time.ms - originMs < MaxMs)
    ensures r.Ok? ==> 0 <= r.value < MaxMs && r.value + originMs == CoercedMs(time, now).value
  {
    match CoercedMs(time, now)
    case None => Fail(InvalidEpoch)
    case Some(coerced) =>
      var epochMs := coerced - originMs;
      if epochMs < MinMs || epochMs >= MaxMs then Fail(InvalidEpoch)
      else Ok(epochMs)
  }

  /** `fromEpoch(origin_ms, epoch_ms)`: the instant, in milliseconds, that
      lies `epochMs` after the origin. */
  function FromEpoch(originMs: int, epochMs: int): (t: int)
    ensures forall now :: ToEpoch(originMs, IntegerTime(t), now).Ok? <==> MinMs <= epochMs < MaxMs
    ensures forall now :: MinMs <= epochMs < MaxMs ==> ToEpoch(originMs, IntegerTime(t), now) == Ok(epochMs)
    ensures forall now :: MinMs <= epochMs < MaxMs ==> ToEpoch(originMs, DateTime(t), now) == Ok(epochMs)
  {
    epochMs + originMs
  }

  /** Every offset in the window survives the trip out to an instant and
      back, whether the instant is given as an integer or as a Date. */
  lemma EpochRoundTrip(originMs: int, epochMs: int, now: int)
    requires MinMs <= epochMs < MaxMs
    ensures ToEpoch(originMs, IntegerTime(FromEpoch(originMs, epochMs)), now) == Ok(epochMs)
    ensures ToEpoch(originMs, DateTime(FromEpoch(originMs, epochMs)), now) == Ok(epochMs)
  {
  }

  /** Every accepted time is recovered from its offset. */
  lemma InstantRoundTrip(originMs: int, time: TimeArg, now: int)
    requires ToEpoch(originMs, time, now).Ok?
    ensures FromEpoch(originMs, ToEpoch(originMs, time, now).value) == CoercedMs(time, now).value
  {
  }
}

=== FILE: errors.dfy ===
/** Error kinds raised by the identifier library, and the option/result
    carriers used to model JavaScript's `undefined` and thrown exceptions. */
module Errors {

  /** The distinct exceptions the library throws. JavaScript classes that
      differ only by module of origin (the two `InvalidDecodingError`
      classes, for one) are one kind here. */
  datatype Error =
    | InvalidEpoch         // a time outside the 48-bit window, or of the wrong type
    | InvalidDecoding      // text rejected by a decoder's pattern
    | InvalidEncoding      // bytes that are not a 16-byte Uint8Array
    | TypeError            // JavaScript's built-in TypeError
    | RangeError           // JavaScript's built-in RangeError
    | IncrementOverflow    // the monotonic ULID counter carried out of byte 6
    | UnsupportedVersion   // no identifier type registered for a version

  datatype Option<+T> = None | Some(value: T)

  /** A computation that either returns a value or throws one error. */
  datatype Result<+T> = Ok(value: T) | Fail(error: Error) {
    predicate IsFailure() { Fail? }

    function PropagateFailure<U>(): Result<U>
      requires Fail?
    {
      Fail(error)
    }

    function Extract(): T
      requires Ok?
    {
      value
    }
  }
}

=== FILE: hex.dfy ===
/** Base16 text for 16-byte buffers (`HexCoder`): two uppercase digits per
    byte on output, either case on input. */
module HexCoder {
  import opened Errors
  import opened ByteArray
  import opened CoderBase
  import UintConverter

  const Alphabet: string := "0123456789ABCDEF"

  /** A valid encoding has exactly this many digits. */
  const EncodingLength: nat := 32

  /** `HEX_TO_BYTE`: each digit of the alphabet, upper or lower case, maps
      to its index; every other character is absent. A helper of
      `decodeTrusted` and the validity test; NibbleTable states what it
      maps. */
  function HexToNibble(c: char): Option<int>
  {
    if '0' <= c <= '9' then Some(c as int - '0' as int)
    else if 'A' <= c <= 'F' then Some(c as int - 'A' as int + 10)
    else if 'a' <= c <= 'f' then Some(c as int - 'a' as int + 10)
    else None
  }

  /** One character class of the pattern `/^[0-9A-Fa-f]{32}$/`. */
  predicate IsPatternChar(c: char)
  {
    ('0' <= c <= '9') || ('A' <= c <= 'F') || ('a' <= c <= 'f')
  }

  /** `isValidEncoding`: a string matching `/^[0-9A-Fa-f]{32}$/`; these
      are exactly the 32-character strings whose every character is in
      the table `HEX_TO_BYTE`. */
  function IsValidEncoding(v: JsValue): (ok: bool)
    ensures ok <==> v.Text? && |v.s| == EncodingLength && forall i :: 0 <= i < |v.s| ==> HexToNibble(v.s[i]).Some?
  {
    v.Text? && |v.s| == EncodingLength && forall i :: 0 <= i < |v.s| ==> IsPatternChar(v.s[i])
  }

  /** The canonical output alphabet: a digit or an uppercase A-F. */
  predicate IsUpperHex(c: char)
  {
    c in Alphabet
  }

  /** The table `HEX_TO_BYTE` is built from `Alphabet` in both cases and
      covers exactly the characters the pattern admits. */
  lemma NibbleTable()
    ensures forall n :: 0 <= n < 16 ==> HexToNibble(Alphabet[n]) == Some(n)
    ensures forall n :: 0 <= n < 16 ==> HexToNibble(LowerChar(Alphabet[n])) == Some(n)
    ensures forall c :: IsPatternChar(c) <==> HexToNibble(c).Some?
    ensures forall c :: HexToNibble(c).Some? ==> 0 <= HexToNibble(c).value < 16
  {
    forall n | 0 <= n < 16 ensures HexToNibble(Alphabet[n]) == Some(n) {
      DigitNibble(n);
    }
    forall n | 0 <= n < 16 ensures HexToNibble(LowerChar(Alphabet[n])) == Some(n) {
      DigitNibble(n);
      NibbleIgnoresCase(Alphabet[n]);
    }
  }

  /** Decoding ignores case: a character and its uppercase form map to the
      same nibble. */
  lemma NibbleIgnoresCase(c: char)
    ensures HexToNibble(UpperChar(c)) == HexToNibble(c)
    ensures HexToNibble(LowerChar(c)) == HexToNibble(c)
  {
  }

  /** The nibble at position `k`, or 0 where the JavaScript loop would read
      `undefined` (past the end, or a character outside the table). */
  function NibbleAt(s: string, k: nat): (r: int)
    ensures 0 <= r < 16
  {
    if k < |s| && HexToNibble(s[k]).Some? then HexToNibble(s[k]).value else 0
  }

  /** `decodeTrusted`: pair up digits into bytes of a fresh 16-byte buffer.
      Nothing is checked: writes past index 15 are dropped and missing or
      foreign digits read as 0, as the typed-array stores do. */
  function DecodeTrusted(s: string): (r: seq<byte>)
    ensures |r| == IdLength
  {
    seq(IdLength, i requires 0 <= i < IdLength => 16 * NibbleAt(s, 2 * i) + NibbleAt(s, 2 * i + 1))
  }

  /** `encodeTrusted`: concatenate `BYTE_TO_HEX` of every byte, high digit
      first. */
  function EncodeTrusted(bytes: seq<byte>): (r: string)
    ensures |r| == 2 * |bytes|
    ensures forall i :: 0 <= i < |r| ==> IsUpperHex(r[i])
  {
    seq(2 * |bytes|, i requires 0 <= i < 2 * |bytes| =>
      if i % 2 == 0 then Alphabet[bytes[i / 2] / 16] else Alphabet[bytes[i / 2] % 16])
  }

  /** `decode`: validate, then decode trusted. */
  function Decode(v: JsValue): (r: Result<seq<byte>>)
    ensures r.Ok? <==> IsValidEncoding(v)
    ensures r.Ok? ==> |r.value| == IdLength && r.value == DecodeTrusted(v.s)
    ensures r.Fail? ==> r.error == InvalidDecoding
  {
    if IsValidEncoding(v) then Ok(DecodeTrusted(v.s)) else Fail(InvalidDecoding)
  }

  /** `encode`: insist on a 16-byte Uint8Array, then encode trusted. */
  function Encode(v: JsValue): (r: Result<string>)
    ensures r.Ok? <==> IsValidBytes(v)
    ensures r.Ok? ==> |r.value| == EncodingLength && r.value == EncodeTrusted(v.bytes)
    ensures r.Fail? ==> r.error == InvalidEncoding
  {
    if IsValidBytes(v) then Ok(EncodeTrusted(v.bytes)) else Fail(InvalidEncoding)
  }

  lemma DigitNibble(n: int)
    requires 0 <= n < 16
    ensures HexToNibble(Alphabet[n]) == Some(n)
  {
  }

  lemma UpperHexDigit(c: char) returns (n: int)
    requires IsUpperHex(c)
    ensures 0 <= n < 16 && Alphabet[n] == c && HexToNibble(c) == Some(n)
  {
    n :| 0 <= n < 16 && Alphabet[n] == c;
    DigitNibble(n);
  }

  /** The two digits `encodeTrusted` writes for byte `i` decode back to it. */
  lemma DigitsOfByte(bytes: seq<byte>, i: nat)
    requires i < |bytes|
    ensures 16 * NibbleAt(EncodeTrusted(bytes), 2 * i) + NibbleAt(EncodeTrusted(bytes), 2 * i + 1) == bytes[i]
  {
    var s := EncodeTrusted(bytes);
    var hi, lo := bytes[i] / 16, bytes[i] % 16;
    assert (2 * i) / 2 == i && (2 * i) % 2 == 0;
    assert (2 * i + 1) / 2 == i && (2 * i + 1) % 2 == 1;
    assert s[2 * i] == Alphabet[hi];
    assert s[2 * i + 1] == Alphabet[lo];
    DigitNibble(hi);
    DigitNibble(lo);
  }

  /** Byte `i` of the decoded encoding is byte `i` of the buffer. */
  lemma DecodedByte(bytes: seq<byte>, i: nat)
    requires |bytes| == IdLength && i < IdLength
    ensures DecodeTrusted(EncodeTrusted(bytes))[i] == bytes[i]
  {
    DecodeTrustedAt(EncodeTrusted(bytes), i);
    DigitsOfByte(bytes, i);
  }

  lemma DecodeTrustedAt(s: string, i: nat)
    requires i < IdLength
    ensures DecodeTrusted(s)[i] == 16 * NibbleAt(s, 2 * i) + NibbleAt(s, 2 * i + 1)
  {
  }

  /** Every 16-byte buffer survives encoding then trusted decoding. */
  lemma BytesRoundTrip(bytes: seq<byte>)
    requires |bytes| == IdLength
    ensures DecodeTrusted(EncodeTrusted(bytes)) == bytes
  {
    var d := DecodeTrusted(EncodeTrusted(bytes));
    forall i | 0 <= i < IdLength
      ensures d[i] == bytes[i]
    {
      DecodedByte(bytes, i);
    }
  }

  /** Digit `i` of the re-encoded decoding is digit `i` of the text. */
  lemma ReencodedDigit(s: string, i: nat)
    requires |s| == EncodingLength && forall k :: 0 <= k < |s| ==> IsUpperHex(s[k])
    requires i < EncodingLength
    ensures EncodeTrusted(DecodeTrusted(s))[i] == s[i]
  {
    var b := DecodeTrusted(s);
    var j, parity := i / 2, i % 2;
    assert i == 2 * j + parity && j < IdLength;
    var hi := UpperHexDigit(s[2 * j]);
    var lo := UpperHexDigit(s[2 * j + 1]);
    assert NibbleAt(s, 2 * j) == hi && NibbleAt(s, 2 * j + 1) == lo;
    assert b[j] == 16 * hi + lo;
    UintConverter.DivModUnique(b[j], 16, hi, lo);
    var e := EncodeTrusted(b);
    assert e[i] == if parity == 0 then Alphabet[hi] else Alphabet[lo];
  }

  /** Every canonical (uppercase, 32-digit) encoding survives trusted
      decoding then encoding. */
  lemma TextRoundTrip(s: string)
    requires |s| == EncodingLength && forall i :: 0 <= i < |s| ==> IsUpperHex(s[i])
    ensures EncodeTrusted(DecodeTrusted(s)) == s
  {
    forall i | 0 <= i < EncodingLength
      ensures EncodeTrusted(DecodeTrusted(s))[i] == s[i]
    {
      ReencodedDigit(s, i);
    }
  }

  /** Trusted decoding reads either case alike. */
  lemma DecodeTrustedIgnoresCase(s: string)
    ensures DecodeTrusted(Upper(s)) == DecodeTrusted(s)
    ensures DecodeTrusted(Lower(s)) == DecodeTrusted(s)
  {
    forall k: nat ensures NibbleAt(Upper(s), k) == NibbleAt(s, k) && NibbleAt(Lower(s), k) == NibbleAt(s, k) {
      if k < |s| { NibbleIgnoresCase(s[k]); }
    }
  }

  /** The all-zero and all-one buffers encode to 32 '0' and 32 'F'. */
  lemma FilledEncodings()
    ensures Encode(Uint8Array(ZeroFilled())) == Ok(seq(32, _ => '0'))
    ensures Encode(Uint8Array(OneFilled())) == Ok(seq(32, _ => 'F'))
  {
    var zero, one := EncodeTrusted(ZeroFilled()), EncodeTrusted(OneFilled());
    assert zero == seq(32, _ => '0') by {
      forall i | 0 <= i < 32 ensures zero[i] == '0' { }
    }
    assert one == seq(32, _ => 'F') by {
      forall i | 0 <= i < 32 ensures one[i] == 'F' { }
    }
  }

  /** `encode` then `decode` gives every 16-byte buffer back. */
  lemma EncodeThenDecode(b: seq<byte>)
    requires |b| == IdLength
    ensures Encode(Uint8Array(b)).Ok?
    ensures Decode(Text(Encode(Uint8Array(b)).value)) == Ok(b)
  {
    var s := EncodeTrusted(b);
    assert IsValidEncoding(Text(s)) by {
      forall i | 0 <= i < |s| ensures IsPatternChar(s[i]) {
        var n := UpperHexDigit(s[i]);
      }
    }
    BytesRoundTrip(b);
  }

  /** `decode` then `encode` gives every canonical encoding back. */
  lemma DecodeThenEncode(s: string)
    requires |s| == EncodingLength && forall i :: 0 <= i < |s| ==> IsUpperHex(s[i])
    ensures Decode(Text(s)).Ok?
    ensures Encode(Uint8Array(Decode(Text(s)).value)) == Ok(s)
  {
    assert IsValidEncoding(Text(s)) by {
      forall i | 0 <= i < |s| ensures IsPatternChar(s[i]) {
        var n := UpperHexDigit(s[i]);
      }
    }
    TextRoundTrip(s);
  }

  /** `decode` accepts and reads a string in either case alike. */
  lemma DecodeIgnoresCase(s: string)
    ensures Decode(Text(Lower(s))) == Decode(Text(s))
    ensures Decode(Text(Upper(s))) == Decode(Text(s))
  {
    forall i | 0 <= i < |s|
      ensures IsPatternChar(Lower(s)[i]) == IsPatternChar(s[i])
      ensures IsPatternChar(Upper(s)[i]) == IsPatternChar(s[i])
    {
    }
    assert IsValidEncoding(Text(Lower(s))) == IsValidEncoding(Text(s));
    assert IsValidEncoding(Text(Upper(s))) == IsValidEncoding(Text(s));
    DecodeTrustedIgnoresCase(s);
  }
  /** `decode` as written: `BaseCoder.decode` hands a valid text to
      `this._decode`, a method `HexCoder` does not define (it defines
      `decodeTrusted`), so every valid text throws a TypeError; an invalid
      one still throws InvalidDecodingError. */
  function DecodeAsWritten(v: JsValue): (r: Result<seq<byte>>)
    ensures r.Fail?
    ensures r.error == TypeError <==> IsValidEncoding(v)
    ensures r.error == InvalidDecoding <==> !IsValidEncoding(v)
  {
    if IsValidEncoding(v) then Fail(TypeError) else Fail(InvalidDecoding)
  }

  /** `encode` as written: `BaseCoder.encode` hands valid bytes to the
      undefined `this._encode`, so every sixteen-byte Uint8Array throws a
      TypeError; other values still throw InvalidEncodingError. */
  function EncodeAsWritten(v: JsValue): (r: Result<string>)
    ensures r.Fail?
    ensures r.error == TypeError <==> IsValidBytes(v)
    ensures r.error == InvalidEncoding <==> !IsValidBytes(v)
  {
    if IsValidBytes(v) then Fail(TypeError) else Fail(InvalidEncoding)
  }

  /** The corrected entry points reject exactly what the code as written
      rejects with its own error, and succeed exactly where it throws a
      TypeError. */
  lemma CodecCorrectsAsWritten(v: JsValue)
    ensures Decode(v).Ok? <==> DecodeAsWritten(v) == Fail(TypeError)
    ensures Decode(v).Fail? ==> Decode(v) == DecodeAsWritten(v)
    ensures Encode(v).Ok? <==> EncodeAsWritten(v) == Fail(TypeError)
    ensures Encode(v).Fail? ==> Encode(v) == EncodeAsWritten(v)
  {
  }

  /** Every sixteen-byte buffer shows the discrepancy twice: as written,
      encoding it throws, and so does decoding its intended encoding, where
      the corrected coder round-trips it. */
  lemma ValidInputThrowsAsWritten(b: seq<byte>)
    requires |b| == IdLength
    ensures EncodeAsWritten(Uint8Array(b)) == Fail(TypeError)
    ensures DecodeAsWritten(Text(EncodeTrusted(b))) == Fail(TypeError)
    ensures Decode(Text(EncodeTrusted(b))) == Ok(b)
  {
    EncodeThenDecode(b);
  }
}

=== FILE: id_factory.dfy ===
/** `IdFactory`: binds an identifier class to a canonical and a raw text
    coder, delegates generation to the class, and caches `MIN` and `MAX`.
    The classes and coders form a closed set here, so binding is by tag
    and dispatch is by `match`. */
module IdFactory {
  import opened Errors
  import opened ByteArray
  import opened BaseId
  import opened CoderBase
  import opened EpochConverter
  import ByteOrder
  import HexCoder
  import Crockford32Coder
  import UuidCoder
  import UuidClock
  import Uuid1
  import Uuid4
  import Uuid6
  import UuidNil
  import Ulid
  import UlidMonotonic

  /** The text coders a factory can be given. */
  datatype Coder = Hex | Crockford32 | UuidText

  /** The coder's `decode`. */
  function Decode(c: Coder, v: JsValue): (r: Result<seq<byte>>)
    ensures r.Ok? ==> |r.value| == IdLength
    ensures r.Fail? ==> r.error == InvalidDecoding
  {
    match c
    case Hex => HexCoder.Decode(v)
    case Crockford32 => Crockford32Coder.Decode(v)
    case UuidText => UuidCoder.Decode(v)
  }

  /** The coder's `encode`: every coder accepts exactly the sixteen-byte
      arrays. */
  function Encode(c: Coder, v: JsValue): (r: Result<string>)
    ensures r.Ok? <==> IsValidBytes(v)
    ensures r.Fail? ==> r.error == InvalidEncoding
  {
    match c
    case Hex => HexCoder.Encode(v)
    case Crockford32 => Crockford32Coder.Encode(v)
    case UuidText => UuidCoder.Encode(v)
  }

  /** Every coder reads back what it writes. */
  lemma CoderRoundTrip(c: Coder, b: seq<byte>)
    requires |b| == IdLength
    ensures Encode(c, Uint8Array(b)).Ok?
    ensures Decode(c, Text(Encode(c, Uint8Array(b)).value)) == Ok(b)
  {
    match c
    case Hex => HexCoder.EncodeThenDecode(b);
    case Crockford32 => Crockford32Coder.EncodeThenDecode(b);
    case UuidText => UuidCoder.EncodeThenDecode(b);
  }

  /** The process-wide generator states: the monotonic ULID's and the
      clock counters of versions 1 and 6. */
  datatype Generators = Generators(monotonic: UlidMonotonic.State, v1: UuidClock.State, v6: UuidClock.State)

  /** The states `reset` leaves and `generate` keeps. */
  predicate ValidGenerators(g: Generators)
  {
    UlidMonotonic.Valid(g.monotonic) && UuidClock.Valid(g.v1) && UuidClock.Valid(g.v6)
  }

  /** The outside world of one `generate`: the clock reading, sixteen
      random bytes and the machine's MAC address. */
  datatype Env = Env(now: int, random: seq<byte>, mac: seq<byte>)

  /** One `generate` result: the generator states afterwards and the id. */
  datatype Generated = Generated(gens: Generators, id: Id)

  /** The static `generate` of a class, given the fields of its argument
      (a time, and a node for the time-based UUIDs). The abstract classes
      have no `generate`, so calling it is a TypeError. */
  function ClassGenerate(kind: Kind, g: Generators, time: TimeArg, node: Option<seq<byte>>, env: Env)
    : (r: Result<Generated>)
    requires ValidGenerators(g) && |env.random| == IdLength
    ensures kind == AnyId || kind == AnyUuid ==> r == Fail(TypeError)
    ensures r.Ok? ==> ValidGenerators(r.value.gens) && r.value.id.kind == kind && |r.value.id.bytes| == IdLength
    ensures r.Ok? && kind != UlidMonotonicId && kind != Uuid1Id && kind != Uuid6Id ==> r.value.gens == g
  {
    match kind
    case AnyId => Fail(TypeError)
    case AnyUuid => Fail(TypeError)
    case UlidId =>
      var id :- Ulid.Generate(time, env.now, env.random);
      Ok(Generated(g, id))
    case UlidMonotonicId =>
      UlidMonotonic.GenerateSpec(g.monotonic, time, env.now, env.random);
      var out :- UlidMonotonic.Generate(g.monotonic, time, env.now, env.random);
      Ok(Generated(g.(monotonic := out.state), out.id))
    case Uuid1Id =>
      var out :- Uuid1.Generate(g.v1, time, node, env.now, env.random, env.mac);
      Ok(Generated(g.(v1 := out.state), out.id))
    case Uuid4Id => Ok(Generated(g, Uuid4.Generate(env.random)))
    case Uuid6Id =>
      var out :- Uuid6.Generate(g.v6, time, node, env.now, env.random, env.mac);
      Ok(Generated(g.(v6 := out.state), out.id))
    case UuidNilId => Ok(Generated(g, UuidNil.Generate()))
  }

  /** The static `MIN` of a class: undefined on the abstract classes, and
      for versions 1 and 6 the intended bounds. */
  function ClassMin(kind: Kind): (r: Result<Id>)
    ensures r.Fail? <==> kind == AnyId || kind == AnyUuid
    ensures r.Fail? ==> r.error == TypeError
    ensures r.Ok? ==> r.value.kind == kind && |r.value.bytes| == IdLength
  {
    match kind
    case AnyId => Fail(TypeError)
    case AnyUuid => Fail(TypeError)
    case UlidId => Ok(Ulid.Min())
    case UlidMonotonicId => Ok(UlidMonotonic.Min())
    case Uuid1Id => Ok(Uuid1.Min())
    case Uuid4Id => Ok(Uuid4.Min())
    case Uuid6Id => Ok(Uuid6.Min())
    case UuidNilId => Ok(UuidNil.Min())
  }

  /** The static `MAX` of a class. */
  function ClassMax(kind: Kind): (r: Result<Id>)
    ensures r.Fail? <==> kind == AnyId || kind == AnyUuid
    ensures r.Fail? ==> r.error == TypeError
    ensures r.Ok? ==> r.value.kind == kind && |r.value.bytes| == IdLength
  {
    match kind
    case AnyId => Fail(TypeError)
    case AnyUuid => Fail(TypeError)
    case UlidId => Ok(Ulid.Max())
    case UlidMonotonicId => Ok(UlidMonotonic.Max())
    case Uuid1Id => Ok(Uuid1.Max())
    case Uuid4Id => Ok(Uuid4.Max())
    case Uuid6Id => Ok(Uuid6.Max())
    case UuidNilId => Ok(UuidNil.Max())
  }

  /** Every concrete class has `MIN` below `MAX`, except the nil UUID,
      whose bounds coincide. */
  lemma ClassBoundsOrdered(kind: Kind)
    requires ClassMin(kind).Ok?
    ensures kind != UuidNilId ==> BaseId.Compare(ClassMin(kind).value, ClassMax(kind).value) == -1
    ensures kind == UuidNilId ==> ClassMin(kind) == ClassMax(kind)
  {
    var lo, hi := ClassMin(kind).value.bytes, ClassMax(kind).value.bytes;
    if kind != UuidNilId {
      assert lo[0] == 0 && hi[0] == 0xFF;
      assert FirstMismatch(lo, hi, 0);
    }
  }

  /** A factory: the class, the two coders, and the `MIN`/`MAX` caches. */
  datatype Factory = Factory(kind: Kind, canonical: Coder, raw: Coder, min: Option<Id>, max: Option<Id>)

  /** `new IdFactory({ id, canonical_coder, raw_coder })`: empty caches. */
  function New(kind: Kind, canonical: Coder, raw: Coder): (f: Factory)
    ensures f.kind == kind && f.canonical == canonical && f.raw == raw
    ensures f.min.None? && f.max.None?
  {
    Factory(kind, canonical, raw, None, None)
  }

  /** `generate(...arguments)`: the class's own `generate`, with the same
      arguments; the factory itself does not change. */
  function Generate(f: Factory, g: Generators, time: TimeArg, node: Option<seq<byte>>, env: Env)
    : (r: Result<Generated>)
    requires ValidGenerators(g) && |env.random| == IdLength
    ensures r == ClassGenerate(f.kind, g, time, node, env)
    ensures r.Ok? ==> r.value.id.kind == f.kind
  {
    ClassGenerate(f.kind, g, time, node, env)
  }

  /** A call on a factory that may fill one of its caches. */
  datatype Cached = Cached(factory: Factory, result: Result<Id>)

  /** `MIN()`: the cached bound if there is one, else the class's own
      `MIN`, which is then cached. A failing call leaves the cache empty. */
  function Min(f: Factory): (r: Cached)
    ensures f.min.Some? ==> r == Cached(f, Ok(f.min.value))
    ensures f.min.None? ==> r.result == ClassMin(f.kind)
    ensures r.result.Ok? ==> r.factory == f.(min := Some(r.result.value))
    ensures r.result.Fail? ==> r.factory == f
  {
    if f.min.Some? then Cached(f, Ok(f.min.value))
    else
      match ClassMin(f.kind)
      case Ok(id) => Cached(f.(min := Some(id)), Ok(id))
      case Fail(e) => Cached(f, Fail(e))
  }

  /** `MAX()`, cached like `MIN()`. */
  function Max(f: Factory): (r: Cached)
    ensures f.max.Some? ==> r == Cached(f, Ok(f.max.value))
    ensures f.max.None? ==> r.result == ClassMax(f.kind)
    ensures r.result.Ok? ==> r.factory == f.(max := Some(r.result.value))
    ensures r.result.Fail? ==> r.factory == f
  {
    if f.max.Some? then Cached(f, Ok(f.max.value))
    else
      match ClassMax(f.kind)
      case Ok(id) => Cached(f.(max := Some(id)), Ok(id))
      case Fail(e) => Cached(f, Fail(e))
  }

  /** The caches are filled once: a second call answers the same id and
      changes nothing, and the cached bound is the class's. */
  lemma BoundsAreCached(f: Factory)
    requires f.min.None? && f.max.None?
    ensures var m := Min(f);
      m.result.Ok? ==> Min(m.factory) == Cached(m.factory, m.result) && m.result == ClassMin(f.kind)
    ensures var m := Max(f);
      m.result.Ok? ==> Max(m.factory) == Cached(m.factory, m.result) && m.result == ClassMax(f.kind)
    ensures Min(f).result.Ok? ==> Max(Min(f).factory).result == Max(f).result
  {
  }

  /** `fromCanonical(canonical)`: an id of the factory's class over the
      canonical coder's decoding. */
  function FromCanonical(f: Factory, v: JsValue): (r: Result<Id>)
    ensures r.Ok? <==> Decode(f.canonical, v).Ok?
    ensures r.Ok? ==> r.value == Id(f.kind, Decode(f.canonical, v).value)
    ensures r.Fail? ==> r.error == InvalidDecoding
  {
    var bytes :- Decode(f.canonical, v);
    Ok(Id(f.kind, bytes))
  }

  /** `fromRaw(raw)`: likewise with the raw coder. */
  function FromRaw(f: Factory, v: JsValue): (r: Result<Id>)
    ensures r.Ok? <==> Decode(f.raw, v).Ok?
    ensures r.Ok? ==> r.value == Id(f.kind, Decode(f.raw, v).value)
    ensures r.Fail? ==> r.error == InvalidDecoding
  {
    var bytes :- Decode(f.raw, v);
    Ok(Id(f.kind, bytes))
  }

  /** `toCanonical(id)`: the canonical encoding of the id's bytes,
      whatever its class. */
  function ToCanonical(f: Factory, id: Id): (r: Result<string>)
    ensures r.Ok? <==> |id.bytes| == IdLength
    ensures r.Fail? ==> r.error == InvalidEncoding
  {
    Encode(f.canonical, Uint8Array(id.bytes))
  }

  /** `toRaw(id)`: the raw encoding of the id's bytes. */
  function ToRaw(f: Factory, id: Id): (r: Result<string>)
    ensures r.Ok? <==> |id.bytes| == IdLength
    ensures r.Fail? ==> r.error == InvalidEncoding
  {
    Encode(f.raw, Uint8Array(id.bytes))
  }

  /** Through either coder, an id comes back with its bytes, as an id of
      the factory's class. */
  lemma TextRoundTrips(f: Factory, id: Id)
    requires |id.bytes| == IdLength
    ensures ToCanonical(f, id).Ok? && ToRaw(f, id).Ok?
    ensures FromCanonical(f, Text(ToCanonical(f, id).value)) == Ok(Id(f.kind, id.bytes))
    ensures FromRaw(f, Text(ToRaw(f, id).value)) == Ok(Id(f.kind, id.bytes))
  {
    CoderRoundTrip(f.canonical, id.bytes);
    CoderRoundTrip(f.raw, id.bytes);
  }

  /** `compare(lhs, rhs)`: the ids' own comparison, the unsigned order of
      their bytes. */
  function Compare(f: Factory, lhs: Id, rhs: Id): (r: int)
    requires |lhs.bytes| == |rhs.bytes|
    ensures r == BaseId.Compare(lhs, rhs)
    ensures r == Sign(ByteOrder.Value(lhs.bytes) - ByteOrder.Value(rhs.bytes))
  {
    BaseId.Compare(lhs, rhs)
  }

  /** `equal(lhs, rhs)`: the ids' own equality, that of their bytes. */
  function Equal(f: Factory, lhs: Id, rhs: Id): (b: bool)
    requires |lhs.bytes| == |rhs.bytes|
    ensures b == BaseId.Equal(lhs, rhs)
    ensures b <==> lhs.bytes == rhs.bytes
  {
    BaseId.Equal(lhs, rhs)
  }
}

=== FILE: uint_converter.dfy ===
/** Big-endian packing of unsigned integers into a byte range
    (`assignUint`) and unpacking (`extractUint`). */
module UintConverter {
  import opened ByteArray

  /** 256 to the power `n`: the number of values `n` bytes can hold. */
  function Pow256(n: nat): (r: nat)
    ensures r >= 1
  {
    if n == 0 then 1 else 256 * Pow256(n - 1)
  }

  /** `assignUint(begin, end, bytes, value)`: walk the range from its last
      index down to `begin`, storing `value % 256` and continuing with the
      quotient. Bits beyond the range are dropped without complaint. */
  function AssignUint(begin: nat, end: nat, bytes: seq<byte>, value: nat): (r: seq<byte>)
    requires begin <= end <= |bytes|
    ensures |r| == |bytes|
    ensures forall i :: 0 <= i < |bytes| && !(begin <= i < end) ==> r[i] == bytes[i]
    decreases end
  {
    if end == begin then bytes
    else AssignUint(begin, end - 1, bytes[end - 1 := value % 256], value / 256)
  }

  /** `extractUint(begin, end, bytes)`: fold the range left to right,
      multiplying by 256 and adding each byte. */
  function ExtractUint(begin: nat, end: nat, bytes: seq<byte>): (r: nat)
    requires begin <= end <= |bytes|
    ensures r < Pow256(end - begin)
    decreases end
  {
    if end == begin then 0
    else
      var high := ExtractUint(begin, end - 1, bytes);
      assert high * 256 + bytes[end - 1] < Pow256(end - begin) by {
        assert high <= Pow256(end - 1 - begin) - 1;
        MulLeMono(high, Pow256(end - 1 - begin) - 1, 256);
      }
      high * 256 + bytes[end - 1]
  }

  lemma MulLeMono(a: int, b: int, c: nat)
    requires a <= b
    ensures a * c <= b * c
  {
  }

  lemma ShiftByte(h: int, p: int, low: int, last: int)
    ensures (h * p + low) * 256 + last == h * (256 * p) + (low * 256 + last)
  {
  }

  /** `a = q * d + r` with `0 <= r < d` determines quotient and remainder. */
  lemma DivModUnique(a: int, d: int, q: int, r: int)
    requires d > 0 && 0 <= r < d && a == q * d + r
    ensures a / d == q && a % d == r
  {
    var q', r' := a / d, a % d;
    assert a == q' * d + r';
    if q' < q {
      MulLeMono(q' + 1, q, d);
    } else if q' > q {
      MulLeMono(q + 1, q', d);
    }
  }

  /** Extraction reads only the range: buffers that agree on `[begin, end)`
      extract the same integer. */
  lemma {:induction false} ExtractUintFrame(begin: nat, end: nat, a: seq<byte>, b: seq<byte>)
    requires begin <= end <= |a| && end <= |b|
    requires forall i :: begin <= i < end ==> a[i] == b[i]
    ensures ExtractUint(begin, end, a) == ExtractUint(begin, end, b)
    decreases end
  {
    if end > begin {
      ExtractUintFrame(begin, end - 1, a, b);
    }
  }

  /** A range splits at any midpoint into a high part and a low part. */
  lemma {:induction false} ExtractUintSplit(begin: nat, mid: nat, end: nat, bytes: seq<byte>)
    requires begin <= mid <= end <= |bytes|
    ensures ExtractUint(begin, end, bytes)
         == ExtractUint(begin, mid, bytes) * Pow256(end - mid) + ExtractUint(mid, end, bytes)
    decreases end
  {
    if end > mid {
      ExtractUintSplit(begin, mid, end - 1, bytes);
      SplitStep(ExtractUint(begin, end, bytes), ExtractUint(begin, end - 1, bytes),
                ExtractUint(begin, mid, bytes), Pow256(end - 1 - mid), Pow256(end - mid),
                ExtractUint(mid, end - 1, bytes), bytes[end - 1], ExtractUint(mid, end, bytes));
    }
  }

  /** The arithmetic of one step of the split: appending a byte to both
      the whole and the low part. */
  lemma SplitStep(whole: int, init: int, high: int, p: int, shifted: int, low: int, last: int, lowWhole: int)
    requires init == high * p + low && whole == init * 256 + last
    requires shifted == 256 * p && lowWhole == low * 256 + last
    ensures whole == high * shifted + lowWhole
  {
    ShiftByte(high, p, low, last);
  }

  /** Packing then unpacking the same range yields the value modulo the
      range's capacity: in-range values round-trip, wider ones lose their
      high bits. */
  lemma {:induction false} AssignExtract(begin: nat, end: nat, bytes: seq<byte>, value: nat)
    requires begin <= end <= |bytes|
    ensures ExtractUint(begin, end, AssignUint(begin, end, bytes, value)) == value % Pow256(end - begin)
    decreases end
  {
    if end > begin {
      var stored := bytes[end - 1 := value % 256];
      var r := AssignUint(begin, end - 1, stored, value / 256);
      assert r == AssignUint(begin, end, bytes, value);
      AssignExtract(begin, end - 1, stored, value / 256);
      assert r[end - 1] == value % 256;
      assert ExtractUint(begin, end, r) == ExtractUint(begin, end - 1, r) * 256 + r[end - 1];
      assert Pow256(end - begin) == 256 * Pow256(end - 1 - begin);
      ModShift(value, Pow256(end - 1 - begin));
    }
  }

  /** The remainder modulo `256 * p` is the last byte under the
      remainder of the quotient modulo `p`. */
  lemma ModShift(value: nat, p: nat)
    requires p >= 1
    ensures value % (256 * p) == ((value / 256) % p) * 256 + value % 256
  {
    var q, b := value / 256, value % 256;
    var k, hi := q / p, q % p;
    assert value == q * 256 + b;
    assert q == k * p + hi;
    ShiftByte(k, p, hi, b);
    MulLeMono(hi, p - 1, 256);
    DivModUnique(value, 256 * p, k, hi * 256 + b);
  }

  /** A value that fits in the range is recovered exactly. */
  lemma AssignExtractFits(begin: nat, end: nat, bytes: seq<byte>, value: nat)
    requires begin <= end <= |bytes|
    requires value < Pow256(end - begin)
    ensures ExtractUint(begin, end, AssignUint(begin, end, bytes, value)) == value
  {
    AssignExtract(begin, end, bytes, value);
  }
}

=== FILE: ulid.dfy ===
/** `Ulid`: 48 bits of milliseconds since 1970, big-endian in bytes 0-5,
    followed by 80 random bits. */
module Ulid {
  import opened Errors
  import opened ByteArray
  import opened BaseId
  import opened UintConverter
  import opened EpochConverter
  import ByteOrder

  /** `TIME_BYTES`. */
  const TimeBytes: nat := 6

  /** `EPOCH_MS_MAX`: 256^6, the first time that does not fit. */
  const EpochMsMax: nat := 0x1_0000_0000_0000

  /** The largest magnitude of a valid JavaScript time value (section
      21.4.1.31 of ECMA-262, TimeClip); `new Date(n)` beyond it is an
      Invalid Date, whose `getTime()` is NaN. */
  const DateMsLimit: int := 8_640_000_000_000_000

  /** A `Date` object: a valid one by its milliseconds, or an Invalid
      Date. */
  datatype JsDate = ValidDate(ms: int) | InvalidDate

  /** `new Date(n)` for an integer `n`. */
  function NewDate(n: int): (d: JsDate)
    ensures d.InvalidDate? <==> n < -DateMsLimit || DateMsLimit < n
    ensures d.ValidDate? ==> d.ms == n
  {
    if -DateMsLimit <= n <= DateMsLimit then ValidDate(n) else InvalidDate
  }

  /** `generate`'s coercion of its argument: an integer becomes
      `new Date(n)`, null or absent becomes `new Date()` (the clock reading
      `now`), a Date stays, and anything else fails `_validateTime`'s
      `instanceof Date` test with a TypeError. */
  function ToDate(time: TimeArg, now: int): (r: Result<JsDate>)
    ensures r.Fail? <==> time.OtherTime?
    ensures r.Fail? ==> r.error == TypeError
    ensures r == Ok(InvalidDate) <==> time.IntegerTime? && DateMsLimit < if time.n < 0 then -time.n else time.n
    ensures r.Ok? && r.value.ValidDate? ==> Some(r.value.ms) == CoercedMs(time, now)
  {
    match time
    case IntegerTime(n) => Ok(NewDate(n))
    case NullTime => Ok(ValidDate(now))
    case DateTime(ms) => Ok(ValidDate(ms))
    case OtherTime => Fail(TypeError)
  }

  /** `_setTime`: the same base-256 walk from byte 5 down to byte 0 as
      `assignUint`. */
  function SetTime(epochMs: nat, bytes: seq<byte>): (r: seq<byte>)
    requires TimeBytes <= |bytes|
    ensures |r| == |bytes| && r[TimeBytes..] == bytes[TimeBytes..]
    ensures epochMs < EpochMsMax ==> Time(r) == epochMs
  {
    var r := AssignUint(0, TimeBytes, bytes, epochMs);
    assert epochMs < EpochMsMax ==> ExtractUint(0, TimeBytes, r) == epochMs by {
      if epochMs < EpochMsMax {
        TimeCapacity();
        AssignExtractFits(0, TimeBytes, bytes, epochMs);
      }
    }
    assert r[TimeBytes..] == bytes[TimeBytes..];
    r
  }

  /** `_setTime` of NaN: every remainder and quotient is NaN, and a
      Uint8Array stores NaN as 0. */
  function SetTimeNaN(bytes: seq<byte>): (r: seq<byte>)
    requires TimeBytes <= |bytes|
    ensures |r| == |bytes| && r[TimeBytes..] == bytes[TimeBytes..]
    ensures forall i :: 0 <= i < TimeBytes ==> r[i] == 0
  {
    seq(TimeBytes, _ => 0) + bytes[TimeBytes..]
  }

  /** The `time` getter: bytes 0-5 folded big-endian. */
  function Time(bytes: seq<byte>): (ms: nat)
    requires TimeBytes <= |bytes|
    ensures ms < EpochMsMax
  {
    TimeCapacity();
    ExtractUint(0, TimeBytes, bytes)
  }

  /** Six bytes hold exactly the times below `EPOCH_MS_MAX`. */
  lemma TimeCapacity()
    ensures Pow256(TimeBytes) == EpochMsMax
  {
    assert Pow256(2) == 0x1_0000;
    assert Pow256(4) == 0x1_0000_0000;
  }

  /** `generate` as written, over the random buffer `random`. The range
      test of `_validateTime` is two comparisons with `getTime()`, both
      false for NaN, so an Invalid Date passes and its time bytes become
      zeros. */
  function GenerateBytesAsWritten(time: TimeArg, now: int, random: seq<byte>): (r: Result<seq<byte>>)
    requires |random| == IdLength
    ensures r.Ok? ==> |r.value| == IdLength && r.value[TimeBytes..] == random[TimeBytes..]
    ensures time.OtherTime? ==> r == Fail(TypeError)
    ensures r.Fail? && !time.OtherTime? ==> r.error == RangeError
    ensures ToDate(time, now) == Ok(InvalidDate) ==> r.Ok? && forall i :: 0 <= i < TimeBytes ==> r.value[i] == 0
    ensures ToDate(time, now) != Ok(InvalidDate) ==>
      (r.Ok? <==> CoercedMs(time, now).Some? && 0 <= CoercedMs(time, now).value < EpochMsMax)
    ensures r.Ok? && ToDate(time, now) != Ok(InvalidDate) ==> Time(r.value) == CoercedMs(time, now).value
  {
    var date :- ToDate(time, now);
    match date
    case InvalidDate => Ok(SetTimeNaN(random))
    case ValidDate(ms) =>
      if ms < 0 || ms >= EpochMsMax then Fail(RangeError)
      else Ok(SetTime(ms, random))
  }

  /** `_validateTime` and `_setTime` of `generate` as evidently intended,
      for a Date: an Invalid Date is out of range too; a valid one must lie
      in `[0, 2^48)`, and the id then carries its time and the random
      buffer's remaining ten bytes. */
  function GenerateFromDate(date: JsDate, random: seq<byte>): (r: Result<seq<byte>>)
    requires |random| == IdLength
    ensures r.Ok? <==> date.ValidDate? && 0 <= date.ms < EpochMsMax
    ensures r.Fail? ==> r.error == RangeError
    ensures r.Ok? ==> |r.value| == IdLength && Time(r.value) == date.ms
    ensures r.Ok? ==> r.value[TimeBytes..] == random[TimeBytes..]
  {
    match date
    case InvalidDate => Fail(RangeError)
    case ValidDate(ms) =>
      if ms < 0 || ms >= EpochMsMax then Fail(RangeError)
      else Ok(SetTime(ms, random))
  }

  /** `generate` as evidently intended. An integer or Date argument, or
      the clock, must give a time in `[0, 2^48)`; other arguments are a
      TypeError. */
  function GenerateBytes(time: TimeArg, now: int, random: seq<byte>): (r: Result<seq<byte>>)
    requires |random| == IdLength
    ensures r.Ok? <==> CoercedMs(time, now).Some? && 0 <= CoercedMs(time, now).value < EpochMsMax
    ensures time.OtherTime? ==> r == Fail(TypeError)
    ensures r.Fail? && !time.OtherTime? ==> r.error == RangeError
    ensures r.Ok? ==> |r.value| == IdLength && Time(r.value) == CoercedMs(time, now).value
    ensures r.Ok? ==> r.value[TimeBytes..] == random[TimeBytes..]
  {
    var date :- ToDate(time, now);
    GenerateFromDate(date, random)
  }

  /** `Ulid.generate`: the bytes above as a `Ulid`. */
  function Generate(time: TimeArg, now: int, random: seq<byte>): (r: Result<Id>)
    requires |random| == IdLength
    ensures r.Ok? <==> GenerateBytes(time, now, random).Ok?
    ensures r.Fail? ==> r.error == GenerateBytes(time, now, random).error
    ensures r.Ok? ==> r.value == Id(UlidId, GenerateBytes(time, now, random).value)
  {
    var bytes :- GenerateBytes(time, now, random);
    Ok(Id(UlidId, bytes))
  }

  /** 10^16 milliseconds is past the Date range: the code as written
      returns an id with time 0 where the intended code throws a
      RangeError. */
  lemma InvalidDateSlipsThrough(now: int, random: seq<byte>)
    requires |random| == IdLength
    ensures GenerateBytesAsWritten(IntegerTime(10_000_000_000_000_000), now, random).Ok?
    ensures Time(GenerateBytesAsWritten(IntegerTime(10_000_000_000_000_000), now, random).value) == 0
    ensures GenerateBytes(IntegerTime(10_000_000_000_000_000), now, random) == Fail(RangeError)
  {
    var b := SetTimeNaN(random);
    ExtractUintFrame(0, TimeBytes, b, ZeroFilled());
    assert ExtractUint(0, TimeBytes, ZeroFilled()) == 0 by {
      ZeroPrefix(TimeBytes);
    }
  }

  lemma {:induction false} ZeroPrefix(end: nat)
    requires end <= IdLength
    ensures ExtractUint(0, end, ZeroFilled()) == 0
  {
    if end > 0 {
      ZeroPrefix(end - 1);
    }
  }

  /** Apart from an Invalid Date, the corrected `generate` is the code as
      written. */
  lemma GenerateCorrectsAsWritten(time: TimeArg, now: int, random: seq<byte>)
    requires |random| == IdLength
    ensures ToDate(time, now) != Ok(InvalidDate) ==>
      GenerateBytes(time, now, random) == GenerateBytesAsWritten(time, now, random)
    ensures ToDate(time, now) == Ok(InvalidDate) ==>
      GenerateBytes(time, now, random) == Fail(RangeError) && GenerateBytesAsWritten(time, now, random).Ok?
  {
  }

  /** `MIN`: all zero bits. */
  function Min(): (id: Id)
    ensures id.kind == UlidId && id.bytes == ZeroFilled()
  {
    Id(UlidId, ZeroFilled())
  }

  /** `MAX`: all one bits. */
  function Max(): (id: Id)
    ensures id.kind == UlidId && id.bytes == OneFilled()
  {
    Id(UlidId, OneFilled())
  }

  /** The bounds carry the least and greatest times and enclose every
      sixteen-byte id. */
  lemma Bounds(b: seq<byte>)
    requires |b| == IdLength
    ensures Time(Min().bytes) == 0 && Time(Max().bytes) == EpochMsMax - 1
    ensures BaseId.Compare(Min(), Id(UlidId, b)) <= 0 && BaseId.Compare(Id(UlidId, b), Max()) <= 0
  {
    ZeroPrefix(TimeBytes);
    var m := OneFilled();
    assert ExtractUint(0, 1, m) == 0xFF;
    assert ExtractUint(0, 2, m) == 0xFFFF;
    assert ExtractUint(0, 3, m) == 0xFF_FFFF;
    assert ExtractUint(0, 4, m) == 0xFFFF_FFFF;
    assert ExtractUint(0, 5, m) == 0xFF_FFFF_FFFF;
    assert ExtractUint(0, 6, m) == 0xFFFF_FFFF_FFFF;
    FilledBuffersBound(b);
  }

  /** Ids sort by time: an earlier time makes a smaller id whatever the
      random bytes. */
  lemma EarlierTimeSortsFirst(a: seq<byte>, b: seq<byte>)
    requires |a| == IdLength && |b| == IdLength
    requires Time(a) < Time(b)
    ensures ByteArray.Compare(a, b) == -1
  {
    ByteOrder.PrefixValueDecides(a, b, TimeBytes);
  }

  /** Generation is time-ordered: an id generated for an earlier time
      sorts before one generated for a later time. */
  lemma GenerateIsTimeOrdered(t1: TimeArg, t2: TimeArg, now1: int, now2: int, r1: seq<byte>, r2: seq<byte>)
    requires |r1| == IdLength && |r2| == IdLength
    requires Generate(t1, now1, r1).Ok? && Generate(t2, now2, r2).Ok?
    requires CoercedMs(t1, now1).value < CoercedMs(t2, now2).value
    ensures BaseId.Compare(Generate(t1, now1, r1).value, Generate(t2, now2, r2).value) == -1
  {
    EarlierTimeSortsFirst(Generate(t1, now1, r1).value.bytes, Generate(t2, now2, r2).value.bytes);
  }
}

=== FILE: ulid_factory.dfy ===
/** `UlidFactory`: the ULID class bound to the Crockford Base32 coder
    (canonical) and the hex coder (raw), with its own coercion of the time
    argument and cached bounds. */
module UlidFactory {
  import opened Errors
  import opened ByteArray
  import opened BaseId
  import opened CoderBase
  import opened EpochConverter
  import ByteOrder
  import HexCoder
  import Crockford32Coder
  import Ulid

  /** The factory's `_MIN` and `_MAX` caches. */
  datatype Factory = Factory(min: Option<Id>, max: Option<Id>)

  /** The factory as exported: nothing cached yet. */
  function New(): (f: Factory)
    ensures f.min.None? && f.max.None?
  {
    Factory(None, None)
  }

  /** `generate`'s own coercion before it calls `Ulid.generate`: an
      integer becomes `new Date(n)`, null or undefined becomes `new Date()`,
      a Date passes through; any other value reaches `Ulid.generate`
      unchanged and fails its `instanceof Date` test. */
  function ToDate(time: TimeArg, now: int): (r: Result<Ulid.JsDate>)
    ensures r.Fail? <==> time.OtherTime?
    ensures r.Fail? ==> r.error == TypeError
    ensures r.Ok? && r.value.ValidDate? ==> CoercedMs(time, now) == Some(r.value.ms)
    ensures r.Ok? && r.value.InvalidDate? ==> time.IntegerTime?
  {
    match time
    case IntegerTime(n) => Ok(Ulid.NewDate(n))
    case NullTime => Ok(Ulid.ValidDate(now))
    case DateTime(ms) => Ok(Ulid.ValidDate(ms))
    case OtherTime => Fail(TypeError)
  }

  /** `generate(time)`: `Ulid.generate` of the coerced Date, which must
      lie in `[0, 2^48)`. */
  function Generate(time: TimeArg, now: int, random: seq<byte>): (r: Result<Id>)
    requires |random| == IdLength
    ensures r.Ok? <==> CoercedMs(time, now).Some? && 0 <= CoercedMs(time, now).value < Ulid.EpochMsMax
    ensures time.OtherTime? ==> r == Fail(TypeError)
    ensures r.Fail? && !time.OtherTime? ==> r.error == RangeError
    ensures r.Ok? ==> r.value.kind == UlidId && |r.value.bytes| == IdLength
    ensures r.Ok? ==> Ulid.Time(r.value.bytes) == CoercedMs(time, now).value
    ensures r.Ok? ==> r.value.bytes[Ulid.TimeBytes..] == random[Ulid.TimeBytes..]
  {
    var date :- ToDate(time, now);
    var bytes :- Ulid.GenerateFromDate(date, random);
    Ok(Id(UlidId, bytes))
  }

  /** The factory's coercion is `Ulid.generate`'s own, so coercing twice
      changes nothing: the factory generates exactly what the class does,
      for every argument. */
  lemma GenerateIsClassGenerate(time: TimeArg, now: int, random: seq<byte>)
    requires |random| == IdLength
    ensures ToDate(time, now) == Ulid.ToDate(time, now)
    ensures Generate(time, now, random) == Ulid.Generate(time, now, random)
  {
  }

  /** A call that may fill one of the caches. */
  datatype Cached = Cached(factory: Factory, result: Id)

  /** `MIN()`: the cached id, or `Ulid.MIN()`, which is then cached. */
  function Min(f: Factory): (r: Cached)
    ensures f.min.Some? ==> r == Cached(f, f.min.value)
    ensures f.min.None? ==> r.result == Ulid.Min()
    ensures r.factory == f.(min := Some(r.result))
  {
    if f.min.Some? then Cached(f, f.min.value)
    else Cached(f.(min := Some(Ulid.Min())), Ulid.Min())
  }

  /** `MAX()`: the cached id, or `Ulid.MAX()`, which is then cached. */
  function Max(f: Factory): (r: Cached)
    ensures f.max.Some? ==> r == Cached(f, f.max.value)
    ensures f.max.None? ==> r.result == Ulid.Max()
    ensures r.factory == f.(max := Some(r.result))
  {
    if f.max.Some? then Cached(f, f.max.value)
    else Cached(f.(max := Some(Ulid.Max())), Ulid.Max())
  }

  /** From a fresh factory, any sequence of `MIN` and `MAX` calls answers
      the class's bounds, the same id every time. */
  lemma BoundsAreCached(f: Factory)
    requires f.min.None? && f.max.None?
    ensures Min(f).result == Ulid.Min() && Max(f).result == Ulid.Max()
    ensures Min(Min(f).factory) == Min(f)
    ensures Max(Max(f).factory) == Max(f)
    ensures Max(Min(f).factory).result == Ulid.Max() && Min(Max(f).factory).result == Ulid.Min()
  {
  }

  /** `MIN() < MAX()`, and every generated id lies between them: strictly
      above `MIN` once the time is past 0, strictly below `MAX` while the
      time is short of the last millisecond. */
  lemma GenerateWithinBounds(time: TimeArg, now: int, random: seq<byte>, id: Id)
    requires |random| == IdLength && Generate(time, now, random) == Ok(id)
    ensures BaseId.Compare(Ulid.Min(), Ulid.Max()) == -1
    ensures |id.bytes| == IdLength
    ensures BaseId.Compare(Ulid.Min(), id) <= 0 && BaseId.Compare(id, Ulid.Max()) <= 0
    ensures CoercedMs(time, now).Some? && CoercedMs(time, now).value > 0 ==> BaseId.Compare(Ulid.Min(), id) == -1
    ensures CoercedMs(time, now).Some? && CoercedMs(time, now).value < Ulid.EpochMsMax - 1 ==>
      BaseId.Compare(id, Ulid.Max()) == -1
  {
    var ms := CoercedMs(time, now).value;
    assert |id.bytes| == IdLength && Ulid.Time(id.bytes) == ms;
    Ulid.Bounds(id.bytes);
    assert Ulid.Time(Ulid.Min().bytes) == 0 && Ulid.Time(Ulid.Max().bytes) == Ulid.EpochMsMax - 1;
    if ms > 0 {
      Ulid.EarlierTimeSortsFirst(Ulid.Min().bytes, id.bytes);
    }
    if ms < Ulid.EpochMsMax - 1 {
      Ulid.EarlierTimeSortsFirst(id.bytes, Ulid.Max().bytes);
    }
    Ulid.EarlierTimeSortsFirst(Ulid.Min().bytes, Ulid.Max().bytes);
  }

  /** `fromCanonical(canonical)`: a Ulid over the Crockford decoding. */
  function FromCanonical(v: JsValue): (r: Result<Id>)
    ensures r.Ok? <==> Crockford32Coder.IsValidEncoding(v)
    ensures r.Ok? ==> r.value == Id(UlidId, Crockford32Coder.Decode(v).value)
    ensures r.Fail? ==> r.error == InvalidDecoding
  {
    var bytes :- Crockford32Coder.Decode(v);
    Ok(Id(UlidId, bytes))
  }

  /** `fromRaw(raw)`: a Ulid over the hex decoding. */
  function FromRaw(v: JsValue): (r: Result<Id>)
    ensures r.Ok? <==> HexCoder.IsValidEncoding(v)
    ensures r.Ok? ==> r.value == Id(UlidId, HexCoder.Decode(v).value)
    ensures r.Fail? ==> r.error == InvalidDecoding
  {
    var bytes :- HexCoder.Decode(v);
    Ok(Id(UlidId, bytes))
  }

  /** `toCanonical(ulid)`: the Crockford encoding of the id's bytes. */
  function ToCanonical(id: Id): (r: Result<string>)
    ensures r.Ok? <==> |id.bytes| == IdLength
    ensures r.Ok? ==> |r.value| == 26
    ensures r.Fail? ==> r.error == InvalidEncoding
  {
    Crockford32Coder.Encode(Uint8Array(id.bytes))
  }

  /** `toRaw(ulid)`: the hex encoding of the id's bytes. */
  function ToRaw(id: Id): (r: Result<string>)
    ensures r.Ok? <==> |id.bytes| == IdLength
    ensures r.Ok? ==> |r.value| == 32
    ensures r.Fail? ==> r.error == InvalidEncoding
  {
    HexCoder.Encode(Uint8Array(id.bytes))
  }

  /** Through either coder a Ulid comes back as a Ulid with its bytes. */
  lemma TextRoundTrips(id: Id)
    requires |id.bytes| == IdLength
    ensures ToCanonical(id).Ok? && ToRaw(id).Ok?
    ensures FromCanonical(Text(ToCanonical(id).value)) == Ok(Id(UlidId, id.bytes))
    ensures FromRaw(Text(ToRaw(id).value)) == Ok(Id(UlidId, id.bytes))
  {
    Crockford32Coder.EncodeThenDecode(id.bytes);
    HexCoder.EncodeThenDecode(id.bytes);
  }

  /** `compare(lhs, rhs)`: the ids' own comparison. */
  function Compare(lhs: Id, rhs: Id): (r: int)
    requires |lhs.bytes| == |rhs.bytes|
    ensures r == BaseId.Compare(lhs, rhs)
    ensures r == Sign(ByteOrder.Value(lhs.bytes) - ByteOrder.Value(rhs.bytes))
  {
    BaseId.Compare(lhs, rhs)
  }

  /** `equal(lhs, rhs)`: the ids' own equality. */
  function Equal(lhs: Id, rhs: Id): (b: bool)
    requires |lhs.bytes| == |rhs.bytes|
    ensures b == BaseId.Equal(lhs, rhs)
    ensures b <==> lhs.bytes == rhs.bytes
  {
    BaseId.Equal(lhs, rhs)
  }
}

=== FILE: ulid_monotonic.dfy ===
/** `UlidMonotonic`: a ULID whose bytes 6-8 act as a counter, so that ids
    for the same or an earlier millisecond still sort after the previous
    one. */
module UlidMonotonic {
  import opened Errors
  import opened ByteArray
  import opened BaseId
  import opened UintConverter
  import opened EpochConverter
  import ByteOrder
  import Ulid

  /** The counter occupies bytes 6, 7 and 8. */
  const CounterBegin: nat := 6
  const CounterEnd: nat := 9

  /** `_previous_time` and `_previous_id`. */
  datatype State = State(previousTime: int, previousId: seq<byte>)

  /** `resetClockSequence`: time -1 and the all-zero `MIN` id. */
  function Reset(): (s: State)
    ensures s.previousTime == -1 && s.previousId == ZeroFilled()
  {
    State(-1, ZeroFilled())
  }

  /** The states `reset` and `generate` produce: either the reset state,
      or a previous time in the ULID range that is also the time field of
      the previous id. */
  predicate Valid(s: State)
  {
    && |s.previousId| == IdLength
    && (s.previousTime == -1 ==> s.previousId == ZeroFilled())
    && (s.previousTime != -1 ==> 0 <= s.previousTime < Ulid.EpochMsMax && Ulid.Time(s.previousId) == s.previousTime)
  }

  /** The counter as a number. */
  function Counter(bytes: seq<byte>): (c: nat)
    requires |bytes| == IdLength
    ensures c == bytes[6] as int * 0x1_0000 + bytes[7] as int * 256 + bytes[8]
  {
    assert ExtractUint(6, 7, bytes) == bytes[6];
    assert ExtractUint(6, 8, bytes) == bytes[6] as int * 256 + bytes[7];
    ExtractUint(CounterBegin, CounterEnd, bytes)
  }

  /** `_incrementClockSequence` from index `idx` down to 6: a 0xFF byte
      rolls over to 0 and carries, any other byte goes up by one and
      stops; a carry out of byte 6 throws. Internal to Increment, whose
      contract states the result. */
  function IncrementFrom(bytes: seq<byte>, idx: nat): (r: Result<seq<byte>>)
    requires |bytes| == IdLength && CounterBegin - 1 <= idx < CounterEnd
    decreases idx
  {
    if idx == CounterBegin - 1 then Fail(IncrementOverflow)
    else if bytes[idx] == 0xFF then IncrementFrom(bytes[idx := 0], idx - 1)
    else Ok(bytes[idx := bytes[idx] + 1])
  }

  /** `_incrementClockSequence`: add one to the 24-bit counter, failing
      only when it is all ones. Nothing outside the counter changes. */
  function Increment(bytes: seq<byte>): (r: Result<seq<byte>>)
    requires |bytes| == IdLength
    ensures r.Fail? <==> Counter(bytes) == 0xFF_FFFF
    ensures r.Fail? ==> r.error == IncrementOverflow
    ensures r.Ok? ==> |r.value| == IdLength && Counter(r.value) == Counter(bytes) + 1
    ensures r.Ok? ==> forall i :: 0 <= i < IdLength && !(CounterBegin <= i < CounterEnd) ==> r.value[i] == bytes[i]
  {
    IncrementFrom(bytes, CounterEnd - 1)
  }

  /** `_reserveClockSequence`: clear the top bit of byte 6, leaving at
      least 2^23 increments before the counter overflows. */
  function Reserve(bytes: seq<byte>): (r: seq<byte>)
    requires |bytes| == IdLength
    ensures |r| == IdLength
    ensures forall i :: 0 <= i < IdLength && i != CounterBegin ==> r[i] == bytes[i]
    ensures r[CounterBegin] == bytes[CounterBegin] % 0x80
    ensures Counter(r) < 0x80_0000
  {
    bytes[CounterBegin := bytes[CounterBegin] % 0x80]
  }

  /** `_restoreClockSequence`: copy bytes 0-10 (time and counter) of the
      previous id over the new one; the last five random bytes stay. */
  function Restore(bytes: seq<byte>, previous: seq<byte>): (r: seq<byte>)
    requires |bytes| == IdLength && |previous| == IdLength
    ensures |r| == IdLength
    ensures forall i :: 0 <= i < 11 ==> r[i] == previous[i]
    ensures forall i :: 11 <= i < IdLength ==> r[i] == bytes[i]
  {
    previous[..11] + bytes[11..]
  }

  /** One `generate` result: the state afterwards and the id. */
  datatype Generated = Generated(state: State, id: Id)

  /** `generate(time)`: a ULID for `time`; if that time is not after the
      previous one, the previous id's time and counter plus one instead.
      A failure, from the ULID itself or from counter overflow, leaves
      the state as it was. */
  function Generate(s: State, time: TimeArg, now: int, random: seq<byte>): (r: Result<Generated>)
    requires Valid(s) && |random| == IdLength
    ensures Ulid.GenerateBytes(time, now, random).Fail? ==> r == Fail(Ulid.GenerateBytes(time, now, random).error)
    ensures r.Fail? && Ulid.GenerateBytes(time, now, random).Ok? ==> r.error == IncrementOverflow
    ensures r.Ok? ==> Valid(r.value.state) && r.value.id.kind == UlidMonotonicId && r.value.id.bytes == r.value.state.previousId
    ensures r.Ok? ==> s.previousTime <= r.value.state.previousTime
  {
    var bytes :- Ulid.GenerateBytes(time, now, random);
    var ms := CoercedMs(time, now).value;
    if ms <= s.previousTime then
      var next :- Increment(Restore(bytes, s.previousId));
      TimeFrame(next, s.previousId);
      Ok(Generated(State(s.previousTime, next), Id(UlidMonotonicId, next)))
    else
      var next := Reserve(bytes);
      TimeFrame(next, bytes);
      Ok(Generated(State(ms, next), Id(UlidMonotonicId, next)))
  }

  /** The time field lies outside the counter. */
  lemma TimeFrame(a: seq<byte>, b: seq<byte>)
    requires |a| == IdLength && |b| == IdLength
    requires forall i :: 0 <= i < Ulid.TimeBytes ==> a[i] == b[i]
    ensures Ulid.Time(a) == Ulid.Time(b)
  {
    ExtractUintFrame(0, Ulid.TimeBytes, a, b);
  }

  /** What `generate` returns: the ULID errors, then overflow exactly when
      a not-later time meets an all-ones counter; otherwise a valid state
      and an id whose time is the given one if later, the previous one if
      not. */
  lemma GenerateSpec(s: State, time: TimeArg, now: int, random: seq<byte>)
    requires Valid(s) && |random| == IdLength
    ensures var r := Generate(s, time, now, random);
      && (Ulid.GenerateBytes(time, now, random).Fail? ==> r == Fail(Ulid.GenerateBytes(time, now, random).error))
      && (Ulid.GenerateBytes(time, now, random).Ok? ==>
            var ms := CoercedMs(time, now).value;
            && (r.Fail? <==> ms <= s.previousTime && Counter(s.previousId) == 0xFF_FFFF)
            && (r.Fail? ==> r.error == IncrementOverflow)
            && (r.Ok? ==>
                  && Valid(r.value.state) && r.value.id.kind == UlidMonotonicId
                  && r.value.id.bytes == r.value.state.previousId
                  && Ulid.Time(r.value.id.bytes) == (if ms <= s.previousTime then s.previousTime else ms)
                  && r.value.state.previousTime == (if ms <= s.previousTime then s.previousTime else ms)))
  {
  }

  /** Monotonicity: once anything has been generated, every further id
      sorts strictly after the previous one, whatever the time given. */
  lemma GenerateIncreases(s: State, time: TimeArg, now: int, random: seq<byte>)
    requires Valid(s) && |random| == IdLength && s.previousTime != -1
    requires Generate(s, time, now, random).Ok?
    ensures ByteArray.Compare(s.previousId, Generate(s, time, now, random).value.id.bytes) == -1
  {
    GenerateSpec(s, time, now, random);
    var bytes := Ulid.GenerateBytes(time, now, random).value;
    var ms := CoercedMs(time, now).value;
    var next := Generate(s, time, now, random).value.id.bytes;
    if ms <= s.previousTime {
      var restored := Restore(bytes, s.previousId);
      assert Counter(next) == Counter(s.previousId) + 1;
      ExtractUintFrame(0, Ulid.TimeBytes, next, s.previousId);
      ExtractUintSplit(0, Ulid.TimeBytes, CounterEnd, next);
      ExtractUintSplit(0, Ulid.TimeBytes, CounterEnd, s.previousId);
      ByteOrder.PrefixValueDecides(s.previousId, next, CounterEnd);
    } else {
      ByteOrder.PrefixValueDecides(s.previousId, next, Ulid.TimeBytes);
    }
  }

  /** The first id after `reset` is the plain ULID with the counter's top
      bit cleared. */
  lemma GenerateAfterReset(time: TimeArg, now: int, random: seq<byte>)
    requires |random| == IdLength && Ulid.GenerateBytes(time, now, random).Ok?
    ensures Generate(Reset(), time, now, random)
         == Ok(Generated(State(CoercedMs(time, now).value, Reserve(Ulid.GenerateBytes(time, now, random).value)),
                         Id(UlidMonotonicId, Reserve(Ulid.GenerateBytes(time, now, random).value))))
  {
  }

  /** The argument of `generate` as the comparison `time <= _previous_time`
      sees it: left out (`undefined`), `null`, an integer, a Date, or
      anything else. */
  datatype RawTime = AbsentArg | NullArg | NumberArg(n: int) | DateArg(ms: int) | OtherArg

  /** What `Ulid.generate` makes of the argument: `null` and `undefined`
      both mean now. */
  function ToTimeArg(t: RawTime): (a: TimeArg)
    ensures a.NullTime? <==> t.AbsentArg? || t.NullArg?
    ensures a.OtherTime? <==> t.OtherArg?
  {
    match t
    case AbsentArg => NullTime
    case NullArg => NullTime
    case NumberArg(n) => IntegerTime(n)
    case DateArg(ms) => DateTime(ms)
    case OtherArg => OtherTime
  }

  /** The number `<=` converts an operand to: `undefined` is NaN, `null`
      is 0, a Date is its milliseconds. */
  function LooseNumber(t: RawTime): (r: Option<int>)
    ensures r.None? <==> t.AbsentArg? || t.OtherArg?
    ensures t.NullArg? ==> r == Some(0)
  {
    match t
    case AbsentArg => None
    case NullArg => Some(0)
    case NumberArg(n) => Some(n)
    case DateArg(ms) => Some(ms)
    case OtherArg => None
  }

  /** `a <= b` on two such values; a comparison with NaN is false. */
  predicate LooseLe(a: RawTime, b: RawTime)
  {
    LooseNumber(a).Some? && LooseNumber(b).Some? && LooseNumber(a).value <= LooseNumber(b).value
  }

  /** `_previous_time` and `_previous_id` as written: the previous time is
      whatever argument was last stored. */
  datatype RawState = RawState(previousTime: RawTime, previousId: seq<byte>)

  datatype RawGenerated = RawGenerated(state: RawState, id: Id)

  /** `resetClockSequence` as written: the number -1 and `MIN`. */
  function ResetAsWritten(): (s: RawState)
    ensures LooseNumber(s.previousTime) == Some(-1) && s.previousId == ZeroFilled()
  {
    RawState(NumberArg(-1), ZeroFilled())
  }

  /** `generate(time)` as written: the raw argument is compared with the
      stored one and, on the fresh branch, stored. An absent argument is
      NaN, so it always takes the fresh branch; `null` compares as 0. The
      ULID itself is the corrected `Ulid.generate`. */
  function GenerateAsWritten(s: RawState, time: RawTime, now: int, random: seq<byte>): (r: Result<RawGenerated>)
    requires |s.previousId| == IdLength && |random| == IdLength
    ensures Ulid.GenerateBytes(ToTimeArg(time), now, random).Fail? ==>
      r == Fail(Ulid.GenerateBytes(ToTimeArg(time), now, random).error)
    ensures Ulid.GenerateBytes(ToTimeArg(time), now, random).Ok? ==>
      (r.Fail? <==> LooseLe(time, s.previousTime) && Counter(s.previousId) == 0xFF_FFFF)
    ensures r.Fail? && Ulid.GenerateBytes(ToTimeArg(time), now, random).Ok? ==> r.error == IncrementOverflow
    ensures r.Ok? ==> r.value.id.kind == UlidMonotonicId && r.value.id.bytes == r.value.state.previousId
    ensures r.Ok? ==> |r.value.id.bytes| == IdLength
    ensures r.Ok? && LooseLe(time, s.previousTime) ==>
      && r.value.state.previousTime == s.previousTime
      && Ulid.Time(r.value.id.bytes) == Ulid.Time(s.previousId)
      && Counter(r.value.id.bytes) == Counter(s.previousId) + 1
    ensures r.Ok? && !LooseLe(time, s.previousTime) ==>
      && r.value.state.previousTime == time
      && Ulid.Time(r.value.id.bytes) == CoercedMs(ToTimeArg(time), now).value
      && Counter(r.value.id.bytes) < 0x80_0000
  {
    var bytes :- Ulid.GenerateBytes(ToTimeArg(time), now, random);
    if LooseLe(time, s.previousTime) then
      var restored := Restore(bytes, s.previousId);
      assert Counter(restored) == Counter(s.previousId);
      var next :- Increment(restored);
      TimeFrame(next, s.previousId);
      Ok(RawGenerated(RawState(s.previousTime, next), Id(UlidMonotonicId, next)))
    else
      var next := Reserve(bytes);
      TimeFrame(next, bytes);
      Ok(RawGenerated(RawState(time, next), Id(UlidMonotonicId, next)))
  }

  /** Where the argument and the stored time are both integers or Dates,
      the raw comparison is the comparison of milliseconds, and the code as
      written is the corrected `generate`. */
  lemma GenerateCorrectsAsWritten(s: RawState, time: RawTime, now: int, random: seq<byte>)
    requires |random| == IdLength
    requires (time.NumberArg? || time.DateArg?) && (s.previousTime.NumberArg? || s.previousTime.DateArg?)
    requires Valid(State(LooseNumber(s.previousTime).value, s.previousId))
    ensures var w := GenerateAsWritten(s, time, now, random);
      var c := Generate(State(LooseNumber(s.previousTime).value, s.previousId), ToTimeArg(time), now, random);
      && (w.Ok? <==> c.Ok?)
      && (w.Fail? ==> w.error == c.error)
      && (w.Ok? ==> w.value.id == c.value.id && w.value.state.previousId == c.value.state.previousId
                    && LooseNumber(w.value.state.previousTime) == Some(c.value.state.previousTime))
  {
    var p := LooseNumber(s.previousTime).value;
    var t := ToTimeArg(time);
    assert CoercedMs(t, now) == LooseNumber(time);
    assert LooseLe(time, s.previousTime) <==> CoercedMs(t, now).value <= p;
    var g := Ulid.GenerateBytes(t, now, random);
    if g.Ok? {
      if LooseLe(time, s.previousTime) {
        assert GenerateAsWritten(s, time, now, random)
          == (var next :- Increment(Restore(g.value, s.previousId));
              Ok(RawGenerated(RawState(s.previousTime, next), Id(UlidMonotonicId, next))));
      } else {
        assert GenerateAsWritten(s, time, now, random)
          == Ok(RawGenerated(RawState(time, Reserve(g.value)), Id(UlidMonotonicId, Reserve(g.value))));
      }
    }
  }

  /** Ids with the same time are ordered by their counters. */
  lemma CounterDecides(a: seq<byte>, b: seq<byte>)
    requires |a| == IdLength && |b| == IdLength
    requires Ulid.Time(a) == Ulid.Time(b) && Counter(a) < Counter(b)
    ensures ByteArray.Compare(a, b) == -1
  {
    ExtractUintSplit(0, Ulid.TimeBytes, CounterEnd, a);
    ExtractUintSplit(0, Ulid.TimeBytes, CounterEnd, b);
    ByteOrder.PrefixValueDecides(a, b, CounterEnd);
  }

  /** Without an argument, `generate` as written always takes the fresh
      branch: the id is the clock's ULID with the counter's top bit
      cleared, and `undefined` is stored. */
  lemma AbsentTimeIsFresh(s: RawState, now: int, random: seq<byte>)
    requires |s.previousId| == IdLength && |random| == IdLength && 0 <= now < Ulid.EpochMsMax
    ensures GenerateAsWritten(s, AbsentArg, now, random).Ok?
    ensures var g := GenerateAsWritten(s, AbsentArg, now, random).value;
      && g.state.previousTime == AbsentArg
      && Ulid.Time(g.id.bytes) == now
      && |g.id.bytes| == IdLength
      && Counter(g.id.bytes) == (random[6] % 0x80) as int * 0x1_0000 + random[7] as int * 256 + random[8]
  {
    var bytes := Ulid.GenerateBytes(NullTime, now, random).value;
    assert bytes[6..] == random[6..];
    assert bytes[6] == random[6] && bytes[7] == random[7] && bytes[8] == random[8];
    assert GenerateAsWritten(s, AbsentArg, now, random)
      == Ok(RawGenerated(RawState(AbsentArg, Reserve(bytes)), Id(UlidMonotonicId, Reserve(bytes))));
  }

  /** Two calls without an argument in the same millisecond: both take the
      fresh branch, so the second id comes from its own random bytes and
      here sorts below the first, where the corrected `generate` would
      increment the first id's counter. */
  lemma AbsentTimeBreaksOrder(s: RawState, now: int)
    requires |s.previousId| == IdLength && 0 <= now < Ulid.EpochMsMax
    ensures GenerateAsWritten(s, AbsentArg, now, OneFilled()).Ok?
    ensures var first := GenerateAsWritten(s, AbsentArg, now, OneFilled()).value;
      && first.state.previousTime == AbsentArg
      && GenerateAsWritten(first.state, AbsentArg, now, ZeroFilled()).Ok?
      && BaseId.Compare(GenerateAsWritten(first.state, AbsentArg, now, ZeroFilled()).value.id, first.id) == -1
  {
    var one, zero := OneFilled(), ZeroFilled();
    assert one[6] == 0xFF && one[7] == 0xFF && one[8] == 0xFF;
    assert zero[6] == 0 && zero[7] == 0 && zero[8] == 0;
    AbsentTimeIsFresh(s, now, one);
    var first := GenerateAsWritten(s, AbsentArg, now, one).value;
    AbsentTimeIsFresh(first.state, now, zero);
    var second := GenerateAsWritten(first.state, AbsentArg, now, zero).value;
    CounterDecides(second.id.bytes, first.id.bytes);
  }

  /** After `generate(5000)`, `generate(null)` with the clock at 10000
      compares 0 with 5000 and returns an id for 5000, not for now, where
      the corrected `generate` gives an id for 10000. */
  lemma NullTimeReadsAsZero(r1: seq<byte>, r2: seq<byte>)
    requires |r1| == IdLength && |r2| == IdLength
    ensures GenerateAsWritten(ResetAsWritten(), NumberArg(5000), 10000, r1).Ok?
    ensures var first := GenerateAsWritten(ResetAsWritten(), NumberArg(5000), 10000, r1).value;
      && GenerateAsWritten(first.state, NullArg, 10000, r2).Ok?
      && Ulid.Time(GenerateAsWritten(first.state, NullArg, 10000, r2).value.id.bytes) == 5000
    ensures Generate(Reset(), IntegerTime(5000), 10000, r1).Ok?
    ensures var first := Generate(Reset(), IntegerTime(5000), 10000, r1).value;
      && Generate(first.state, NullTime, 10000, r2).Ok?
      && Ulid.Time(Generate(first.state, NullTime, 10000, r2).value.id.bytes) == 10000
  {
    GenerateSpec(Reset(), IntegerTime(5000), 10000, r1);
    var first := Generate(Reset(), IntegerTime(5000), 10000, r1).value;
    GenerateSpec(first.state, NullTime, 10000, r2);
  }

  /** `MIN`: all zero bits, whatever the generator state. */
  function Min(): (id: Id)
    ensures id.kind == UlidMonotonicId && id.bytes == ZeroFilled()
  {
    Id(UlidMonotonicId, ZeroFilled())
  }

  /** `MAX`: all one bits, whatever the generator state. */
  function Max(): (id: Id)
    ensures id.kind == UlidMonotonicId && id.bytes == OneFilled()
  {
    Id(UlidMonotonicId, OneFilled())
  }
}

=== FILE: uuid.dfy ===
/** The UUID variant and version fields (section 4.1.1 and 4.1.3 of
    RFC 4122): the variant in the top bits of byte 8, the version in the
    high nibble of byte 6. */
module Uuid {
  import opened ByteArray
  import UintConverter

  const VariantByte: nat := 8
  const VersionByte: nat := 6

  /** `1 << n` for the shift amounts the two setters use. */
  function Pow2(n: nat): (r: nat)
    requires n <= 8
    ensures r >= 1
  {
    if n == 0 then 1 else if n == 1 then 2 else if n == 2 then 4 else if n == 3 then 8
    else if n == 4 then 16 else if n == 5 then 32 else if n == 6 then 64 else if n == 7 then 128
    else 256
  }

  /** The top three bits of byte 8 that `setVariant(v)` writes:
      `((0b111 << (3 - v)) & 0b111) << 5`. */
  function VariantPrefix(variant: nat): nat
    requires variant <= 3
  {
    ((7 * Pow2(3 - variant)) % 8) * 32
  }

  /** The prefixes are the RFC bit patterns `0`, `10`, `110` and `111`. */
  lemma VariantPrefixTable(variant: nat)
    requires variant <= 3
    ensures VariantPrefix(variant) == [0x00, 0x80, 0xC0, 0xE0][variant]
  {
  }

  /** `setVariant`: keep the low `7 - v` bits of byte 8 (the mask
      `0xFF >>> (v + 1)`), then put the variant's prefix above them. The
      mask also clears the bit just below the prefix, so the top `v + 1`
      bits read `0`, `10`, `110` or `1110`. */
  function SetVariant(variant: nat, bytes: seq<byte>): (r: seq<byte>)
    requires variant <= 3 && VariantByte < |bytes|
    ensures |r| == |bytes|
    ensures forall i :: 0 <= i < |bytes| && i != VariantByte ==> r[i] == bytes[i]
    ensures r[VariantByte] % Pow2(7 - variant) == bytes[VariantByte] % Pow2(7 - variant)
    ensures variant == 0 ==> r[VariantByte] / 128 == 0
    ensures variant == 1 ==> r[VariantByte] / 64 == 2
    ensures variant == 2 ==> r[VariantByte] / 32 == 6
    ensures variant == 3 ==> r[VariantByte] / 16 == 14
  {
    VariantBits(variant, bytes[VariantByte]);
    var low := bytes[VariantByte] % Pow2(7 - variant);
    bytes[VariantByte := low + VariantPrefix(variant)]
  }

  /** The new byte 8 of `setVariant`: a byte, whose low bits are the old
      ones and whose top bits are the variant's pattern. */
  lemma VariantBits(variant: nat, x: byte)
    requires variant <= 3
    ensures var y := x % Pow2(7 - variant) + VariantPrefix(variant);
      && 0 <= y < 256
      && y % Pow2(7 - variant) == x % Pow2(7 - variant)
      && (variant == 0 ==> y / 128 == 0)
      && (variant == 1 ==> y / 64 == 2)
      && (variant == 2 ==> y / 32 == 6)
      && (variant == 3 ==> y / 16 == 14)
  {
    VariantPrefixTable(variant);
    var p := Pow2(7 - variant);
    var low := x % p;
    var y := low + VariantPrefix(variant);
    if variant == 0 {
      assert p == 128 && y == low;
      UintConverter.DivModUnique(y, 128, 0, y);
    } else if variant == 1 {
      assert p == 64 && y == 2 * 64 + low;
      UintConverter.DivModUnique(y, 64, 2, low);
    } else if variant == 2 {
      assert p == 32 && y == 6 * 32 + low;
      UintConverter.DivModUnique(y, 32, 6, low);
    } else {
      assert p == 16 && y == 14 * 16 + low;
      UintConverter.DivModUnique(y, 16, 14, low);
    }
  }

  /** `setVersion`: clear the high nibble of byte 6, then put the version
      there. */
  function SetVersion(version: nat, bytes: seq<byte>): (r: seq<byte>)
    requires version < 16 && VersionByte < |bytes|
    ensures |r| == |bytes|
    ensures forall i :: 0 <= i < |bytes| && i != VersionByte ==> r[i] == bytes[i]
    ensures r[VersionByte] % 16 == bytes[VersionByte] % 16
    ensures r[VersionByte] / 16 == version
  {
    bytes[VersionByte := bytes[VersionByte] % 16 + version * 16]
  }

  /** The `variant` getter: the top three bits of byte 8 read as
      `111` -> 3, `110` -> 2, `10x` -> 1, `0xx` -> 0. */
  function Variant(bytes: seq<byte>): (v: nat)
    requires VariantByte < |bytes|
    ensures v <= 3
    ensures v == 0 <==> bytes[VariantByte] < 0x80
    ensures v == 1 <==> 0x80 <= bytes[VariantByte] < 0xC0
    ensures v == 2 <==> 0xC0 <= bytes[VariantByte] < 0xE0
    ensures v == 3 <==> 0xE0 <= bytes[VariantByte]
  {
    var bits := bytes[VariantByte] / 32;
    if bits == 7 then 3
    else if bits / 2 == 3 then 2
    else if bits >= 4 then 1
    else 0
  }

  /** The `version` getter: the high nibble of byte 6. */
  function Version(bytes: seq<byte>): (v: nat)
    requires VersionByte < |bytes|
    ensures v < 16
    ensures v * 16 <= bytes[VersionByte] < v * 16 + 16
  {
    bytes[VersionByte] / 16
  }

  /** Reading the variant back gives the one set. */
  lemma VariantAfterSet(variant: nat, bytes: seq<byte>)
    requires variant <= 3 && VariantByte < |bytes|
    ensures Variant(SetVariant(variant, bytes)) == variant
  {
    VariantPrefixTable(variant);
  }

  /** Reading the version back gives the one set. */
  lemma VersionAfterSet(version: nat, bytes: seq<byte>)
    requires version < 16 && VersionByte < |bytes|
    ensures Version(SetVersion(version, bytes)) == version
  {
  }

  /** Setting a field twice is setting it once. */
  lemma SetIdempotent(variant: nat, version: nat, bytes: seq<byte>)
    requires variant <= 3 && version < 16 && VariantByte < |bytes|
    ensures SetVariant(variant, SetVariant(variant, bytes)) == SetVariant(variant, bytes)
    ensures SetVersion(version, SetVersion(version, bytes)) == SetVersion(version, bytes)
  {
    VariantPrefixTable(variant);
  }

  /** The two fields are independent: setting one keeps the other, and the
      two setters commute. */
  lemma FieldsIndependent(variant: nat, version: nat, bytes: seq<byte>)
    requires variant <= 3 && version < 16 && VariantByte < |bytes|
    ensures Version(SetVariant(variant, bytes)) == Version(bytes)
    ensures Variant(SetVersion(version, bytes)) == Variant(bytes)
    ensures SetVersion(version, SetVariant(variant, bytes)) == SetVariant(variant, SetVersion(version, bytes))
  {
  }
}

=== FILE: uuid1.dfy ===
/** `Uuid1`: the time-based UUID in the field order of section 4.1.2 of
    RFC 4122, except that the 60-bit timestamp holds milliseconds since
    1582-10-15 shifted left 12 bits plus a 12-bit counter ("hires"), not
    100 ns ticks. */
module Uuid1 {
  import opened Errors
  import opened ByteArray
  import opened BaseId
  import opened EpochConverter
  import opened UuidClock
  import Uuid
  import UintConverter

  /** `Date.parse('1582-10-15Z')`, the Gregorian reform. */
  const EpochOriginMs: int := -12219292800000

  /** `TIME_LOW_MS_RADIX`: the milliseconds kept in `time_low`. */
  const TimeLowMsRadix: nat := 0x10_0000

  /* Bit arithmetic of the layout, one identity per lemma. */

  lemma TimeLowMsBytes(timeLowMs: int, hires: int)
    requires 0 <= timeLowMs < 0x10_0000 && 0 <= hires < 0x1000
    ensures var timeLow := timeLowMs * 0x1000 + hires;
      (timeLow / 0x100_0000 % 256) * 0x1000 + (timeLow / 0x1_0000 % 256) * 16 + (timeLow / 256 % 256) / 16 == timeLowMs
  {
    var timeLow := timeLowMs * 0x1000 + hires;
    ByteDigits(timeLow);
    var d3, d2, d1, d0 := timeLow / 0x100_0000 % 256, timeLow / 0x1_0000 % 256, timeLow / 256 % 256, timeLow % 256;
    assert d1 == 16 * (d1 / 16) + d1 % 16;
    UintConverter.DivModUnique(timeLow, 0x1000, timeLowMs, hires);
    UintConverter.DivModUnique(timeLow, 0x1000, d3 * 0x1000 + d2 * 16 + d1 / 16, (d1 % 16) * 256 + d0);
  }


  lemma HiresBytes(timeLowMs: int, hires: int)
    requires 0 <= timeLowMs < 0x10_0000 && 0 <= hires < 0x1000
    ensures var timeLow := timeLowMs * 0x1000 + hires;
      ((timeLow / 256 % 256) * 256 + timeLow % 256) % 0x1000 == hires
  {
    var timeLow := timeLowMs * 0x1000 + hires;
    LowSixteenBits(timeLow);
    LowSixteenOfTimeLow(timeLowMs / 16, timeLowMs % 16, hires);
  }

  lemma LowSixteenBits(x: int)
    requires 0 <= x
    ensures (x / 256 % 256) * 256 + x % 256 == x % 0x1_0000
  {
    var q1, d0 := x / 256, x % 256;
    var q2, d1 := q1 / 256, q1 % 256;
    UintConverter.DivModUnique(x, 0x1_0000, q2, d1 * 256 + d0);
  }


  lemma LowSixteenOfTimeLow(q: int, r: int, hires: int)
    requires 0 <= q && 0 <= r < 16 && 0 <= hires < 0x1000
    ensures ((q * 16 + r) * 0x1000 + hires) % 0x1_0000 == r * 0x1000 + hires
    ensures (r * 0x1000 + hires) % 0x1000 == hires
  {
    UintConverter.DivModUnique((q * 16 + r) * 0x1000 + hires, 0x1_0000, q, r * 0x1000 + hires);
    UintConverter.DivModUnique(r * 0x1000 + hires, 0x1000, r, hires);
  }


  /** A 32-bit value is the sum of its four big-endian bytes, and its top
      byte is its quotient by 2^24. */
  lemma ByteDigits(x: int)
    requires 0 <= x < 0x1_0000_0000
    ensures x / 0x100_0000 % 256 == x / 0x100_0000
    ensures (x / 0x100_0000 % 256) * 0x100_0000 + (x / 0x1_0000 % 256) * 0x1_0000 + (x / 256 % 256) * 256 + x % 256 == x
  {
    var q1, d0 := x / 256, x % 256;
    var q2, d1 := q1 / 256, q1 % 256;
    var q3, d2 := q2 / 256, q2 % 256;
    UintConverter.DivModUnique(x, 0x1_0000, q2, d1 * 256 + d0);
    UintConverter.DivModUnique(x, 0x100_0000, q3, d2 * 0x1_0000 + d1 * 256 + d0);
    UintConverter.DivModUnique(q3, 256, 0, q3);
  }

  lemma TimeHighBytes(timeHigh: int)
    requires 0 <= timeHigh < 0x1000_0000
    ensures (timeHigh / 256 % 256) * 256 + timeHigh % 256
          + ((timeHigh / 0x100_0000 % 256) % 16) * 0x100_0000 + (timeHigh / 0x1_0000 % 256) * 0x1_0000 == timeHigh
  {
    ByteDigits(timeHigh);
    var q3 := timeHigh / 0x100_0000;
    UintConverter.DivModUnique(q3, 16, 0, q3);
  }


  lemma ClockBytes(clock: int, high: int)
    requires 0 <= clock < 0x4000 && 0 <= high < 256 && high % 64 == clock / 256
    ensures (high * 256 + clock % 256) % 0x4000 == clock
  {
    assert high == (high / 64) * 64 + clock / 256;
    UintConverter.DivModUnique(high * 256 + clock % 256, 0x4000, high / 64, clock);
  }


  /** The getter's `epoch_ms`: `time_low_ms` from the top 20 bits of bytes
      0-2, `time_high` from bytes 4-5, the low nibble of byte 6 and byte 7. */
  function EpochMs(bytes: seq<byte>): (ms: int)
    requires |bytes| == IdLength
    ensures 0 <= ms < MaxMs
  {
    var timeLowMs := bytes[0] as int * 0x1000 + bytes[1] as int * 16 + bytes[2] as int / 16;
    var timeHigh := bytes[4] as int * 256 + bytes[5] + (bytes[6] as int % 16) * 0x100_0000 + bytes[7] as int * 0x1_0000;
    timeHigh * TimeLowMsRadix + timeLowMs
  }

  /** The `time` getter, in milliseconds since 1970. */
  function Time(bytes: seq<byte>): (t: int)
    requires |bytes| == IdLength
    ensures EpochOriginMs <= t < EpochOriginMs + MaxMs
    ensures forall now :: ToEpoch(EpochOriginMs, DateTime(t), now) == Ok(EpochMs(bytes))
  {
    FromEpoch(EpochOriginMs, EpochMs(bytes))
  }

  /** The `hires_time` getter: the low 12 bits of bytes 2-3. */
  function Hires(bytes: seq<byte>): (h: int)
    requires |bytes| == IdLength
    ensures 0 <= h < HiresRadix
  {
    (bytes[2] * 256 + bytes[3]) % HiresRadix
  }

  /** The `clock_sequence` getter: the low 14 bits of bytes 8-9. */
  function ClockSequence(bytes: seq<byte>): (c: int)
    requires |bytes| == IdLength
    ensures 0 <= c < ClockSequenceRadix
  {
    (bytes[8] * 256 + bytes[9]) % ClockSequenceRadix
  }

  /** The `node` getter: bytes 10-15. */
  function Node(bytes: seq<byte>): (n: seq<byte>)
    requires |bytes| == IdLength
    ensures |n| == 6 && forall i :: 0 <= i < 6 ==> n[i] == bytes[10 + i]
  {
    bytes[10..]
  }

  /** `setTime`: `time_low` (the low 20 bits of the time, shifted over the
      12 hires bits) into bytes 0-3, bits 0-15 of `time_high` into bytes
      4-5, bits 24-31 into byte 6 and bits 16-23 into byte 7. */
  function SetTime(time: int, hires: int, bytes: seq<byte>): (r: seq<byte>)
    requires 0 <= time < MaxMs && 0 <= hires < HiresRadix && |bytes| == IdLength
    ensures |r| == IdLength
    ensures forall i :: 8 <= i < IdLength ==> r[i] == bytes[i]
    ensures r[6] < 16
    ensures EpochMs(r) == time && Hires(r) == hires
  {
    var timeLowMs := time % TimeLowMsRadix;
    var timeLow := timeLowMs * HiresRadix + hires;
    var timeHigh := time / TimeLowMsRadix;
    TimeLowMsBytes(timeLowMs, hires);
    HiresBytes(timeLowMs, hires);
    TimeHighBytes(timeHigh);
    bytes[0 := timeLow / 0x100_0000 % 256][1 := timeLow / 0x1_0000 % 256]
         [2 := timeLow / 256 % 256][3 := timeLow % 256]
         [4 := timeHigh / 256 % 256][5 := timeHigh % 256]
         [6 := timeHigh / 0x100_0000 % 256][7 := timeHigh / 0x1_0000 % 256]
  }

  /** `setClockSequence`'s store: the 14-bit sequence big-endian into bytes
      8-9. */
  function SetClockSequence(clock: int, bytes: seq<byte>): (r: seq<byte>)
    requires 0 <= clock < ClockSequenceRadix && |bytes| == IdLength
    ensures |r| == IdLength
    ensures forall i :: 0 <= i < IdLength && i != 8 && i != 9 ==> r[i] == bytes[i]
    ensures r[8] < 64 && ClockSequence(r) == clock
  {
    ClockBytes(clock, clock / 256 % 256);
    bytes[8 := clock / 256 % 256][9 := clock % 256]
  }

  /** The six bytes `setNode` copies; an index past the end of a short node
      reads `undefined`, which a Uint8Array stores as 0. */
  function NodeBytes(node: seq<byte>): (r: seq<byte>)
    ensures |r| == 6
    ensures forall i :: 0 <= i < 6 && i < |node| ==> r[i] == node[i]
    ensures forall i :: |node| <= i < 6 ==> r[i] == 0
  {
    seq(6, i requires 0 <= i < 6 => if i < |node| then node[i] else 0)
  }

  /** `setNode`: the node into bytes 10-15. */
  function SetNode(node: seq<byte>, bytes: seq<byte>): (r: seq<byte>)
    requires |bytes| == IdLength
    ensures |r| == IdLength
    ensures r[..10] == bytes[..10] && Node(r) == NodeBytes(node)
  {
    bytes[..10] + NodeBytes(node)
  }

  /** Variant 1, then version 1. */
  function Stamp(bytes: seq<byte>): (r: seq<byte>)
    requires |bytes| == IdLength
    ensures |r| == IdLength
    ensures Uuid.Variant(r) == 1 && Uuid.Version(r) == 1
    ensures forall i :: 0 <= i < IdLength && i != 6 && i != 8 ==> r[i] == bytes[i]
    ensures r[6] % 16 == bytes[6] % 16 && r[8] % 64 == bytes[8] % 64
  {
    var v := Uuid.SetVariant(1, bytes);
    Uuid.VariantAfterSet(1, bytes);
    Uuid.FieldsIndependent(1, 1, v);
    Uuid.SetVersion(1, v)
  }

  /** The bytes of one id: zeros, then `setTime`, `setClockSequence`,
      `setNode`, and the variant and version stamps. */
  function Layout(time: int, hires: int, clock: int, node: seq<byte>): (r: seq<byte>)
    requires 0 <= time < MaxMs && 0 <= hires < HiresRadix && 0 <= clock < ClockSequenceRadix
    ensures |r| == IdLength
    ensures Uuid.Variant(r) == 1 && Uuid.Version(r) == 1
    ensures EpochMs(r) == time && Hires(r) == hires && ClockSequence(r) == clock
    ensures Node(r) == NodeBytes(node)
  {
    var t := SetTime(time, hires, ZeroFilled());
    var c := SetClockSequence(clock, t);
    var n := SetNode(node, c);
    var r := Stamp(n);
    assert n[..10] == c[..10];
    FieldsFrame(t, c);
    FieldsFrame(c, n);
    FieldsFrame(n, r);
    r
  }

  /** The time and hires fields read only bytes 0-7 and the low nibble of
      byte 6; the clock sequence reads the low six bits of byte 8 and byte
      9. */
  lemma FieldsFrame(a: seq<byte>, b: seq<byte>)
    requires |a| == |b| == IdLength
    ensures (forall i :: 0 <= i < 8 && i != 6 ==> a[i] == b[i]) && a[6] % 16 == b[6] % 16 ==>
      EpochMs(a) == EpochMs(b) && Hires(a) == Hires(b)
    ensures a[8] % 64 == b[8] % 64 && a[9] == b[9] ==> ClockSequence(a) == ClockSequence(b)
  {
    ClockOfBytes(a[8], a[9]);
    ClockOfBytes(b[8], b[9]);
  }

  lemma ClockOfBytes(high: int, low: int)
    requires 0 <= high < 256 && 0 <= low < 256
    ensures (high * 256 + low) % 0x4000 == (high % 64) * 256 + low
  {
    assert high * 256 + low == (high / 64) * 0x4000 + ((high % 64) * 256 + low);
  }

  /** One `generate` result: the generator state afterwards and the id. */
  datatype Generated = Generated(state: State, id: Id)

  /** `generate({ node, time })` from generator state `s`, with the clock
      reading `now`, a random buffer for seeding the clock sequence and the
      machine's `mac` as parameters. An out-of-window or non-time argument
      throws InvalidEpoch before any state changes. */
  function Generate(s: State, time: TimeArg, node: Option<seq<byte>>, now: int, random: seq<byte>, mac: seq<byte>)
    : (r: Result<Generated>)
    requires Valid(s) && |random| == IdLength
    ensures r.Ok? <==> ToEpoch(EpochOriginMs, time, now).Ok?
    ensures r.Fail? ==> r.error == InvalidEpoch
    ensures r.Ok? ==>
      var id, st := r.value.id, r.value.state;
      && st == Advance(s, ToEpoch(EpochOriginMs, time, now).value, random)
      && Valid(st) && st.clockSequence.Some? && 0 <= st.hires
      && id.kind == Uuid1Id && |id.bytes| == IdLength
      && Uuid.Variant(id.bytes) == 1 && Uuid.Version(id.bytes) == 1
      && Time(id.bytes) == CoercedMs(time, now).value
      && Hires(id.bytes) == st.hires
      && ClockSequence(id.bytes) == st.clockSequence.value
      && Node(id.bytes) == NodeBytes(if node.Some? then node.value else mac)
  {
    var epochMs :- ToEpoch(EpochOriginMs, time, now);
    var st := Advance(s, epochMs, random);
    var bytes := Layout(epochMs, st.hires, st.clockSequence.value, if node.Some? then node.value else mac);
    Ok(Generated(st, Id(Uuid1Id, bytes)))
  }

  /** `Uuid1.MIN` as written: neither `Uuid1` nor its ancestors define a
      static `MIN`, so calling it throws a TypeError. */
  function MinAsWritten(): (r: Result<Id>)
    ensures r == Fail(TypeError)
  {
    Fail(TypeError)
  }

  /** `Uuid1.MAX` as written: likewise undefined. */
  function MaxAsWritten(): (r: Result<Id>)
    ensures r == Fail(TypeError)
  {
    Fail(TypeError)
  }

  /** `MIN` as evidently intended: all zero bits but the variant and
      version. */
  function Min(): (id: Id)
    ensures id.kind == Uuid1Id
    ensures id.bytes == ZeroFilled()[6 := 0x10][8 := 0x80]
  {
    Id(Uuid1Id, Stamp(ZeroFilled()))
  }

  /** `MAX` as evidently intended: all one bits but the variant and
      version. */
  function Max(): (id: Id)
    ensures id.kind == Uuid1Id
    ensures id.bytes == OneFilled()[6 := 0x1F][8 := 0xBF]
  {
    Id(Uuid1Id, Stamp(OneFilled()))
  }

  /** The code as written has no bounds; the intended ones carry variant 1
      and version 1 and enclose every generated id. */
  lemma BoundsEncloseGenerated(s: State, time: TimeArg, node: Option<seq<byte>>, now: int, random: seq<byte>, mac: seq<byte>)
    requires Valid(s) && |random| == IdLength
    requires Generate(s, time, node, now, random, mac).Ok?
    ensures MinAsWritten().Fail? && MaxAsWritten().Fail?
    ensures Uuid.Variant(Min().bytes) == 1 && Uuid.Version(Min().bytes) == 1
    ensures Uuid.Variant(Max().bytes) == 1 && Uuid.Version(Max().bytes) == 1
    ensures var id := Generate(s, time, node, now, random, mac).value.id;
      BaseId.Compare(Min(), id) <= 0 && BaseId.Compare(id, Max()) <= 0
  {
    var lo, b, hi := Min().bytes, Generate(s, time, node, now, random, mac).value.id.bytes, Max().bytes;
    assert PointwiseLe(lo, b) by {
      forall i | 0 <= i < IdLength ensures lo[i] <= b[i] {
        if i == 6 { assert b[6] / 16 == 1; }
        if i == 8 { assert b[8] >= 0x80; }
      }
    }
    assert PointwiseLe(b, hi) by {
      forall i | 0 <= i < IdLength ensures b[i] <= hi[i] {
        if i == 6 { assert b[6] / 16 == 1; }
        if i == 8 { assert b[8] < 0xC0; }
      }
    }
    PointwiseLeCompare(lo, b);
    PointwiseLeCompare(b, hi);
  }
}

=== FILE: uuid4.dfy ===
/** `Uuid4`: random bytes stamped with variant 1 and version 4. */
module Uuid4 {
  import opened ByteArray
  import opened BaseId
  import Uuid

  /** Variant 1 then version 4, the stamping every `Uuid4` constructor
      applies. */
  function Stamp(bytes: seq<byte>): (r: seq<byte>)
    requires |bytes| == IdLength
    ensures |r| == IdLength
    ensures Uuid.Variant(r) == 1 && Uuid.Version(r) == 4
    ensures forall i :: 0 <= i < IdLength && i != 6 && i != 8 ==> r[i] == bytes[i]
    ensures r[6] % 16 == bytes[6] % 16 && r[8] % 64 == bytes[8] % 64
  {
    var v := Uuid.SetVariant(1, bytes);
    Uuid.VariantAfterSet(1, bytes);
    Uuid.FieldsIndependent(1, 4, v);
    Uuid.SetVersion(4, v)
  }

  /** `generate`, with the 16 random bytes as a parameter. Every random bit
      survives except the top four of byte 6 and the top two of byte 8. */
  function Generate(random: seq<byte>): (id: Id)
    requires |random| == IdLength
    ensures id.kind == Uuid4Id && |id.bytes| == IdLength
    ensures Uuid.Variant(id.bytes) == 1 && Uuid.Version(id.bytes) == 4
    ensures forall i :: 0 <= i < IdLength && i != 6 && i != 8 ==> id.bytes[i] == random[i]
    ensures id.bytes[6] % 16 == random[6] % 16 && id.bytes[8] % 64 == random[8] % 64
  {
    Id(Uuid4Id, Stamp(random))
  }

  /** `MIN`: zeros except byte 6 = 0x40 and byte 8 = 0x80. */
  function Min(): (id: Id)
    ensures id.kind == Uuid4Id
    ensures id.bytes == ZeroFilled()[6 := 0x40][8 := 0x80]
  {
    Id(Uuid4Id, Stamp(ZeroFilled()))
  }

  /** `MAX`: 0xFF except byte 6 = 0x4F and byte 8 = 0xBF. */
  function Max(): (id: Id)
    ensures id.kind == Uuid4Id
    ensures id.bytes == OneFilled()[6 := 0x4F][8 := 0xBF]
  {
    Id(Uuid4Id, Stamp(OneFilled()))
  }

  /** Both bounds carry variant 1 and version 4. */
  lemma BoundsAreStamped()
    ensures Uuid.Variant(Min().bytes) == 1 && Uuid.Version(Min().bytes) == 4
    ensures Uuid.Variant(Max().bytes) == 1 && Uuid.Version(Max().bytes) == 4
  {
  }

  /** Whatever the random input, `MIN <= generate() <= MAX`. */
  lemma GenerateWithinBounds(random: seq<byte>)
    requires |random| == IdLength
    ensures BaseId.Compare(Min(), Generate(random)) <= 0
    ensures BaseId.Compare(Generate(random), Max()) <= 0
  {
    var lo, id, hi := Min().bytes, Generate(random).bytes, Max().bytes;
    assert PointwiseLe(lo, id) by {
      forall i | 0 <= i < IdLength ensures lo[i] <= id[i] {
        if i == 6 || i == 8 { assert id[i] == id[i] % 64 + (id[i] / 64) * 64; }
      }
    }
    assert PointwiseLe(id, hi) by {
      forall i | 0 <= i < IdLength ensures id[i] <= hi[i] { }
    }
    PointwiseLeCompare(lo, id);
    PointwiseLeCompare(id, hi);
  }
}

=== FILE: uuid6.dfy ===
/** `Uuid6`: the time-based UUID reordered so that the byte order is the
    time order: the 48-bit millisecond time big-endian in bytes 0-5, then
    the 12-bit hires counter under the version nibble in bytes 6-7. The
    clock sequence and node fields are the same as in `Uuid1`. */
module Uuid6 {
  import opened Errors
  import opened ByteArray
  import opened BaseId
  import opened EpochConverter
  import opened UuidClock
  import opened UintConverter
  import ByteOrder
  import Uuid
  import Uuid1

  /** `Date.parse('1582-10-15Z')`, as for `Uuid1`. */
  const EpochOriginMs: int := -12219292800000

  /** `UINT32_RADIX`: the split between `time_high` and `time_low`. */
  const Uint32Radix: nat := 0x1_0000_0000

  /** The getter's `epoch_ms`: `time_high` from bytes 0-1 above the
      unsigned `time_low` of bytes 2-5; that is the big-endian value of
      bytes 0-5. */
  function EpochMs(bytes: seq<byte>): (ms: int)
    requires |bytes| == IdLength
    ensures 0 <= ms < MaxMs
  {
    var timeHigh := bytes[0] as int * 256 + bytes[1];
    var timeLow := bytes[2] as int * 0x100_0000 + bytes[3] as int * 0x1_0000 + bytes[4] as int * 256 + bytes[5];
    timeHigh * Uint32Radix + timeLow
  }

  /** The time field is the big-endian value of bytes 0-5, and with the
      hires bytes the big-endian value of bytes 0-7. */
  lemma EpochMsIsPrefix(bytes: seq<byte>)
    requires |bytes| == IdLength
    ensures EpochMs(bytes) == ExtractUint(0, 6, bytes)
    ensures ExtractUint(0, 8, bytes) == EpochMs(bytes) * 0x1_0000 + (bytes[6] as int * 256 + bytes[7])
  {
    ExtractUintBytes(bytes);
  }

  /** `extractUint` over bytes 0-5 and 0-7, unfolded. */
  lemma ExtractUintBytes(bytes: seq<byte>)
    requires |bytes| == IdLength
    ensures ExtractUint(0, 6, bytes)
         == (bytes[0] as int * 256 + bytes[1]) * 0x1_0000_0000
          + (bytes[2] as int * 0x100_0000 + bytes[3] as int * 0x1_0000 + bytes[4] as int * 256 + bytes[5])
    ensures ExtractUint(0, 8, bytes) == ExtractUint(0, 6, bytes) * 0x1_0000 + (bytes[6] as int * 256 + bytes[7])
  {
    assert ExtractUint(0, 1, bytes) == bytes[0];
    assert ExtractUint(0, 2, bytes) == bytes[0] as int * 256 + bytes[1];
    assert ExtractUint(0, 3, bytes) == ExtractUint(0, 2, bytes) * 256 + bytes[2];
    assert ExtractUint(0, 4, bytes) == ExtractUint(0, 3, bytes) * 256 + bytes[3];
    assert ExtractUint(0, 5, bytes) == ExtractUint(0, 4, bytes) * 256 + bytes[4];
    assert ExtractUint(0, 6, bytes) == ExtractUint(0, 5, bytes) * 256 + bytes[5];
    assert ExtractUint(0, 7, bytes) == ExtractUint(0, 6, bytes) * 256 + bytes[6];
    assert ExtractUint(0, 8, bytes) == ExtractUint(0, 7, bytes) * 256 + bytes[7];
  }

  /** The `time` getter, in milliseconds since 1970. */
  function Time(bytes: seq<byte>): (t: int)
    requires |bytes| == IdLength
    ensures EpochOriginMs <= t < EpochOriginMs + MaxMs
    ensures forall now :: ToEpoch(EpochOriginMs, DateTime(t), now) == Ok(EpochMs(bytes))
  {
    FromEpoch(EpochOriginMs, EpochMs(bytes))
  }

  /** The `hires_time` getter: the low 12 bits of bytes 6-7. */
  function Hires(bytes: seq<byte>): (h: int)
    requires |bytes| == IdLength
    ensures 0 <= h < HiresRadix
  {
    (bytes[6] as int * 256 + bytes[7]) % HiresRadix
  }

  lemma SplitTime(time: int)
    requires 0 <= time < MaxMs
    ensures var timeLow, timeHigh := time % 0x1_0000_0000, time / 0x1_0000_0000;
      (timeHigh / 256 % 256 * 256 + timeHigh % 256) * 0x1_0000_0000
      + (timeLow / 0x100_0000 % 256 * 0x100_0000 + timeLow / 0x1_0000 % 256 * 0x1_0000
         + timeLow / 256 % 256 * 256 + timeLow % 256) == time
  {
    var timeLow, timeHigh := time % 0x1_0000_0000, time / 0x1_0000_0000;
    assert time == timeHigh * 0x1_0000_0000 + timeLow;
    Uuid1.ByteDigits(timeLow);
    assert timeHigh < 0x1_0000;
    var q, d := timeHigh / 256, timeHigh % 256;
    assert timeHigh == q * 256 + d;
    assert q < 256;
    DivModUnique(q, 256, 0, q);
  }

  lemma HiresStore(hires: int)
    requires 0 <= hires < 0x1000
    ensures hires / 256 % 256 < 16
    ensures ((hires / 256 % 256) * 256 + hires % 256) % 0x1000 == hires
  {
    var q, d := hires / 256, hires % 256;
    assert hires == q * 256 + d;
    assert q < 16;
    DivModUnique(q, 256, 0, q);
    DivModUnique(hires, 0x1000, 0, hires);
  }

  lemma HiresOfBytes(high: int, low: int)
    requires 0 <= high < 256 && 0 <= low < 256
    ensures (high * 256 + low) % 0x1000 == (high % 16) * 256 + low
  {
    assert high * 256 + low == (high / 16) * 0x1000 + ((high % 16) * 256 + low);
  }

  /** `setTime`: `time_high` (the bits above 2^32) into bytes 0-1,
      `time_low` into bytes 2-5, and the 12-bit hires counter into bytes
      6-7. */
  function SetTime(time: int, hires: int, bytes: seq<byte>): (r: seq<byte>)
    requires 0 <= time < MaxMs && 0 <= hires < HiresRadix && |bytes| == IdLength
    ensures |r| == IdLength
    ensures forall i :: 8 <= i < IdLength ==> r[i] == bytes[i]
    ensures r[6] < 16
    ensures EpochMs(r) == time && Hires(r) == hires
  {
    var timeLow := time % Uint32Radix;
    var timeHigh := time / Uint32Radix;
    SplitTime(time);
    HiresStore(hires);
    bytes[0 := timeHigh / 256 % 256][1 := timeHigh % 256]
         [2 := timeLow / 0x100_0000 % 256][3 := timeLow / 0x1_0000 % 256]
         [4 := timeLow / 256 % 256][5 := timeLow % 256]
         [6 := hires / 256 % 256][7 := hires % 256]
  }

  /** Variant 1, then version 6. */
  function Stamp(bytes: seq<byte>): (r: seq<byte>)
    requires |bytes| == IdLength
    ensures |r| == IdLength
    ensures Uuid.Variant(r) == 1 && Uuid.Version(r) == 6
    ensures forall i :: 0 <= i < IdLength && i != 6 && i != 8 ==> r[i] == bytes[i]
    ensures r[6] % 16 == bytes[6] % 16 && r[8] % 64 == bytes[8] % 64
  {
    var v := Uuid.SetVariant(1, bytes);
    Uuid.VariantAfterSet(1, bytes);
    Uuid.FieldsIndependent(1, 6, v);
    Uuid.SetVersion(6, v)
  }

  /** The time field reads bytes 0-5; the hires field the low nibble of
      byte 6 and byte 7. */
  lemma FieldsFrame(a: seq<byte>, b: seq<byte>)
    requires |a| == |b| == IdLength
    ensures (forall i :: 0 <= i < 6 ==> a[i] == b[i]) ==> EpochMs(a) == EpochMs(b)
    ensures a[6] % 16 == b[6] % 16 && a[7] == b[7] ==> Hires(a) == Hires(b)
  {
    HiresOfBytes(a[6], a[7]);
    HiresOfBytes(b[6], b[7]);
  }

  /** The bytes of one id: zeros, then `setTime`, `setClockSequence`,
      `setNode`, and the variant and version stamps. */
  function Layout(time: int, hires: int, clock: int, node: seq<byte>): (r: seq<byte>)
    requires 0 <= time < MaxMs && 0 <= hires < HiresRadix && 0 <= clock < ClockSequenceRadix
    ensures |r| == IdLength
    ensures Uuid.Variant(r) == 1 && Uuid.Version(r) == 6
    ensures EpochMs(r) == time && Hires(r) == hires && Uuid1.ClockSequence(r) == clock
    ensures Uuid1.Node(r) == Uuid1.NodeBytes(node)
    ensures r[6] as int * 256 + r[7] == 0x6000 + hires
  {
    var t := SetTime(time, hires, ZeroFilled());
    var c := Uuid1.SetClockSequence(clock, t);
    var r := Stamp(Uuid1.SetNode(node, c));
    LayoutTimeFields(t, c, Uuid1.SetNode(node, c), r, hires);
    LayoutClockFields(c, Uuid1.SetNode(node, c), r);
    r
  }

  /** The time and hires fields survive the later setters. */
  lemma LayoutTimeFields(t: seq<byte>, c: seq<byte>, n: seq<byte>, r: seq<byte>, hires: int)
    requires |t| == |c| == |n| == |r| == IdLength && 0 <= hires < HiresRadix
    requires t[6] < 16 && Hires(t) == hires
    requires forall i :: 0 <= i < IdLength && i != 8 && i != 9 ==> c[i] == t[i]
    requires n[..10] == c[..10]
    requires Uuid.Version(r) == 6
    requires forall i :: 0 <= i < IdLength && i != 6 && i != 8 ==> r[i] == n[i]
    requires r[6] % 16 == n[6] % 16
    ensures EpochMs(r) == EpochMs(t) && Hires(r) == hires
    ensures r[6] as int * 256 + r[7] == 0x6000 + hires
  {
    assert forall i :: 0 <= i < 8 ==> n[i] == t[i] by {
      assert forall i :: 0 <= i < 8 ==> n[i] == n[..10][i];
    }
    FieldsFrame(t, r);
    LayoutHires(r[6], r[7], t[6], t[7], hires);
  }

  /** The clock sequence and node fields survive the stamps. */
  lemma LayoutClockFields(c: seq<byte>, n: seq<byte>, r: seq<byte>)
    requires |c| == |n| == |r| == IdLength
    requires n[..10] == c[..10]
    requires forall i :: 0 <= i < IdLength && i != 6 && i != 8 ==> r[i] == n[i]
    requires r[8] % 64 == n[8] % 64
    ensures Uuid1.ClockSequence(r) == Uuid1.ClockSequence(c)
    ensures Uuid1.Node(r) == Uuid1.Node(n)
  {
    assert n[8] == c[8] && n[9] == c[9] by {
      assert n[8] == n[..10][8] && n[9] == n[..10][9];
    }
    assert r[10..] == n[10..];
    Uuid1.FieldsFrame(c, r);
  }

  /** Under the version nibble 6, bytes 6-7 of a layout read `0x6000` plus
      the hires counter `setTime` stored there. */
  lemma LayoutHires(r6: byte, r7: byte, t6: byte, t7: byte, hires: int)
    requires 0 <= hires < HiresRadix && t6 < 16
    requires r6 / 16 == 6 && r6 % 16 == t6 && r7 == t7
    requires (t6 as int * 256 + t7) % HiresRadix == hires
    ensures r6 as int * 256 + r7 == 0x6000 + hires
    ensures (r6 as int * 256 + r7) % HiresRadix == hires
  {
    assert t6 as int * 256 + t7 < HiresRadix;
    DivModUnique(t6 as int * 256 + t7, HiresRadix, 0, t6 as int * 256 + t7);
    assert r6 == 96 + t6;
    HiresOfBytes(r6, r7);
  }

  /** An id's 64-bit prefix orders by time, then by hires. */
  lemma LayoutOrder(t1: int, h1: int, c1: int, n1: seq<byte>, t2: int, h2: int, c2: int, n2: seq<byte>)
    requires 0 <= t1 < MaxMs && 0 <= h1 < HiresRadix && 0 <= c1 < ClockSequenceRadix
    requires 0 <= t2 < MaxMs && 0 <= h2 < HiresRadix && 0 <= c2 < ClockSequenceRadix
    requires t1 < t2 || (t1 == t2 && h1 < h2)
    ensures ByteArray.Compare(Layout(t1, h1, c1, n1), Layout(t2, h2, c2, n2)) == -1
  {
    var a, b := Layout(t1, h1, c1, n1), Layout(t2, h2, c2, n2);
    EpochMsIsPrefix(a);
    EpochMsIsPrefix(b);
    if t1 < t2 {
      ByteOrder.LeadingByteDominates(t1, t2, 0x1_0000, 0x6000 + h1, 0x6000 + h2);
    }
    ByteOrder.PrefixValueDecides(a, b, 8);
  }

  /** `generate({ node, time })` from generator state `s`; the clock,
      random buffer and MAC address are parameters as for `Uuid1`. */
  function Generate(s: State, time: TimeArg, node: Option<seq<byte>>, now: int, random: seq<byte>, mac: seq<byte>)
    : (r: Result<Uuid1.Generated>)
    requires Valid(s) && |random| == IdLength
    ensures r.Ok? <==> ToEpoch(EpochOriginMs, time, now).Ok?
    ensures r.Fail? ==> r.error == InvalidEpoch
    ensures r.Ok? ==>
      var id, st := r.value.id, r.value.state;
      && st == Advance(s, ToEpoch(EpochOriginMs, time, now).value, random)
      && Valid(st) && st.clockSequence.Some? && 0 <= st.hires
      && id.kind == Uuid6Id && |id.bytes| == IdLength
      && Uuid.Variant(id.bytes) == 1 && Uuid.Version(id.bytes) == 6
      && Time(id.bytes) == CoercedMs(time, now).value
      && Hires(id.bytes) == st.hires
      && Uuid1.ClockSequence(id.bytes) == st.clockSequence.value
      && Uuid1.Node(id.bytes) == Uuid1.NodeBytes(if node.Some? then node.value else mac)
  {
    var epochMs :- ToEpoch(EpochOriginMs, time, now);
    var st := Advance(s, epochMs, random);
    var bytes := Layout(epochMs, st.hires, st.clockSequence.value, if node.Some? then node.value else mac);
    Ok(Uuid1.Generated(st, Id(Uuid6Id, bytes)))
  }

  /** Ids generated one after the other sort in generation order when the
      second is for a later millisecond, or for the same millisecond
      without the hires counter wrapping. */
  lemma SuccessiveIdsIncrease(s: State, t1: TimeArg, t2: TimeArg, n1: Option<seq<byte>>, n2: Option<seq<byte>>,
                              now1: int, now2: int, r1: seq<byte>, r2: seq<byte>, mac: seq<byte>)
    requires Valid(s) && |r1| == IdLength && |r2| == IdLength
    requires Generate(s, t1, n1, now1, r1, mac).Ok?
    requires Generate(Generate(s, t1, n1, now1, r1, mac).value.state, t2, n2, now2, r2, mac).Ok?
    requires var e1, e2 := ToEpoch(EpochOriginMs, t1, now1).value, ToEpoch(EpochOriginMs, t2, now2).value;
      e1 < e2 || (e1 == e2 && Generate(s, t1, n1, now1, r1, mac).value.state.hires + 1 < HiresRadix)
    ensures var g1 := Generate(s, t1, n1, now1, r1, mac).value;
      BaseId.Compare(g1.id, Generate(g1.state, t2, n2, now2, r2, mac).value.id) == -1
  {
    var g1 := Generate(s, t1, n1, now1, r1, mac).value;
    var g2 := Generate(g1.state, t2, n2, now2, r2, mac).value;
    var e1, e2 := ToEpoch(EpochOriginMs, t1, now1).value, ToEpoch(EpochOriginMs, t2, now2).value;
    var s1, s2 := g1.state, g2.state;
    if e1 == e2 {
      assert s2.hires == s1.hires + 1;
    }
    LayoutOrder(e1, s1.hires, s1.clockSequence.value, if n1.Some? then n1.value else mac,
                e2, s2.hires, s2.clockSequence.value, if n2.Some? then n2.value else mac);
  }
  /** `Uuid6.MIN` as written: not defined on `Uuid6` or its ancestors, so
      calling it throws a TypeError. */
  function MinAsWritten(): (r: Result<Id>)
    ensures r == Fail(TypeError)
  {
    Fail(TypeError)
  }

  /** `Uuid6.MAX` as written: likewise undefined. */
  function MaxAsWritten(): (r: Result<Id>)
    ensures r == Fail(TypeError)
  {
    Fail(TypeError)
  }

  /** `MIN` as evidently intended: all zero bits but the variant and
      version. */
  function Min(): (id: Id)
    ensures id.kind == Uuid6Id
    ensures id.bytes == ZeroFilled()[6 := 0x60][8 := 0x80]
  {
    Id(Uuid6Id, Stamp(ZeroFilled()))
  }

  /** `MAX` as evidently intended: all one bits but the variant and
      version. */
  function Max(): (id: Id)
    ensures id.kind == Uuid6Id
    ensures id.bytes == OneFilled()[6 := 0x6F][8 := 0xBF]
  {
    Id(Uuid6Id, Stamp(OneFilled()))
  }

  /** The code as written has no bounds; the intended ones carry variant 1
      and version 6 and enclose every generated id. */
  lemma BoundsEncloseGenerated(s: State, time: TimeArg, node: Option<seq<byte>>, now: int, random: seq<byte>, mac: seq<byte>)
    requires Valid(s) && |random| == IdLength
    requires Generate(s, time, node, now, random, mac).Ok?
    ensures MinAsWritten().Fail? && MaxAsWritten().Fail?
    ensures Uuid.Variant(Min().bytes) == 1 && Uuid.Version(Min().bytes) == 6
    ensures Uuid.Variant(Max().bytes) == 1 && Uuid.Version(Max().bytes) == 6
    ensures var id := Generate(s, time, node, now, random, mac).value.id;
      BaseId.Compare(Min(), id) <= 0 && BaseId.Compare(id, Max()) <= 0
  {
    var lo, b, hi := Min().bytes, Generate(s, time, node, now, random, mac).value.id.bytes, Max().bytes;
    assert PointwiseLe(lo, b) by {
      forall i | 0 <= i < IdLength ensures lo[i] <= b[i] {
        if i == 6 { assert b[6] / 16 == 6; }
        if i == 8 { assert b[8] >= 0x80; }
      }
    }
    assert PointwiseLe(b, hi) by {
      forall i | 0 <= i < IdLength ensures b[i] <= hi[i] {
        if i == 6 { assert b[6] / 16 == 6; }
        if i == 8 { assert b[8] < 0xC0; }
      }
    }
    PointwiseLeCompare(lo, b);
    PointwiseLeCompare(b, hi);
  }
}

=== FILE: uuid_clock.dfy ===
/** The per-process counters of the time-based UUIDs (versions 1 and 6):
    a 14-bit clock sequence, a 12-bit sub-millisecond counter ("hires") and
    the latest time seen. Both versions keep their own copy and update it by
    the same rules, modelled once here. */
module UuidClock {
  import opened Errors
  import opened ByteArray
  import UintConverter

  const ClockSequenceRadix: nat := 0x4000
  const HiresRadix: nat := 0x1000

  /** `_clock_sequence` (null until seeded), `_hires_time` and
      `_previous_time`. */
  datatype State = State(clockSequence: Option<int>, hires: int, previousTime: int)

  /** `reset`: no clock sequence, both counters at -1. */
  function Reset(): (s: State)
    ensures s.clockSequence.None? && s.hires == -1 && s.previousTime == -1
  {
    State(None, -1, -1)
  }

  /** The states `reset` and `generate` can produce. */
  predicate Valid(s: State)
  {
    && (s.clockSequence.Some? ==> 0 <= s.clockSequence.value < ClockSequenceRadix)
    && -1 <= s.hires < HiresRadix
    && -1 <= s.previousTime
  }

  /** `incrementClockSequence`: add one modulo 2^14. A null sequence plus
      one is 1 in JavaScript. */
  function Increment(clock: Option<int>): (c: int)
    ensures 0 <= c < ClockSequenceRadix
    ensures clock.Some? && 0 <= clock.value < ClockSequenceRadix - 1 ==> c == clock.value + 1
    ensures clock.Some? && clock.value == ClockSequenceRadix - 1 ==> c == 0
  {
    var n := match clock case Some(v) => v case None => 0;
    (n + 1) % ClockSequenceRadix
  }

  /** The seed `setClockSequence` draws from bytes 8 and 9 of a random
      buffer. */
  function Seed(random: seq<byte>): (c: int)
    requires |random| == IdLength
    ensures 0 <= c < ClockSequenceRadix
    ensures c % 256 == random[9]
    ensures c / 256 == random[8] % 64
  {
    var hi, lo := random[8] as int, random[9] as int;
    var low := (hi % 64) * 256 + lo;
    assert hi * 256 + lo == (hi / 64) * ClockSequenceRadix + low;
    UintConverter.DivModUnique(hi * 256 + lo, ClockSequenceRadix, hi / 64, low);
    UintConverter.DivModUnique(low, 256, hi % 64, lo);
    (random[8] * 256 + random[9]) % ClockSequenceRadix
  }

  /** The counter updates of one `generate` at epoch time `time`, in the
      order the code runs them: `setTime` moves hires (wrapping at 2^12
      into a clock bump), `setClockSequence` seeds or bumps the clock, and
      `generate` advances the previous time. */
  function Advance(s: State, time: int, random: seq<byte>): (r: State)
    requires |random| == IdLength
    ensures r.clockSequence.Some?
    ensures Valid(s) ==> Valid(r) && 0 <= r.hires
    ensures r.previousTime >= s.previousTime && r.previousTime >= time
    ensures r.previousTime == s.previousTime || r.previousTime == time
  {
    var hires1 := if time > s.previousTime then 0 else s.hires + 1;
    var wrapped := hires1 == HiresRadix;
    var hires := if wrapped then 0 else hires1;
    var clock1 := if wrapped then Some(Increment(s.clockSequence)) else s.clockSequence;
    var clock :=
      if clock1.None? then Seed(random)
      else if time < s.previousTime then Increment(clock1)
      else clock1.value;
    var previous := if time > s.previousTime then time else s.previousTime;
    State(Some(clock), hires, previous)
  }

  /** The update rules, case by case, for a seeded state. */
  lemma AdvanceRules(s: State, time: int, random: seq<byte>)
    requires |random| == IdLength && Valid(s) && s.clockSequence.Some?
    ensures var r := Advance(s, time, random);
      && (time > s.previousTime ==> r.hires == 0 && r.clockSequence == s.clockSequence)
      && (time == s.previousTime && s.hires + 1 < HiresRadix ==>
            r.hires == s.hires + 1 && r.clockSequence == s.clockSequence)
      && (time == s.previousTime && s.hires + 1 == HiresRadix ==>
            r.hires == 0 && r.clockSequence == Some(Increment(s.clockSequence)))
      && (time < s.previousTime && s.hires + 1 < HiresRadix ==>
            r.hires == s.hires + 1 && r.clockSequence == Some(Increment(s.clockSequence)))
      && (time < s.previousTime && s.hires + 1 == HiresRadix ==>
            r.hires == 0 && r.clockSequence == Some(Increment(Some(Increment(s.clockSequence)))))
  {
  }

  /** The first `generate` after `reset` (at any epoch time, which is never
      negative) seeds the clock and starts hires at 0. */
  lemma AdvanceFromReset(time: int, random: seq<byte>)
    requires |random| == IdLength && 0 <= time
    ensures Advance(Reset(), time, random) == State(Some(Seed(random)), 0, time)
  {
  }

  /** At a repeated time the counter pair (hires, clock sequence) always
      changes, so two ids of the same millisecond differ. */
  lemma RepeatedTimeMovesCounters(s: State, random: seq<byte>)
    requires |random| == IdLength && Valid(s) && s.clockSequence.Some?
    ensures var r := Advance(s, s.previousTime, random);
      r.hires != s.hires || r.clockSequence != s.clockSequence
  {
  }
}

=== FILE: uuid_coder.dfy ===
/** UUID text (`UuidCoder`): the hex encoding split 8-4-4-4-12 by hyphens
    on output; hyphens anywhere are ignored on input. */
module UuidCoder {
  import opened Errors
  import opened ByteArray
  import opened CoderBase
  import HexCoder

  /** An encoding has 36 characters: 32 digits and four hyphens. */
  const EncodingLength: nat := 36

  /** `replace(/-/g, '')`: drop every hyphen, keep everything else in
      order. */
  function RemoveHyphens(s: string): (r: string)
    ensures |r| <= |s|
    ensures forall i :: 0 <= i < |r| ==> r[i] != '-'
  {
    if s == [] then []
    else (if s[0] == '-' then [] else [s[0]]) + RemoveHyphens(s[1..])
  }

  /** Stripping hyphens distributes over concatenation. */
  lemma {:induction false} RemoveHyphensAppend(a: string, b: string)
    ensures RemoveHyphens(a + b) == RemoveHyphens(a) + RemoveHyphens(b)
  {
    if a == [] {
      assert a + b == b;
    } else {
      assert (a + b)[0] == a[0] && (a + b)[1..] == a[1..] + b;
      RemoveHyphensAppend(a[1..], b);
      var head := if a[0] == '-' then [] else [a[0]];
      assert RemoveHyphens(a + b) == head + RemoveHyphens(a[1..] + b);
      assert RemoveHyphens(a) == head + RemoveHyphens(a[1..]);
    }
  }

  /** A string without hyphens is left as it is. */
  lemma {:induction false} RemoveHyphensNone(s: string)
    requires forall i :: 0 <= i < |s| ==> s[i] != '-'
    ensures RemoveHyphens(s) == s
  {
    if s != [] {
      RemoveHyphensNone(s[1..]);
    }
  }

  /** Stripping commutes with case mapping, which never touches `-`. */
  lemma RemoveHyphensCase(s: string)
    ensures RemoveHyphens(Lower(s)) == Lower(RemoveHyphens(s))
    ensures RemoveHyphens(Upper(s)) == Upper(RemoveHyphens(s))
  {
    RemoveHyphensLower(s);
    RemoveHyphensUpper(s);
  }

  lemma {:induction false} RemoveHyphensLower(s: string)
    ensures RemoveHyphens(Lower(s)) == Lower(RemoveHyphens(s))
  {
    if s != [] {
      assert Lower(s)[1..] == Lower(s[1..]);
      RemoveHyphensLower(s[1..]);
      var t := RemoveHyphens(s[1..]);
      if s[0] != '-' {
        assert RemoveHyphens(s) == [s[0]] + t;
        assert Lower([s[0]] + t) == [LowerChar(s[0])] + Lower(t);
      }
    }
  }

  lemma {:induction false} RemoveHyphensUpper(s: string)
    ensures RemoveHyphens(Upper(s)) == Upper(RemoveHyphens(s))
  {
    if s != [] {
      assert Upper(s)[1..] == Upper(s[1..]);
      RemoveHyphensUpper(s[1..]);
      var t := RemoveHyphens(s[1..]);
      if s[0] != '-' {
        assert RemoveHyphens(s) == [s[0]] + t;
        assert Upper([s[0]] + t) == [UpperChar(s[0])] + Upper(t);
      }
    }
  }

  /** The outcome of a JavaScript call that may also return `undefined`. */
  datatype Outcome = Decoded(bytes: seq<byte>) | Undefined | Thrown(error: Error)

  /** `decode` as written. A value without `replace` raises a TypeError,
      which is translated into InvalidDecodingError. The test
      `error instanceof TypeError|InvalidDecodingError` parses as
      `(error instanceof TypeError) | InvalidDecodingError`, and the right
      operand converts to 0, so the hex decoder's own InvalidDecodingError
      is caught and dropped: the call returns `undefined`. */
  function DecodeAsWritten(v: JsValue): (r: Outcome)
    ensures !v.Text? ==> r == Thrown(InvalidDecoding)
    ensures v.Text? ==> (r.Decoded? <==> HexCoder.IsValidEncoding(Text(RemoveHyphens(v.s))))
    ensures v.Text? && !HexCoder.IsValidEncoding(Text(RemoveHyphens(v.s))) ==> r == Undefined
    ensures r.Decoded? ==> |r.bytes| == IdLength
  {
    if !v.Text? then Thrown(InvalidDecoding)
    else
      match HexCoder.Decode(Text(RemoveHyphens(v.s)))
      case Ok(b) => Decoded(b)
      case Fail(_) => Undefined
  }

  /** The string `zz` is not hex, yet `decode` as written returns
      `undefined` instead of throwing. */
  lemma InvalidTextIsSwallowed()
    ensures DecodeAsWritten(Text("zz")) == Undefined
  {
    assert RemoveHyphens("zz") == "zz";
  }

  /** `decode` as evidently intended: every failure is an
      InvalidDecodingError. */
  function Decode(v: JsValue): (r: Result<seq<byte>>)
    ensures r.Ok? <==> v.Text? && HexCoder.IsValidEncoding(Text(RemoveHyphens(v.s)))
    ensures r.Ok? ==> |r.value| == IdLength
    ensures r.Fail? ==> r.error == InvalidDecoding
  {
    if !v.Text? then Fail(InvalidDecoding) else HexCoder.Decode(Text(RemoveHyphens(v.s)))
  }

  /** The corrected `decode` agrees with the code as written wherever the
      latter returns or throws, and throws where it returns `undefined`. */
  lemma DecodeCorrectsAsWritten(v: JsValue)
    ensures DecodeAsWritten(v).Decoded? ==> Decode(v) == Ok(DecodeAsWritten(v).bytes)
    ensures DecodeAsWritten(v).Thrown? ==> Decode(v) == Fail(DecodeAsWritten(v).error)
    ensures DecodeAsWritten(v).Undefined? ==> Decode(v) == Fail(InvalidDecoding)
  {
  }

  /** The five groups of a 32-digit string joined by hyphens. */
  function Group(h: string): (r: string)
    requires |h| == HexCoder.EncodingLength
    ensures |r| == EncodingLength
    ensures r[8] == r[13] == r[18] == r[23] == '-'
  {
    h[..8] + "-" + h[8..12] + "-" + h[12..16] + "-" + h[16..20] + "-" + h[20..]
  }

  /** `encode`: the hex encoding, regrouped. */
  function Encode(v: JsValue): (r: Result<string>)
    ensures r.Ok? <==> IsValidBytes(v)
    ensures r.Ok? ==> |r.value| == EncodingLength && r.value[8] == r.value[13] == r.value[18] == r.value[23] == '-'
    ensures r.Fail? ==> r.error == InvalidEncoding
  {
    var h :- HexCoder.Encode(v);
    Ok(Group(h))
  }

  /** Stripping a hyphen-joined pair strips each side. */
  lemma HyphenJoin(x: string, y: string)
    ensures RemoveHyphens(x + "-" + y) == RemoveHyphens(x) + RemoveHyphens(y)
  {
    assert RemoveHyphens("-") == [] by {
      assert "-"[1..] == [];
    }
    RemoveHyphensAppend(x + "-", y);
    RemoveHyphensAppend(x, "-");
  }

  /** Stripping five hyphen-joined groups strips each group. */
  lemma StripGroups(a: string, b: string, c: string, d: string, e: string)
    ensures RemoveHyphens(a + "-" + b + "-" + c + "-" + d + "-" + e)
         == RemoveHyphens(a) + RemoveHyphens(b) + RemoveHyphens(c) + RemoveHyphens(d) + RemoveHyphens(e)
  {
    HyphenJoin(a, b);
    HyphenJoin(a + "-" + b, c);
    HyphenJoin(a + "-" + b + "-" + c, d);
    HyphenJoin(a + "-" + b + "-" + c + "-" + d, e);
  }

  /** Hyphens dropped from a grouped string give the digits back. */
  lemma UngroupGroup(h: string)
    requires |h| == HexCoder.EncodingLength && forall i :: 0 <= i < |h| ==> h[i] != '-'
    ensures RemoveHyphens(Group(h)) == h
  {
    var a, b, c, d, e := h[..8], h[8..12], h[12..16], h[16..20], h[20..];
    StripGroups(a, b, c, d, e);
    NoHyphensInSlice(h, 0, 8);
    NoHyphensInSlice(h, 8, 12);
    NoHyphensInSlice(h, 12, 16);
    NoHyphensInSlice(h, 16, 20);
    NoHyphensInSlice(h, 20, 32);
    assert h[20..32] == h[20..];
    SplitInFive(h, 8, 12, 16, 20);
  }

  /** A slice of a hyphen-free string is stripped to itself. */
  lemma NoHyphensInSlice(h: string, i: nat, j: nat)
    requires i <= j <= |h| && forall k :: 0 <= k < |h| ==> h[k] != '-'
    ensures RemoveHyphens(h[i..j]) == h[i..j]
  {
    RemoveHyphensNone(h[i..j]);
  }

  /** A sequence is the concatenation of its pieces between four cuts. */
  lemma SplitInFive<T>(s: seq<T>, i: nat, j: nat, k: nat, l: nat)
    requires i <= j <= k <= l <= |s|
    ensures s == s[..i] + s[i..j] + s[j..k] + s[k..l] + s[l..]
  {
  }

  /** The `encode` output reads back, under both `decode`s, as the bytes it
      came from. */
  lemma EncodeThenDecode(b: seq<byte>)
    requires |b| == IdLength
    ensures Encode(Uint8Array(b)).Ok?
    ensures Decode(Text(Encode(Uint8Array(b)).value)) == Ok(b)
    ensures DecodeAsWritten(Text(Encode(Uint8Array(b)).value)) == Decoded(b)
  {
    var h := HexCoder.Encode(Uint8Array(b)).value;
    forall i | 0 <= i < |h| ensures h[i] != '-' {
      assert HexCoder.IsUpperHex(h[i]);
    }
    UngroupGroup(h);
    HexCoder.EncodeThenDecode(b);
  }

  /** `decode` as written over the hex coder as written
      (`HexCoder.DecodeAsWritten`): the TypeError a valid text raises is
      caught and rethrown as InvalidDecodingError, the hex coder's own
      error is swallowed, so no text ever decodes. */
  function DecodeOverHexAsWritten(v: JsValue): (r: Outcome)
    ensures !r.Decoded?
    ensures !v.Text? ==> r == Thrown(InvalidDecoding)
    ensures v.Text? ==> (r == Thrown(InvalidDecoding) <==> HexCoder.IsValidEncoding(Text(RemoveHyphens(v.s))))
    ensures v.Text? ==> (r == Undefined <==> !HexCoder.IsValidEncoding(Text(RemoveHyphens(v.s))))
  {
    if !v.Text? then Thrown(InvalidDecoding)
    else
      match HexCoder.DecodeAsWritten(Text(RemoveHyphens(v.s)))
      case Ok(b) => Decoded(b)
      case Fail(e) => if e == TypeError then Thrown(InvalidDecoding) else Undefined
  }

  /** `encode` as written over the hex coder as written: the TypeError for
      sixteen bytes escapes, anything else is InvalidEncodingError. */
  function EncodeOverHexAsWritten(v: JsValue): (r: Result<string>)
    ensures r.Fail?
    ensures r.error == TypeError <==> IsValidBytes(v)
    ensures r.error == InvalidEncoding <==> !IsValidBytes(v)
  {
    HexCoder.EncodeAsWritten(v)
  }

  /** Every sixteen-byte buffer shows the knock-on effect: the corrected
      coder round-trips it, while as written its encoding is refused and
      its encoding's decoding throws. */
  lemma UuidTextRefusedOverHexAsWritten(b: seq<byte>)
    requires |b| == IdLength
    ensures EncodeOverHexAsWritten(Uint8Array(b)) == Fail(TypeError)
    ensures DecodeOverHexAsWritten(Text(Encode(Uint8Array(b)).value)) == Thrown(InvalidDecoding)
    ensures Decode(Text(Encode(Uint8Array(b)).value)) == Ok(b)
  {
    EncodeThenDecode(b);
  }

  /** A canonical encoding: upper-case digits in 8-4-4-4-12 groups. */
  predicate IsCanonical(s: string)
  {
    && |s| == EncodingLength
    && s[8] == s[13] == s[18] == s[23] == '-'
    && forall i :: 0 <= i < |s| && i != 8 && i != 13 && i != 18 && i != 23 ==> HexCoder.IsUpperHex(s[i])
  }

  /** Every canonical encoding survives `decode` then `encode`. */
  lemma DecodeThenEncode(s: string)
    requires IsCanonical(s)
    ensures Decode(Text(s)).Ok?
    ensures Encode(Uint8Array(Decode(Text(s)).value)) == Ok(s)
  {
    var h := s[..8] + s[9..13] + s[14..18] + s[19..23] + s[24..];
    assert |h| == 32;
    forall i | 0 <= i < 32 ensures HexCoder.IsUpperHex(h[i]) && h[i] != '-' {
      var j := if i < 8 then i else if i < 12 then i + 1 else if i < 16 then i + 2 else if i < 20 then i + 3 else i + 4;
      assert h[i] == s[j];
    }
    assert Group(h) == s;
    UngroupGroup(h);
    HexCoder.DecodeThenEncode(h);
  }

  /** `decode` ignores a hyphen inserted anywhere. */
  lemma DecodeIgnoresHyphen(s: string, k: nat)
    requires k <= |s|
    ensures Decode(Text(s[..k] + "-" + s[k..])) == Decode(Text(s))
  {
    var a, b := s[..k], s[k..];
    assert RemoveHyphens("-") == [] by {
      assert "-"[1..] == [];
    }
    RemoveHyphensAppend(a + "-", b);
    RemoveHyphensAppend(a, "-");
    RemoveHyphensAppend(a, b);
    assert RemoveHyphens(a + "-" + b) == RemoveHyphens(a) + RemoveHyphens(b);
    assert s == a + b;
  }

  /** `decode` reads either case alike. */
  lemma DecodeIgnoresCase(s: string)
    ensures Decode(Text(Lower(s))) == Decode(Text(s))
    ensures Decode(Text(Upper(s))) == Decode(Text(s))
  {
    RemoveHyphensCase(s);
    HexCoder.DecodeIgnoresCase(RemoveHyphens(s));
  }

  /** The all-zero buffer encodes to the nil UUID text. */
  lemma ZeroEncoding()
    ensures Encode(Uint8Array(ZeroFilled())) == Ok("00000000-0000-0000-0000-000000000000")
  {
    HexCoder.FilledEncodings();
    ZeroGroup();
  }

  lemma ZeroGroup()
    ensures Group(seq(32, _ => '0')) == "00000000-0000-0000-0000-000000000000"
  {
    var z: string := seq(32, _ => '0');
    assert z[..8] == "00000000" && z[20..] == "000000000000";
    assert z[8..12] == z[12..16] == z[16..20] == "0000";
    ZeroJoin();
  }

  lemma ZeroJoin()
    ensures "00000000" + "-" + "0000" + "-" + "0000" + "-" + "0000" + "-" + "000000000000" == "00000000-0000-0000-0000-000000000000"
  {
  }

  /** The all-one buffer encodes to the F-filled UUID text. */
  lemma OneEncoding()
    ensures Encode(Uint8Array(OneFilled())) == Ok("FFFFFFFF-FFFF-FFFF-FFFF-FFFFFFFFFFFF")
  {
    HexCoder.FilledEncodings();
    OneGroup();
  }

  lemma OneGroup()
    ensures Group(seq(32, _ => 'F')) == "FFFFFFFF-FFFF-FFFF-FFFF-FFFFFFFFFFFF"
  {
    var f: string := seq(32, _ => 'F');
    assert f[..8] == "FFFFFFFF" && f[20..] == "FFFFFFFFFFFF";
    assert f[8..12] == f[12..16] == f[16..20] == "FFFF";
    OneJoin();
  }

  lemma OneJoin()
    ensures "FFFFFFFF" + "-" + "FFFF" + "-" + "FFFF" + "-" + "FFFF" + "-" + "FFFFFFFFFFFF" == "FFFFFFFF-FFFF-FFFF-FFFF-FFFFFFFFFFFF"
  {
  }
}

=== FILE: uuid_nil.dfy ===
/** `UuidNil`: the all-zero UUID. */
module UuidNil {
  import opened ByteArray
  import opened BaseId
  import Uuid

  /** Variant 0 then version 0, the stamping every `UuidNil` constructor
      applies; on zeros it changes nothing. */
  function Stamp(bytes: seq<byte>): (r: seq<byte>)
    requires |bytes| == IdLength
    ensures |r| == IdLength
    ensures Uuid.Variant(r) == 0 && Uuid.Version(r) == 0
    ensures bytes == ZeroFilled() ==> r == bytes
  {
    var v := Uuid.SetVariant(0, bytes);
    Uuid.VariantAfterSet(0, bytes);
    Uuid.FieldsIndependent(0, 0, v);
    Uuid.SetVersion(0, v)
  }

  /** `generate`: stamped zeros, which are 16 zero bytes. */
  function Generate(): (id: Id)
    ensures id.kind == UuidNilId && id.bytes == ZeroFilled()
  {
    Id(UuidNilId, Stamp(ZeroFilled()))
  }

  /** `MIN`: the same 16 zero bytes. */
  function Min(): (id: Id)
    ensures id.kind == UuidNilId && id.bytes == ZeroFilled()
  {
    Id(UuidNilId, Stamp(ZeroFilled()))
  }

  /** `MAX`: the same 16 zero bytes. */
  function Max(): (id: Id)
    ensures id.kind == UuidNilId && id.bytes == ZeroFilled()
  {
    Id(UuidNilId, Stamp(ZeroFilled()))
  }

  /** Every nil id has variant 0 and version 0, and any two are equal. */
  lemma NilIdsAgree()
    ensures Uuid.Variant(Generate().bytes) == 0 && Uuid.Version(Generate().bytes) == 0
    ensures Equal(Generate(), Min()) && Equal(Min(), Max()) && Equal(Generate(), Max())
  {
  }
}

=== FILE: versioned_id_factory.dfy ===
/** `VersionedIdFactory`: a factory over an abstract class (such as
    `Uuid`) that dispatches to one `IdFactory` per registered version. */
module VersionedIdFactory {
  import opened Errors
  import opened ByteArray
  import opened BaseId
  import opened EpochConverter
  import Uuid
  import IdFactory

  /** The classes with a `version` getter. */
  predicate HasVersion(kind: Kind)
  {
    kind.AnyUuid? || kind.Uuid1Id? || kind.Uuid4Id? || kind.Uuid6Id? || kind.UuidNilId?
  }

  /** The table key of an id: its `version`, or `undefined` (None) for a
      class without that getter. A buffer too short to have byte 6 reads
      `undefined >>> 4`, which is 0. */
  function VersionKey(id: Id): (key: Option<int>)
    ensures key.None? <==> !HasVersion(id.kind)
    ensures key.Some? ==> 0 <= key.value < 16
    ensures key.Some? && Uuid.VersionByte < |id.bytes| ==> key.value == Uuid.Version(id.bytes)
  {
    if !HasVersion(id.kind) then None
    else if Uuid.VersionByte < |id.bytes| then Some(Uuid.Version(id.bytes))
    else Some(0)
  }

  /** The key a class is registered under: the version of its `MIN`. */
  function ClassKey(kind: Kind): Option<int>
    requires IdFactory.ClassMin(kind).Ok?
  {
    VersionKey(IdFactory.ClassMin(kind).value)
  }

  /** The keys of the concrete classes: the ULIDs have none, the UUIDs
      their version number. */
  lemma ClassKeys()
    ensures ClassKey(UlidId) == None && ClassKey(UlidMonotonicId) == None
    ensures ClassKey(Uuid1Id) == Some(1) && ClassKey(Uuid4Id) == Some(4)
    ensures ClassKey(Uuid6Id) == Some(6) && ClassKey(UuidNilId) == Some(0)
  {
  }

  /** Every registered class's `MIN` is defined. */
  predicate AllConcrete(kinds: seq<Kind>)
  {
    forall i :: 0 <= i < |kinds| ==> IdFactory.ClassMin(kinds[i]).Ok?
  }

  /** No class after index `i` shares the key of `kinds[i]`. */
  predicate LastWithKey(kinds: seq<Kind>, i: int)
    requires AllConcrete(kinds) && 0 <= i < |kinds|
  {
    forall j :: i < j < |kinds| ==> ClassKey(kinds[j]) != ClassKey(kinds[i])
  }

  /** The constructor's `reduce`: for each class in order, read its
      `MIN().version` and assign a fresh factory under that key, so a later
      class with the same key replaces an earlier one. A class without
      `MIN` throws a TypeError. */
  function BuildTable(kinds: seq<Kind>, canonical: IdFactory.Coder, raw: IdFactory.Coder)
    : (r: Result<map<Option<int>, IdFactory.Factory>>)
    ensures r.Ok? <==> AllConcrete(kinds)
    ensures r.Fail? ==> r.error == TypeError
    decreases |kinds|
  {
    if kinds == [] then Ok(map[])
    else
      var init, last := kinds[..|kinds| - 1], kinds[|kinds| - 1];
      assert AllConcrete(kinds) <==> AllConcrete(init) && IdFactory.ClassMin(last).Ok? by {
        assert forall i :: 0 <= i < |init| ==> init[i] == kinds[i];
      }
      var table :- BuildTable(init, canonical, raw);
      var min :- IdFactory.ClassMin(last);
      Ok(table[VersionKey(min) := IdFactory.New(last, canonical, raw)])
  }

  /** One step of the `reduce`: the table of all but the last class, with
      the last class's factory under its key. */
  lemma BuildTableStep(kinds: seq<Kind>, canonical: IdFactory.Coder, raw: IdFactory.Coder)
    requires AllConcrete(kinds) && kinds != []
    ensures var init, last := kinds[..|kinds| - 1], kinds[|kinds| - 1];
      && AllConcrete(init)
      && (forall i :: 0 <= i < |init| ==> init[i] == kinds[i])
      && BuildTable(kinds, canonical, raw).value
         == BuildTable(init, canonical, raw).value[ClassKey(last) := IdFactory.New(last, canonical, raw)]
  {
    var init := kinds[..|kinds| - 1];
    assert forall i :: 0 <= i < |init| ==> init[i] == kinds[i];
  }

  /** The table's keys are exactly the keys of the classes given. */
  lemma BuildTableKeys(kinds: seq<Kind>, canonical: IdFactory.Coder, raw: IdFactory.Coder)
    requires AllConcrete(kinds)
    ensures forall i :: 0 <= i < |kinds| ==> ClassKey(kinds[i]) in BuildTable(kinds, canonical, raw).value
    ensures forall key :: key in BuildTable(kinds, canonical, raw).value ==>
      exists i :: 0 <= i < |kinds| && ClassKey(kinds[i]) == key
  {
    BuildTableHasKeys(kinds, canonical, raw);
    BuildTableKeysFromClasses(kinds, canonical, raw);
  }

  /** Every class's key is in the table. */
  lemma {:induction false} BuildTableHasKeys(kinds: seq<Kind>, canonical: IdFactory.Coder, raw: IdFactory.Coder)
    requires AllConcrete(kinds)
    ensures forall i :: 0 <= i < |kinds| ==> ClassKey(kinds[i]) in BuildTable(kinds, canonical, raw).value
    decreases |kinds|
  {
    if kinds != [] {
      var init := kinds[..|kinds| - 1];
      BuildTableStep(kinds, canonical, raw);
      BuildTableHasKeys(init, canonical, raw);
    }
  }

  /** Every key in the table is some class's key. */
  lemma {:induction false} BuildTableKeysFromClasses(kinds: seq<Kind>, canonical: IdFactory.Coder, raw: IdFactory.Coder)
    requires AllConcrete(kinds)
    ensures forall key :: key in BuildTable(kinds, canonical, raw).value ==>
      exists i :: 0 <= i < |kinds| && ClassKey(kinds[i]) == key
    decreases |kinds|
  {
    if kinds != [] {
      var init, last := kinds[..|kinds| - 1], kinds[|kinds| - 1];
      BuildTableStep(kinds, canonical, raw);
      BuildTableKeysFromClasses(init, canonical, raw);
      var table := BuildTable(init, canonical, raw).value;
      forall key | key in BuildTable(kinds, canonical, raw).value
        ensures exists i :: 0 <= i < |kinds| && ClassKey(kinds[i]) == key
      {
        if key != ClassKey(last) {
          assert key in table;
          var i :| 0 <= i < |init| && ClassKey(init[i]) == key;
          assert ClassKey(kinds[i]) == key;
        } else {
          assert ClassKey(kinds[|kinds| - 1]) == key;
        }
      }
    }
  }

  /** Each key holds the factory of the last class with that key. */
  lemma {:induction false} BuildTableOverrides(kinds: seq<Kind>, canonical: IdFactory.Coder, raw: IdFactory.Coder)
    requires AllConcrete(kinds)
    ensures forall i :: 0 <= i < |kinds| && LastWithKey(kinds, i) ==>
      var m := BuildTable(kinds, canonical, raw).value;
      ClassKey(kinds[i]) in m && m[ClassKey(kinds[i])] == IdFactory.New(kinds[i], canonical, raw)
    decreases |kinds|
  {
    if kinds != [] {
      var init, last := kinds[..|kinds| - 1], kinds[|kinds| - 1];
      BuildTableStep(kinds, canonical, raw);
      BuildTableOverrides(init, canonical, raw);
      var table := BuildTable(init, canonical, raw).value;
      var r := BuildTable(kinds, canonical, raw).value;
      forall i | 0 <= i < |kinds| && LastWithKey(kinds, i)
        ensures ClassKey(kinds[i]) in r && r[ClassKey(kinds[i])] == IdFactory.New(kinds[i], canonical, raw)
      {
        if i < |init| {
          assert ClassKey(last) != ClassKey(kinds[i]);
          assert LastWithKey(init, i) by {
            forall j | i < j < |init| ensures ClassKey(init[j]) != ClassKey(init[i]) {
              assert init[j] == kinds[j];
            }
          }
        }
      }
    }
  }

  /** A versioned factory: the abstract class, the coders, and the
      version table. */
  datatype VersionedFactory = VersionedFactory(
    abstractKind: Kind, canonical: IdFactory.Coder, raw: IdFactory.Coder,
    table: map<Option<int>, IdFactory.Factory>)

  /** Every factory in the table is filed under its own class's key. */
  predicate WellKeyed(table: map<Option<int>, IdFactory.Factory>)
  {
    forall key :: key in table ==> IdFactory.ClassMin(table[key].kind).Ok? && ClassKey(table[key].kind) == key
  }

  /** `new VersionedIdFactory({ abstract_id, versioned_ids, canonical_coder,
      raw_coder })`. */
  function New(abstractKind: Kind, kinds: seq<Kind>, canonical: IdFactory.Coder, raw: IdFactory.Coder)
    : (r: Result<VersionedFactory>)
    ensures r.Ok? <==> AllConcrete(kinds)
    ensures r.Fail? ==> r.error == TypeError
    ensures r.Ok? ==> r.value.abstractKind == abstractKind && WellKeyed(r.value.table)
    ensures r.Ok? ==> r.value.table == BuildTable(kinds, canonical, raw).value
  {
    var table :- BuildTable(kinds, canonical, raw);
    assert WellKeyed(table) by {
      BuildTableKeys(kinds, canonical, raw);
      BuildTableOverrides(kinds, canonical, raw);
      forall key | key in table
        ensures IdFactory.ClassMin(table[key].kind).Ok? && ClassKey(table[key].kind) == key
      {
        var i :| 0 <= i < |kinds| && ClassKey(kinds[i]) == key;
        var k := LastIndexWithKey(kinds, i);
        assert table[ClassKey(kinds[k])] == IdFactory.New(kinds[k], canonical, raw);
      }
    }
    Ok(VersionedFactory(abstractKind, canonical, raw, table))
  }

  /** The last index carrying the same key as index `i`. */
  function LastIndexWithKey(kinds: seq<Kind>, i: int): (k: int)
    requires AllConcrete(kinds) && 0 <= i < |kinds|
    ensures i <= k < |kinds| && ClassKey(kinds[k]) == ClassKey(kinds[i]) && LastWithKey(kinds, k)
    decreases |kinds| - i
  {
    if LastWithKey(kinds, i) then i
    else
      var j :| i < j < |kinds| && ClassKey(kinds[j]) == ClassKey(kinds[i]);
      LastIndexWithKey(kinds, j)
  }

  /** `detect(factory, { version })`: the factory registered under
      `version`, or UnsupportedVersion. */
  function Detect(vf: VersionedFactory, version: Option<int>): (r: Result<IdFactory.Factory>)
    ensures r.Ok? <==> version in vf.table
    ensures r.Ok? ==> r.value == vf.table[version]
    ensures r.Fail? ==> r.error == UnsupportedVersion
  {
    if version in vf.table then Ok(vf.table[version]) else Fail(UnsupportedVersion)
  }

  /** `generate({ version, ... })`: the registered factory's `generate`
      with the same argument. */
  function Generate(vf: VersionedFactory, g: IdFactory.Generators, version: Option<int>, time: TimeArg,
                    node: Option<seq<byte>>, env: IdFactory.Env)
    : (r: Result<IdFactory.Generated>)
    requires IdFactory.ValidGenerators(g) && |env.random| == IdLength
    ensures version !in vf.table ==> r == Fail(UnsupportedVersion)
    ensures version in vf.table ==> r == IdFactory.Generate(vf.table[version], g, time, node, env)
  {
    var f :- Detect(vf, version);
    IdFactory.Generate(f, g, time, node, env)
  }

  /** A call that may fill a cache of a registered factory. */
  datatype Cached = Cached(factory: VersionedFactory, result: Result<Id>)

  /** `MIN({ version })`: the registered factory's cached `MIN`. */
  function Min(vf: VersionedFactory, version: Option<int>): (r: Cached)
    ensures version !in vf.table ==> r == Cached(vf, Fail(UnsupportedVersion))
    ensures version in vf.table ==>
      var c := IdFactory.Min(vf.table[version]);
      r == Cached(vf.(table := vf.table[version := c.factory]), c.result)
    ensures WellKeyed(vf.table) ==> WellKeyed(r.factory.table)
  {
    match Detect(vf, version)
    case Fail(e) => Cached(vf, Fail(e))
    case Ok(f) =>
      var c := IdFactory.Min(f);
      Cached(vf.(table := vf.table[version := c.factory]), c.result)
  }

  /** `MAX({ version })`: the registered factory's cached `MAX`. */
  function Max(vf: VersionedFactory, version: Option<int>): (r: Cached)
    ensures version !in vf.table ==> r == Cached(vf, Fail(UnsupportedVersion))
    ensures version in vf.table ==>
      var c := IdFactory.Max(vf.table[version]);
      r == Cached(vf.(table := vf.table[version := c.factory]), c.result)
    ensures WellKeyed(vf.table) ==> WellKeyed(r.factory.table)
  {
    match Detect(vf, version)
    case Fail(e) => Cached(vf, Fail(e))
    case Ok(f) =>
      var c := IdFactory.Max(f);
      Cached(vf.(table := vf.table[version := c.factory]), c.result)
  }

  /** `construct(bytes)`: wrap the bytes in the abstract class, read its
      version, and rewrap them in the registered class; an unregistered
      version keeps the abstract id instead of throwing. No other error
      can arise on this path. */
  function Construct(vf: VersionedFactory, bytes: seq<byte>): (r: Id)
    ensures r.bytes == bytes
    ensures VersionKey(Id(vf.abstractKind, bytes)) in vf.table ==>
      r.kind == vf.table[VersionKey(Id(vf.abstractKind, bytes))].kind
    ensures VersionKey(Id(vf.abstractKind, bytes)) !in vf.table ==> r.kind == vf.abstractKind
  {
    var key := VersionKey(Id(vf.abstractKind, bytes));
    match Detect(vf, key)
    case Ok(f) => Id(f.kind, bytes)
    case Fail(_) => Id(vf.abstractKind, bytes)
  }

  /** `construct(bytes)` as written: its first step calls
      `super.construct`, which `IdFactory` does not define, so every call
      throws a TypeError before any version is read. */
  function ConstructAsWritten(vf: VersionedFactory, bytes: seq<byte>): (r: Result<Id>)
    ensures r == Fail(TypeError)
  {
    Fail(TypeError)
  }

  /** Where the code as written throws for every input, the intended
      `construct` answers an id over the same bytes; for a UUID whose
      version is registered, an id of that version's class. */
  lemma ConstructCorrectsAsWritten(vf: VersionedFactory, bytes: seq<byte>)
    requires WellKeyed(vf.table) && vf.abstractKind == AnyUuid && |bytes| == IdLength
    requires Some(Uuid.Version(bytes)) in vf.table
    ensures ConstructAsWritten(vf, bytes).Fail?
    ensures Construct(vf, bytes).bytes == bytes
    ensures Construct(vf, bytes).kind == vf.table[Some(Uuid.Version(bytes))].kind
    ensures ClassKey(Construct(vf, bytes).kind) == Some(Uuid.Version(bytes))
  {
  }

  /** With a versioned abstract class and a well-keyed table, `construct`
      yields either the abstract id or an id of the class whose version
      the bytes carry. */
  lemma ConstructMatchesVersion(vf: VersionedFactory, bytes: seq<byte>)
    requires WellKeyed(vf.table) && HasVersion(vf.abstractKind) && |bytes| == IdLength
    ensures var r := Construct(vf, bytes);
      r.kind != vf.abstractKind ==> IdFactory.ClassMin(r.kind).Ok? && ClassKey(r.kind) == Some(Uuid.Version(bytes))
  {
  }

  /** Integer-keyed table entries from version `v` upwards, in ascending
      key order. */
  function Ascending(table: map<Option<int>, IdFactory.Factory>, v: nat): (r: seq<IdFactory.Factory>)
    requires v <= 16
    ensures forall f :: f in r ==> exists k :: v <= k < 16 && Some(k) in table && table[Some(k)] == f
    ensures forall k :: v <= k < 16 && Some(k) in table ==> table[Some(k)] in r
    decreases 16 - v
  {
    if v == 16 then []
    else (if Some(v) in table then [table[Some(v)]] else []) + Ascending(table, v + 1)
  }

  /** Keys are versions 0-15 or `undefined`. */
  predicate KeysInRange(table: map<Option<int>, IdFactory.Factory>)
  {
    forall key :: key in table ==> key.None? || 0 <= key.value < 16
  }

  /** `versioned_ids`: `Object.values` of the table, which lists integer
      keys in ascending order before the `undefined` key. It holds exactly
      the registered factories. */
  function VersionedIds(vf: VersionedFactory): (r: seq<IdFactory.Factory>)
    requires KeysInRange(vf.table)
    ensures forall f :: f in r ==> f in vf.table.Values
    ensures forall key :: key in vf.table ==> vf.table[key] in r
  {
    var asc := Ascending(vf.table, 0);
    var r := asc + (if None in vf.table then [vf.table[None]] else []);
    forall f | f in r ensures f in vf.table.Values {
      if f in asc {
        var k :| 0 <= k < 16 && Some(k) in vf.table && vf.table[Some(k)] == f;
        assert vf.table[Some(k)] in vf.table.Values;
      } else {
        assert vf.table[None] in vf.table.Values;
      }
    }
    forall key | key in vf.table ensures vf.table[key] in r {
      if key.Some? {
        assert vf.table[Some(key.value)] in asc;
      }
    }
    r
  }

  /** Every table built by `New` has its keys in range. */
  lemma WellKeyedInRange(table: map<Option<int>, IdFactory.Factory>)
    requires WellKeyed(table)
    ensures KeysInRange(table)
  {
  }
}
